=== FILE: README.md ===
# aiopolly in Dafny

A model of aiopolly, an asyncio client for the Amazon Polly text-to-speech
service, and the properties proved about it. The model covers these parts:

- **Polly** (`polly.dfy`): the `Polly` client and its registry of the nine
  service operations (DeleteLexicon, DescribeVoices, GetLexicon,
  GetSpeechSynthesisTask, ListLexicons, ListSpeechSynthesisTasks, PutLexicon,
  StartSpeechSynthesisTask, SynthesizeSpeech). It also covers the
  instance-defaults map, the payload and path parameters each operation
  sends, and what `synthesize_speech` does with a response: it reads the
  speech-mark stream, builds the `Speech` record, and decides whether the
  converter runs.
- **Api** (`api.dfy`): the HTTP client. It builds the base URL, prepares and
  sends a request in a fixed order, and decides each response: JSON or
  bytes, the 200..399 success window, the no-data shortcut, the
  expected-content-type check, and the error message of a failed call.
- **Method** (`method.dfy`): the operation descriptor. It extracts the
  placeholders of an endpoint template and splits the call parameters into
  path and query parameters, raising errors for unfilled, unexpected and
  missing parameters. It resolves the endpoint and the URL, and normalises
  `expected_keys` and `expected_content_types`.
- **Payload** (`payload.dfy`): `generate_params`, which turns keyword
  arguments into request parameters. Exclusions and defaults apply, and keys
  are camel-cased. Nested dicts and lists are processed recursively by a
  nested call that binds a dict's keys as keyword arguments: a `use_camel`
  key sets that call's flag, and an `exclude` or `defaults` key is a
  `TypeError`.
- **Case** (`case.dfy`): the snake_case and PascalCase converters, for one
  string and recursively over dicts and lists.
- **Exceptions** (`exceptions.dfy`): the exception classes, their default
  messages and HTTP codes, and how the message is composed.
- **Speech** (`speech.dfy`): the synthesized `Speech`, with its format, its
  clean text and its file name. Also the speech-mark list and its per-type
  views.
- **OpusConverter** (`opus_converter.dfy`): the ffmpeg command parameters,
  the check of the process output, the duration parsed from ffmpeg's
  diagnostics, and the fields `convert` updates on a speech.
- **Ssml** (`ssml.dfy`): the SSML tag builders, the attribute renderer
  `make_params`, and the tag stripper `clean_text_from_ssml_tags`.
- **Lexicon** (`lexicon.dfy`): building PLS pronunciation-lexicon documents,
  as defined in section 4 of the W3C Pronunciation Lexicon Specification 1.0.
- **StrEnum** (`strenum.dfy`): generating string-enum values, the `filter`
  query, and the lookup of unknown values.

`common.dfy` holds the shared vocabulary:

- the `Option` and `Result` wrappers;
- Python's `str` helpers (`split`, `join`, `strip`, `lower`, `replace`)
  and `int()` of a string; whitespace is Python's `str.isspace` set, while
  case and digits are ASCII only;
- the Python values passing through the library (`Value`);
- insertion-ordered dictionaries (`Dict`, a sequence of pairs with distinct
  keys; `d[k] = v` keeps an existing key's position and appends a new key).

Python objects whose fields the source updates in place are classes:

- `Polly.Polly`;
- `Api.Client`;
- `Speech.Speech`, whose `convert` updates its streams;
- `OpusConverter.OpusConverter`;
- `Payload.NameSet`, the caller's `exclude` set that `generate_params`
  extends;
- `Ssml.Exclusions`, the `exclude` argument of `make_params`;
- `Lexicon.LexiconTemplate`, and `Lexicon.LexemeList`, the list object a
  template shares with its caller;
- `Exceptions.PollyException`.

Loops become methods with invariants: `GenerateParams`, `FilterParams`,
`MakeParams`, `Filter`, `GenerateValue` and `AppendDetails`.

Some operations the library cannot see become function parameters:

- rendering a value with `str()`;
- `urlencode` and `json.dumps`;
- SigV4 signing and the transport;
- `json.loads` of a speech-mark line;
- the ffmpeg process.

## Model

| member | source | states |
|---|---|---|
| Case.Capitalize | aiopolly/utils/case.py:7 | capitalising a part keeps its length and adds no underscore |
| Case.StringToCamel | aiopolly/utils/case.py:6-7 | a camel-cased name never contains '_' |
| Case.StringToSnake | aiopolly/utils/case.py:10-14 | a snake-cased name has no upper-case letter |
| Case.MarkRunsOfCamel | aiopolly/utils/case.py:11 | the capital-run substitution puts exactly one '_' before each capitalised part of a camel name |
| Case.LowerUnderscored | aiopolly/utils/case.py:11-14 | lower-casing the marked parts gives back '_' followed by the snake name |
| Case.SnakeCamelRoundTrip | aiopolly/utils/case.py:6-14 | string_to_snake(string_to_camel(s)) == s for every snake name whose non-final parts have two or more characters |
| Case.CamelInjective | aiopolly/utils/case.py:6-7 | two such snake names with the same camel name are equal |
| Case.OneLetterPartMerges | aiopolly/utils/case.py:6-14 | the length condition is needed: "a_b" comes back as "ab" |
| Case.ToCaseFailsIff | aiopolly/utils/case.py:17-33 | to_case fails exactly for a top-level value that is not a str, dict or list when no_exception is off; any other value is returned unchanged |
| Case.NestedDictKeys | aiopolly/utils/case.py:23-26 | a converted dict has distinct keys, and they are exactly the converted keys of the input |
| Case.ConvertedPairsKeys | aiopolly/utils/case.py:24-26 | the converted pairs carry exactly the converted keys |
| Case.NestedRoundTrip | aiopolly/utils/case.py:17-37 | snake-casing a camel-cased snake-keyed structure (nested dicts and lists) gives it back |
| Case.DictRoundTrip | aiopolly/utils/case.py:23-26 | the round trip for a dict |
| Case.PairsRoundTrip | aiopolly/utils/case.py:24-26 | the round trip for each key and value of a dict |
| Case.CamelPairsDistinct | aiopolly/utils/case.py:24 | camel-casing distinct snake keys gives distinct keys, so no entry is lost |
| Case.ListRoundTrip | aiopolly/utils/case.py:27-29 | the round trip for a list, element by element |
| Case.ToCaseRoundTrip | aiopolly/utils/case.py:36-37 | to_snake(to_camel(obj)) == obj for a snake name, snake-keyed dict or list |
| Payload.NameSet.constructor | aiopolly/utils/payload.py:11-14 | the caller's set holds the given names |
| Payload.GenerateParams | aiopolly/utils/payload.py:6-35 | the loop computes `Outcome` on the settled exclusions: the TypeError of a nested call exactly when `Raises`, else the parameters `Generate` gives; a caller's exclude set gains DEFAULT_EXCLUDE in place |
| Payload.ProcessValue | aiopolly/utils/payload.py:26-31 | a dict value is processed by a nested call and a list element by element, a nested TypeError propagating (`ProcessedOutcome`); a caller set that already holds the settled exclusions is left holding them |
| Payload.Nested | aiopolly/utils/payload.py:27 | `generate_params(**d, exclude=..., defaults=...)` raises TypeError iff `d` has an `exclude` or `defaults` key or its own processing raises; otherwise it is `d` processed with the flag its `use_camel` key binds |
| Payload.GenKeys | aiopolly/utils/payload.py:17-33 | loop invariant: the keys so far are those of the accumulator plus the out-keys of the kept entries seen |
| Payload.GenerateKeys | aiopolly/utils/payload.py:16-35 | an output key is exactly the out-key of an argument that is not excluded, not private, and set or defaulted |
| Payload.GenerateExcludes | aiopolly/utils/payload.py:18-19 | without camel-casing, an excluded or '_'-prefixed name never appears in the output |
| Payload.GenerateCamelKeys | aiopolly/utils/payload.py:33 | with camel-casing, no output key contains '_' |
| Payload.GetGenKept | aiopolly/utils/payload.py:17-33 | a kept argument ends up under its out-key with its processed or default value |
| Payload.GeneratePrecedence | aiopolly/utils/payload.py:21-33 | a passed value wins over the default; an unset argument takes the non-None default or is left out |
| Payload.ProcessedList | aiopolly/utils/payload.py:29-31 | a list raises iff one of its dicts binds `exclude` or `defaults` or raises inside; otherwise it keeps its length and order, dicts processed with their own `use_camel` and other elements copied |
| Payload.ProcessedDict | aiopolly/utils/payload.py:26-27 | a nested dict raises iff it binds `exclude` or `defaults` or raises inside; otherwise it is processed with the same exclusions and defaults, its `use_camel` key sets the flag and never appears as a key, and its keys are camel-cased unless that flag is false |
| Payload.NestedKeywords | aiopolly/utils/payload.py:27 | a nested `{'use_camel': False, 'a_b': 1}` gives `{'a_b': 1}`; a nested dict with an `exclude` key raises |
| Payload.FlatNeverRaises | aiopolly/utils/payload.py:17-33 | keyword arguments whose kept values hold no dict never make `generate_params` raise |
| Method.CloseBrace | aiopolly/types/method.py:29 | the lazy `{(.*?)}` match ends at the first '}' with no newline before it |
| Method.NeededEndpointParams | aiopolly/types/method.py:27-30 | no template means no path parameters |
| Method.PlaceholdersOfBuild | aiopolly/types/method.py:29 | a template built from literal segments and names has exactly those names as placeholders, in order |
| Method.FormatOfBuild | aiopolly/types/method.py:52 | for a template whose literal segments have no brace and whose fields are plain keyword names (`FieldName`), `str.format` interleaves the segments with the rendered values |
| Method.FirstAbsent | aiopolly/types/method.py:69-72 | None iff every needed parameter was supplied; otherwise a needed parameter that was not supplied, with every needed parameter before it supplied (the first) |
| Method.FilterParams | aiopolly/types/method.py:54-74 | the loop computes `Partition`: the path and query parameters, or the first ValueError |
| Method.ScanOkIff | aiopolly/types/method.py:58-72 | the scan succeeds iff no value is None, every key is needed or allowed as a query parameter, and every needed parameter is supplied; failures are ValueErrors |
| Method.ScanOkSelects | aiopolly/types/method.py:62-65 | a successful scan collects exactly the selected entries |
| Method.PartitionOkIff | aiopolly/types/method.py:54-74 | `_filter_params` succeeds iff there is no None value, no unexpected key and no missing needed parameter |
| Method.PartitionRejectsNone | aiopolly/types/method.py:59-60 | a None value is always rejected with a ValueError |
| Method.SelectMembers | aiopolly/types/method.py:62-65 | a selection holds exactly the entries on its side of the needed names |
| Method.PartitionSplits | aiopolly/types/method.py:54-74 | on success, path and query parameters split the input into two disjoint parts that together hold every entry |
| Method.GetSelect | aiopolly/types/method.py:62-63 | a path parameter keeps its supplied value |
| Method.GetEndpointCases | aiopolly/types/method.py:42-52 | a fixed endpoint wins; otherwise the RuntimeError and ValueError cases, or the formatted template |
| Method.GetUrlFixed | aiopolly/types/method.py:32-40 | with a fixed endpoint the URL succeeds iff no parameter is None, and gets a query string iff there are parameters |
| Method.GetUrlTemplate | aiopolly/types/method.py:32-40 | with such a template and all its names supplied, the URL is the base, the interleaved path and the query string of any other parameters |
| Method.GetUrlOnePlaceholder | aiopolly/types/method.py:32-52 | a template of one plain keyword field after a brace-free prefix, with just its parameter, gives base + prefix + rendered value |
| Method.SelectLookups | aiopolly/types/method.py:62-63 | the path parameters supply every placeholder with the values of the input |
| Method.SelectOthersIff | aiopolly/types/method.py:38-39 | a query string is added iff some parameter is not a placeholder |
| Method.KeyAttr | aiopolly/types/method.py:85-92 | an attribute lookup succeeds iff `expected_keys` is set and holds the name, and then gives its value |
| Method.MakeKeysDict | aiopolly/types/method.py:94-100 | the normalised `expected_keys` has distinct keys |
| Method.KeyEntries | aiopolly/types/method.py:100 | an iterable of names becomes `{snake(k)_key: k}` entries, in order |
| Method.KeyAttrOfStr | aiopolly/types/method.py:96-97 | a single name k is reachable as the attribute `snake(k)_key` and as no other |
| Method.MakeKeysDictIter | aiopolly/types/method.py:100 | the attributes of an iterable are exactly `snake(k)_key` for its names |
| Method.MakeContentTypes | aiopolly/types/method.py:102-106 | one content type becomes a one-element tuple, and a tuple is kept |
| Api.BaseUrlFromTemplate | aiopolly/polly/api.py:39-42 | the base-URL template has the placeholders service_name and region, and formatting it gives `https://polly.<region>.amazonaws.com` |
| Api.UrlInterleave | aiopolly/polly/api.py:39-42 | the template's segments interleaved with the service and region give the base URL |
| Api.HeaderGet | aiopolly/polly/polly.py:347 | None iff no header name matches ignoring case; otherwise the value of the first header whose name matches |
| Api.GetContentDecision | aiopolly/polly/api.py:93-112 | a read response is accepted iff its status is in 200..399 and the operation returns no data or expects its content type; a failed status raises an API error, never a type error |
| Api.GetContentReadFails | aiopolly/polly/api.py:133-137 | a JSON body that cannot be decoded raises before the status is looked at |
| Api.ReadContentCases | aiopolly/polly/api.py:96-101 | non-JSON content is the raw bytes; JSON is decoded, and snake-cased when the client converts |
| Api.ErrorMessageCases | aiopolly/polly/api.py:114-124 | the error message is the JSON `message`, else the body, else the text of the response |
| Api.Client.constructor | aiopolly/polly/api.py:32-42 | the client keeps the region, formats the base URL from it, and converts JSON keys to snake case |
| Api.Client.Prepare | aiopolly/polly/api.py:71-79 | the URL comes from the descriptor, the body is the dumped payload iff there is one, and the headers sign exactly that URL, method and body |
| Api.Client.RequestSequence | aiopolly/polly/api.py:66-91 | a URL error happens before anything is sent; a transport error becomes AioHTTPException for that URL; a result is the content that get_content accepted from the response received |
| Exceptions.HttpCodeTable | aiopolly/utils/exceptions.py:44-162 | 404 is only LexiconNotFound and 500 only ServiceFailure; the other codes are 400; exactly the listed classes have no code |
| Exceptions.BaseMessage | aiopolly/utils/exceptions.py:13-14 | a non-empty message replaces the class default |
| Exceptions.ComposeMessageShape | aiopolly/utils/exceptions.py:13-20 | the message starts with the base; request details follow iff a URL is given; the cause is appended last; nothing is added iff there is neither URL nor cause |
| Exceptions.ComposeMessageResponse | aiopolly/utils/exceptions.py:15-18 | the response is shown iff a URL is given and the response is truthy |
| Exceptions.AppendDetails | aiopolly/utils/exceptions.py:13-20 | the method builds `ComposeMessage` |
| Exceptions.PollyException.constructor | aiopolly/utils/exceptions.py:7-25 | the exception keeps its kind, URL, response and cause, with the composed message |
| Speech.StripKeeps | aiopolly/types/speech.py:50 | stripping adds no character |
| Speech.FormatNameCases | aiopolly/types/speech.py:50 | the format name is the stripped text before the first '_' |
| Speech.WordLength | aiopolly/types/speech.py:77 | a word ends at Python whitespace (`str.isspace`: the ASCII controls 9-13 and 28-31, the space and the Unicode spaces) or at the end |
| Speech.JoinWordsLength | aiopolly/types/speech.py:77 | re-joining the words of a string does not lengthen it |
| Speech.JoinDropLastLength | aiopolly/types/speech.py:77 | dropping the last word does not lengthen the joined text |
| Speech.TruncatedShape | aiopolly/types/speech.py:75-77 | names of up to 100 characters are kept; longer ones become at most 103 characters ending in "..." |
| Speech.Speech.constructor | aiopolly/types/speech.py:23-38 | a new speech holds the given fields and is not converted |
| Speech.Speech.CleanTextShape | aiopolly/types/speech.py:56-63 | the clean text is no longer than the text; plain text and text without '<' are kept |
| Speech.Speech.FilenameUnconverted | aiopolly/types/speech.py:46-80 | an unconverted speech is named `<voice> - <clean text, truncated>.<format>` |
| Speech.Speech.FilenameOfPlainText | aiopolly/types/speech.py:69-80 | a short plain-text speech is named `<voice> - <text>.<format>` |
| Speech.GetMarks | aiopolly/types/speech.py:131-132 | filtering never lengthens the list |
| Speech.GetMarksAppend | aiopolly/types/speech.py:131-132 | filtering distributes over concatenation, so order is kept |
| Speech.GetMarksExact | aiopolly/types/speech.py:131-132 | the result holds every mark of the type as often as the list does, and no other mark |
| Speech.GetMarksValuesShape | aiopolly/types/speech.py:134-135 | the values are the filtered marks' values, position by position |
| Speech.ViewsDisjoint | aiopolly/types/speech.py:115-129 | each view holds only its own type, and a word mark is in no other view |
| Speech.TotalTimeLast | aiopolly/types/speech.py:137-139 | the total time is the time of the last mark; there is none for an empty list |
| OpusConverter.FilterEntries | aiopolly/utils/converter/opus_converter.py:105-107 | each filter entry is non-empty, and there are no more entries than filters |
| OpusConverter.FilterEntriesEmpty | aiopolly/utils/converter/opus_converter.py:105-107 | there are no entries iff every filter is excluded |
| OpusConverter.FilterEntriesMembers | aiopolly/utils/converter/opus_converter.py:105-107 | the entries are exactly `key=value` for the filters that are not excluded |
| OpusConverter.CmdParamsShape | aiopolly/utils/converter/opus_converter.py:104-113 | the given bitrate and rate win over the per-format defaults; input parameters only for pcm; `-filter:a` plus the joined entries iff some filter is not excluded |
| OpusConverter.ResolvePrecedence | aiopolly/utils/converter/opus_converter.py:86-109 | for the bitrate and the sample rate alike (any table value): a truthy call argument wins, else a truthy converter default, else the per-format table |
| OpusConverter.CheckProcess | aiopolly/utils/converter/opus_converter.py:127-134 | the process succeeds iff both stdout and stderr are non-empty; no stderr is its own error |
| OpusConverter.DigitRun | aiopolly/utils/converter/opus_converter.py:139 | the run of digits at a position is maximal |
| OpusConverter.MatchAt | aiopolly/utils/converter/opus_converter.py:139 | a match is three groups of 1 to 3 digits |
| OpusConverter.FirstMatch | aiopolly/utils/converter/opus_converter.py:139 | the leftmost match is made of digits |
| OpusConverter.NoDigitsNoDuration | aiopolly/utils/converter/opus_converter.py:137-145 | diagnostics without a digit give no duration |
| OpusConverter.MatchAtParts | aiopolly/utils/converter/opus_converter.py:139 | `h:m:s` with maximal digit runs of 1 to 3 digits matches as those three groups |
| OpusConverter.FindDurationParts | aiopolly/utils/converter/opus_converter.py:139-141 | a time preceded by no digit is the first match |
| OpusConverter.DurationOfMatch | aiopolly/utils/converter/opus_converter.py:139-141 | the duration is hours * 3600 + minutes * 60 + seconds of the first match |
| OpusConverter.DurationOfTime | aiopolly/utils/converter/opus_converter.py:137-145 | diagnostics whose first time is h:m:s give h * 3600 + m * 60 + s |
| OpusConverter.FindDurationOf | aiopolly/utils/converter/opus_converter.py:137-145 | a time of numbers below 1000 after digit-free text gives its duration in seconds |
| OpusConverter.OpusConverter.constructor | aiopolly/utils/converter/opus_converter.py:68-83 | the converter keeps the default bitrate and rate, the flags, and the filters |
| OpusConverter.OpusConverter.Convert | aiopolly/utils/converter/opus_converter.py:85-102 | on failure the speech is unchanged; on success it is converted, holds the output as converted stream and, unless the original is kept, as audio stream, and records ogg_opus, the duration and the command parameters |
| OpusConverter.FormatAfterConvert | aiopolly/types/speech.py:46-54 | after conversion the converted format is "ogg", and so is the format iff the audio was replaced |
| Ssml.AbsentMembers | aiopolly/utils/ssml/actions.py:39-40 | the default names a set gains are exactly those it did not already hold |
| Ssml.ExtendedMembers | aiopolly/utils/ssml/actions.py:39-42 | a set or list of exclusions afterwards holds its old members and the default names and nothing else, a set without duplicates; a tuple is left as it is |
| Ssml.Exclusions.constructor | aiopolly/utils/ssml/actions.py:36 | the caller's exclusion container |
| Ssml.MakeParams | aiopolly/utils/ssml/actions.py:35-56 | the loop renders `Attributes`, and the caller's set or list is extended in place |
| Ssml.Shown | aiopolly/utils/ssml/actions.py:50-56 | no more attributes than parameters |
| Ssml.ShownMembers | aiopolly/utils/ssml/actions.py:50-56 | an attribute is shown iff its parameter is set, not excluded and allowed, under its mapped name |
| Ssml.DefaultNamesHidden | aiopolly/utils/ssml/actions.py:12 | `tag`, `text` and `sep` never become attributes |
| Ssml.ShownConcat | aiopolly/utils/ssml/actions.py:50-56 | attributes keep the order of the parameters |
| Ssml.Clean | aiopolly/utils/ssml/actions.py:59-60 | stripping tags never lengthens the text |
| Ssml.CleanNoTags | aiopolly/utils/ssml/actions.py:59-60 | text without '<' is unchanged |
| Ssml.CleanElement | aiopolly/utils/ssml/actions.py:59-60 | an element with plain content and plain attributes strips to its content |
| Ssml.CleanEmptyTag | aiopolly/utils/ssml/actions.py:59-60 | an empty element strips to nothing |
| Ssml.AttributesPlain | aiopolly/utils/ssml/actions.py:50-56 | rendered attributes of plain values contain no tag characters |
| Ssml.PauseAttributes | aiopolly/utils/ssml/actions.py:67-80 | break attributes: strength, then `time` in seconds, then `time` in milliseconds, each only when given |
| Ssml.PauseSeconds | aiopolly/utils/ssml/actions.py:67-80 | `pause(seconds=n)` is `<break time="ns"/>` |
| Ssml.ProsodyUnits | aiopolly/utils/ssml/actions.py:123-128 | a non-zero int volume gets "dB" and a rate or pitch "%"; anything else is unchanged |
| Ssml.ProsodyAttributes | aiopolly/utils/ssml/actions.py:114-138 | prosody attributes in parameter order, with their units and mapped names |
| Ssml.SayAsAttributes | aiopolly/utils/ssml/actions.py:141-152 | `interpret-as`, then `format` when given |
| Ssml.BreathAttributes | aiopolly/utils/ssml/actions.py:206-208 | duration, frequency and volume, each when given |
| Ssml.BreathCases | aiopolly/utils/ssml/actions.py:201-208 | auto-breath text with any breath parameter is an error; otherwise it is wrapped in `amazon:auto-breaths`; a single breath never fails |
| Ssml.TimbreCases | aiopolly/utils/ssml/actions.py:219-227 | adjust wins and gets a '+' when non-negative; absolute is used otherwise; neither is an error |
| Ssml.CleanParagraph | aiopolly/utils/ssml/actions.py:100-101 | a paragraph strips to its text |
| Ssml.CleanSentence | aiopolly/utils/ssml/actions.py:104-105 | a sentence strips to its text |
| Ssml.CleanSub | aiopolly/utils/ssml/actions.py:155-156 | a substitution strips to the abbreviation |
| Ssml.CleanPhoneme | aiopolly/utils/ssml/actions.py:108-111 | a phoneme strips to its text |
| Ssml.CleanLang | aiopolly/utils/ssml/actions.py:89-93 | a lang element strips to its text and the trailing '.' |
| Ssml.CleanMark | aiopolly/utils/ssml/actions.py:96-97 | a mark strips to nothing |
| Ssml.CleanPartsBuilders | aiopolly/utils/ssml/actions.py:63-64 | speak, drc, soft and whisper strip to their joined parts (drc with its trailing '.') |
| Ssml.CleanEmphasis | aiopolly/utils/ssml/actions.py:83-86 | emphasis strips to its text |
| Ssml.CleanPause | aiopolly/utils/ssml/actions.py:67-80 | a break strips to nothing |
| Ssml.WhisperUnquoted | aiopolly/utils/ssml/actions.py:230-231 | the whisper builder as written puts no ASCII quote around `whispered`; the corrected one does |
| Lexicon.CreateLexemeShape | aiopolly/utils/lexicon.py:52-59 | a lexeme is framed by `<lexeme>` and `</lexeme>`, starts with its grapheme, and has the phoneme and alias elements iff they are given |
| Lexicon.LexemeToStrCases | aiopolly/utils/lexicon.py:68-71 | a lexeme object fails iff it has neither a truthy alias nor a truthy phoneme; otherwise it is create_lexeme of its fields |
| Lexicon.UnexpectedKey | aiopolly/utils/lexicon.py:29 | the first keyword that create_lexeme does not accept |
| Lexicon.CreateLexemeFromFields | aiopolly/utils/lexicon.py:28-29 | a dict of a lexeme's fields gives the same lexeme |
| Lexicon.CreateLexemeFromErrors | aiopolly/utils/lexicon.py:28-29 | a dict is rejected for an unexpected keyword iff it has one |
| Lexicon.JoinResults | aiopolly/utils/lexicon.py:27 | joining fails iff some part fails |
| Lexicon.FirstErr | aiopolly/utils/lexicon.py:27 | the failure reported is the first part's failure |
| Lexicon.ListOfStrings | aiopolly/utils/lexicon.py:26-27 | a list of strings becomes their concatenation |
| Lexicon.LexemesToXmlCases | aiopolly/utils/lexicon.py:25-37 | a string is kept, an unsupported object fails, a lexeme object fails as to_str does, and a list fails iff an element fails |
| Lexicon.CreateLexiconShape | aiopolly/utils/lexicon.py:40-49 | the lexicon fails iff its lexemes do; the document starts with the head and alphabet and ends with the tail; enum members and their values give the same document |
| Lexicon.LexiconXmlFramed | aiopolly/utils/lexicon.py:6-17 | the template's head and tail frame the document |
| Lexicon.TemplateToStrCases | aiopolly/utils/lexicon.py:80-83 | a template without lexemes fails; otherwise it is create_lexicon of its lexemes |
| Lexicon.LexiconTemplate.constructor | aiopolly/utils/lexicon.py:74-78 | a template keeps its alphabet, its language and the caller's list object itself (null for None) |
| Lexicon.LexiconTemplate.AddLexemes | aiopolly/utils/lexicon.py:85-89 | the lexemes become the old ones plus the added ones; a non-empty list is extended in place, the same object, so the caller's list grows too; otherwise a fresh list holds the added lexemes and the caller's list is left alone; alphabet and language do not change |
| Lexicon.AddedLexemes | aiopolly/utils/lexicon.py:80-89 | after adding lexemes, the no-lexemes error can only come from a nested template |
| StrEnum.ReplaceIsJoinSplit | aiopolly/utils/strenum.py:27 | `replace('_', sep)` is splitting on '_' and joining with sep |
| StrEnum.GenerateValue | aiopolly/utils/strenum.py:23-29 | the method computes `Generated`: converter first, then separator |
| StrEnum.GeneratedShape | aiopolly/utils/strenum.py:23-29 | without converter and separator the name is kept; a separator without '_' leaves no '_' |
| StrEnum.IntersectAllMembers | aiopolly/utils/strenum.py:82-83 | the intersection holds the members that pass every given criterion |
| StrEnum.UnionAllMembers | aiopolly/utils/strenum.py:84-85 | the union holds the members that pass some given criterion |
| StrEnum.CombineFound | aiopolly/utils/strenum.py:79-85 | combining the found sets is the set of members `Found` by the criteria |
| StrEnum.Collect | aiopolly/utils/strenum.py:66-77 | each given criterion adds the set of members that pass it |
| StrEnum.Filter | aiopolly/utils/strenum.py:41-90 | the method computes `Filtered` |
| StrEnum.FilteredShape | aiopolly/utils/strenum.py:79-90 | the result is a subset of the members; inverse gives the complement, or nothing when no criterion is given |
| StrEnum.IntersectionWithinUnion | aiopolly/utils/strenum.py:82-85 | the intersection is within the union, and they agree for one criterion |
| StrEnum.ContainsIgnoresCase | aiopolly/utils/strenum.py:60-68 | `contains` without case sensitivity matches lower-cased substrings |
| StrEnum.LookupValue | aiopolly/utils/strenum.py:146-170 | a member value is found; an unknown plain string is handed back iff missing values are returned; anything else fails |
| StrEnum.LookupDefaults | aiopolly/utils/strenum.py:165-180 | `StrEnum` hands back any plain string; the base class only its members |
| Polly.MethodsFlags | aiopolly/polly/polly.py:12-60 | only DeleteLexicon and PutLexicon return no data, and no operation allows query parameters beside a template |
| Polly.MethodsTemplates | aiopolly/polly/polly.py:13-34 | the lexicon operations use `/v1/lexicons/{LexiconName}` and GetSpeechSynthesisTask `/v1/synthesisTasks/{TaskId}` |
| Polly.TemplatePlaceholders | aiopolly/polly/polly.py:14-30 | each template has exactly one placeholder |
| Polly.MethodsPathParams | aiopolly/polly/polly.py:13-34 | the lexicon operations need `LexiconName` and GetSpeechSynthesisTask needs `TaskId` |
| Polly.MethodsEndpoints | aiopolly/polly/polly.py:18-60 | exactly the other operations have a fixed endpoint, and they need no path parameter |
| Polly.AsWrittenDiffersOnlyInSpeech | aiopolly/polly/polly.py:56-60 | the registry as written and the corrected one differ only in SynthesizeSpeech |
| Polly.SpeechMarksRejectedAsWritten | aiopolly/polly/polly.py:56-60 | as written, a successful speech-mark response is rejected by the content-type check |
| Polly.AcceptedIsNotSpeechMarksAsWritten | aiopolly/polly/polly.py:340 | as written, no accepted SynthesizeSpeech response has the speech-mark type, so the marks branch is unreachable |
| Polly.SpeechMarksAccepted | aiopolly/polly/polly.py:56-60 | corrected, a successful speech-mark response gives its raw bytes |
| Polly.StreamAcceptedAsWritten | aiopolly/polly/polly.py:56-60 | as written, a successful response typed `application/x-json-stream` is accepted as raw bytes; the corrected registry refuses it |
| Polly.SynthesizeSpeechContent | aiopolly/polly/polly.py:338 | an accepted SynthesizeSpeech response has an audio content type and gives its raw bytes |
| Polly.NamedDefaults | aiopolly/polly/polly.py:136-149 | the twelve named defaults |
| Polly.WithoutNone | aiopolly/polly/polly.py:151 | no None value is left |
| Polly.GetWithoutNone | aiopolly/polly/polly.py:151 | a lookup after dropping None values sees a None as missing |
| Polly.DefaultsMapGet | aiopolly/polly/polly.py:136-151 | an extra keyword default overrides the named one, and a None value counts as missing |
| Polly.IncludeCodesKept | aiopolly/polly/polly.py:94-151 | `include_additional_language_codes=False` stays in the defaults unless overridden |
| Polly.DefaultsOfNothing | aiopolly/polly/polly.py:136-151 | with nothing given, the defaults hold only include_additional_language_codes |
| Polly.RouteIgnoresDefaults | aiopolly/polly/polly.py:153-269 | only describe_voices, start_speech_synthesis_task and synthesize_speech depend on the instance defaults |
| Polly.PlainOne | aiopolly/polly/polly.py:163 | one set string argument comes out under its camel-cased name |
| Polly.DeleteLexiconRoute | aiopolly/polly/polly.py:163-165 | delete_lexicon sends the name as the path parameter `LexiconName` and no body |
| Polly.GetLexiconRoute | aiopolly/polly/polly.py:195-197 | get_lexicon sends the name as `LexiconName` |
| Polly.PutLexiconRoute | aiopolly/polly/polly.py:266-269 | put_lexicon sends the name as `LexiconName` and the content as `Content` in the body |
| Polly.GetTaskRoute | aiopolly/polly/polly.py:213-215 | get_speech_synthesis_task sends the id as `TaskId` |
| Polly.LexiconUrl | aiopolly/polly/polly.py:165 | a lexicon operation's URL is `<base>/v1/lexicons/<name>` |
| Polly.TaskUrl | aiopolly/polly/polly.py:215 | the task URL is `<base>/v1/synthesisTasks/<id>` |
| Polly.SnakeNamesCamelDistinct | aiopolly/polly/polly.py:181 | distinct snake argument names have distinct wire names |
| Polly.DescribeVoicesPrecedence | aiopolly/polly/polly.py:181 | each describe_voices argument is sent under its camel name, as passed or else as the instance default |
| Polly.StartTaskPrecedence | aiopolly/polly/polly.py:303 | the task payload is a dict, and each argument is in it as passed or else as the instance default |
| Polly.SynthesizePayloadKeys | aiopolly/polly/polly.py:335-336 | the synthesize payload has only speech fields (auto_convert and the converter arguments stay out) and always the text as passed |
| Polly.SynthesizePrecedence | aiopolly/polly/polly.py:335-336 | each speech field is in the payload as passed or else as the instance default |
| Polly.MarkLines | aiopolly/polly/polly.py:342 | no line contains a newline |
| Polly.MarkLinesCount | aiopolly/polly/polly.py:342 | there is one line per newline: an unterminated last record is dropped |
| Polly.MarkLinesRoundTrip | aiopolly/polly/polly.py:342 | newline-terminated lines plus any tail come back as exactly those lines |
| Polly.SpeechMarksInOrder | aiopolly/polly/polly.py:341-343 | each terminated record becomes one parsed mark, in order |
| Polly.TextOf | aiopolly/types/speech.py:27-33 | a string field accepts a string, number, boolean or object and rejects None, lists and dicts; a string is kept |
| Polly.TextsOf | aiopolly/types/speech.py:34 | a list field is a list whose every element is a string field, element by element |
| Polly.FieldsOf | aiopolly/polly/polly.py:345-350 | the Speech fields are valid iff each required and optional field is; voice and format are coerced; text_type and speech_mark_types are missing iff not in the payload; speech_mark_types is one member, so a string is kept and a list refused; a missing voice_id is reported |
| Polly.RaisesWithConverterAsWritten | aiopolly/polly/polly.py:352-357 | as written, a converter with auto_convert=False plus converter arguments raises "Cannot find converter" |
| Polly.Decide | aiopolly/polly/polly.py:352-357 | it raises iff there is no converter and conversion is requested; it converts iff there is a converter and auto_convert is truthy, or is not False while the converter auto-converts |
| Polly.DecideAgrees | aiopolly/polly/polly.py:352-357 | the correction changes only the case where the code as written raises although a converter exists; that case returns the speech |
| Polly.IntArg | aiopolly/utils/converter/opus_converter.py:85 | an integer converter argument is read as given |
| Polly.FilterArgs | aiopolly/utils/converter/opus_converter.py:85 | the ffmpeg filters are exactly the converter arguments other than out_bitrate and sample_rate |
| Polly.Polly.constructor | aiopolly/polly/polly.py:126-151 | the client for the region, the defaults map, and the converter as given |
| Polly.Polly.SynthesizeResponseBytes | aiopolly/polly/polly.py:338 | a SynthesizeSpeech response that was read comes as raw bytes |
| Polly.Polly.FinishOf | aiopolly/polly/polly.py:352 | conversion is only chosen when there is a converter |
| Polly.Polly.Send | aiopolly/polly/polly.py:335-338 | a call fails with `generate_params`'s TypeError exactly when `RouteRaises`; otherwise it is the request's result under the operation's descriptor |
| Polly.DictlessArgsNeverRaise | aiopolly/polly/polly.py:335 | without a dict among an operation's arguments, its `generate_params` call never raises |
| Polly.Polly.PlanOfHeader | aiopolly/polly/polly.py:345-350 | for a non-speech-mark response: no header of that name in any case is the KeyError; a header holding `str(n)` gives `n` request characters; a header with no digit is refused as the int field `request_characters` |
| Common.ParseIntOfString | aiopolly/types/speech.py:25 | the int coercion of `request_characters` reads `str(n)` back as `n` |
| Polly.Polly.SynthesizeSpeech | aiopolly/polly/polly.py:335-357 | corrected: with the registry `Polly.Methods` and the decision `Polly.Decide` of Findings rows 1 and 3, argument and request errors propagate; speech marks are returned as parsed; otherwise a fresh Speech with the response's type, int characters, audio and payload fields is returned, or the missing-converter error. Unconverted, it has no converted stream or parameters; converted, it records the converted stream, the audio per `keep_original`, and the parameters `{'to_format': 'ogg_opus', duration, **cmd_params}`, while a failed conversion propagates |

## Left out

- The network, TLS, the event loop and concurrency. The transport is a
  function parameter that returns a response or a client error.
- SigV4 signing and credentials (`aiopolly/utils/credentials.py`). Signing is
  a function parameter.
- `json.dumps`, `json.loads`, `urlencode` and `str()` of an arbitrary
  value. They are function parameters, so JSON and query-string formats are
  not modelled.
- The ffmpeg process and `check_ffmpeg`. The process is a function from
  command and input to (stdout, stderr).
- `save_on_disc`, `bytes_io` and every file operation. `Speech.convert`
  delegates to the converter and is covered by `OpusConverter.Convert`.
- Floating point: `round(float(seconds))` is read on digit strings only, and
  `pause`, `prosody` and timbre arguments are integers.
- Building the pydantic result models (`VoicesList`, `Lexicon`,
  `SynthesisTask`, `LexiconsList`, `SynthesisTasksList`) from JSON results at
  `aiopolly/polly/polly.py:184-252`. The descriptor attribute lookup those
  lines rely on is `Method.KeyAttr`.
- `get_exception(header, status, message)`, which `aiopolly/polly/api.py:126-130`
  calls to pick the exception class from the exception header and the status,
  is imported from `aiopolly/utils/exceptions.py` but defined in none of the
  files modelled here, so it is not part of this model. A failed status is an
  `Api.ApiException` error carrying the header, the status and the message.
- Polly.FieldsOf: pydantic's enum-membership checks of `content_type`,
  `output_format`, `text_type`, `language_code` and `speech_mark_types` are
  not modelled, and only the first invalid field is reported.
- Polly.Polly.PlanOfHeader: the header is read as an int with surrounding
  whitespace, an optional sign and ASCII digits; the underscores and
  non-ASCII digits that `int()` also accepts are not modelled.
- Polly.Polly.SynthesizeSpeech: it follows the corrected registry and the
  corrected converter decision (Findings rows 1 and 3), so it differs from
  the code as written in three cases. (a) A converter whose `auto_convert` is
  false, and `synthesize_speech(text, out_bitrate=64)`: as written this raises
  "Cannot find converter" (`Polly.RaisesWithConverterAsWritten`); the model
  returns the speech. (b) A successful response typed
  `application/x-json-stream`: as written `request` accepts it
  (`Polly.StreamAcceptedAsWritten`) and, when the payload is valid, it becomes
  a `Speech` (a list of speech-mark types, which the annotation of
  `synthesize_speech` asks for, fails validation at
  `aiopolly/types/speech.py:31` instead); the model refuses it. The
  correction chosen for this case also needs the descriptor's table at
  `aiopolly/types/method.py:9` to be `aiopolly/types/content_type.py`, since
  `aiopolly/types/enums.py` has no `audio/json` member. (c) A
  successful response typed `audio/json`: as written it is refused
  (`Polly.SpeechMarksRejectedAsWritten`); the model returns its marks.
- Method.Format: `str.format` is modelled only for templates whose literal
  text has no brace and whose fields are plain keyword names
  (`Method.WellFormed`). Doubled braces, a stray '}', positional and
  automatic fields, attribute and index lookups, conversions and format
  specs are not modelled. The registry's templates and the base-URL template
  are well formed.
- Polly.IntArg: an `out_bitrate` or `sample_rate` converter argument that is
  not an integer is treated as absent.
- Polly.Polly.SynthesizeSpeech: a converter argument named `speech` (which
  would collide with `convert`'s own parameter) is not modelled.
- `OpusConverter.FindDuration`: `\d` is ASCII digits only.
- The upper/lower case functions are ASCII only.
- The metaclass machinery of `StrEnumMeta.__new__`: type checks,
  `_EnumDict`, and `__sep__`/`__converter__` inheritance. An enum is the
  set of its member values, generated by `StrEnum.Generated`.
- `Method.__set_name__`, `__str__` and the `lru_cache` on
  `needed_endpoint_params`: naming, display and caching do not change
  results.

## Findings

| source | as written | input that shows it | evidently intended | confidence | as-written member | corrected member |
|---|---|---|---|---|---|---|
| aiopolly/polly/polly.py:56-60 | SynthesizeSpeech expects the audio content types of `types/enums.py`, whose speech-mark type is `application/x-json-stream`, while the client compares with `types/content_type.py`, where it is `audio/json` | a 200 response to `synthesize_speech(..., output_format='json')` with content type `audio/json` is rejected with ResponseTypeException, so the speech-mark branch at line 340 is never reached | the descriptor expects the content types the client compares with. The correction modelled (`Polly.Methods` lists `audio/json`) also needs `aiopolly/types/method.py:9` to take `ContentType` from `types/content_type.py`: `types/enums.py` has no `audio/json` member, so pydantic would refuse the registry otherwise. Aligning the comparisons at line 340 and at `aiopolly/polly/api.py:98` with `application/x-json-stream` needs no such change and is at least as likely the intent; either way a speech-mark response is split into marks | not executed; high | Polly.MethodsAsWritten, Polly.SpeechMarksRejectedAsWritten | Polly.Methods, Polly.SpeechMarksAccepted |
| aiopolly/utils/ssml/actions.py:230-231 | `whisper` writes the attribute value between U+201D quotation marks: `name=”whispered”` | `whisper("hi")` contains no ASCII `"` | `name="whispered"`, as in the other `amazon:effect` builders | not executed; high | Ssml.WhisperAsWritten, Ssml.WhisperUnquoted | Ssml.Whisper, Ssml.CleanPartsBuilders |
| aiopolly/polly/polly.py:352-357 | the "Cannot find converter" error is raised whenever `auto_convert or converter_params`, including when a converter exists | a converter with `auto_convert=False`, and `synthesize_speech(text, out_bitrate=64)` | raise only when there is no converter; with a converter that is not asked to convert, return the speech | not executed; medium | Polly.DecideAsWritten, Polly.RaisesWithConverterAsWritten | Polly.Decide, Polly.DecideAgrees |

=== FILE: api.dfy ===
/**
  The HTTP client (aiopolly/polly/api.py): the service base URL, the order in
  which a request is prepared and sent, and the decision a response goes
  through: JSON or bytes, the 200..399 success window, the no-data shortcut,
  the expected-content-type check and the error message of a failed call.
  Signing, JSON encoding and the transport are parameters.
 */
module Api {
  import opened Common
  import Case
  import Method

  const SERVICE_NAME: string := "polly"
  /** `https://{service_name}.{region}.amazonaws.com`, as literal segments around its two placeholders. */
  const BASE_URL_TEMPLATE: string := Method.Build(["https://", ".", ".amazonaws.com"], ["service_name", "region"])
  const EXCEPTION_HEADER: string := "x-amzn-ErrorType"

  /** The two content types the client compares with (the `ContentType` table of types/content_type.py). */
  const APPLICATION_JSON: string := "application/json"
  const AUDIO_JSON: string := "audio/json"

  /** `BASE_URL_TEMPLATE.format(service_name=..., region=...)`. */
  function BaseUrl(serviceName: string, region: string): string
  {
    "https://" + serviceName + "." + region + ".amazonaws.com"
  }

  /** `str()` of a string argument. */
  function StrText(v: Value): string
  {
    if v.Str? then v.s else []
  }

  /** The base URL is the template with its two placeholders filled in. */
  lemma BaseUrlFromTemplate(region: string)
    ensures Method.Placeholders(BASE_URL_TEMPLATE) == ["service_name", "region"]
    ensures Method.Format(BASE_URL_TEMPLATE, [("service_name", Str(SERVICE_NAME)), ("region", Str(region))], StrText)
              == Ok(BaseUrl(SERVICE_NAME, region))
  {
    var segs := ["https://", ".", ".amazonaws.com"];
    var names := ["service_name", "region"];
    var env := [("service_name", Str(SERVICE_NAME)), ("region", Str(region))];
    UrlTemplateWellFormed(segs, names);
    Method.PlaceholdersOfBuild(segs, names);
    UrlEnv(region);
    Method.FormatOfBuild(segs, names, env, StrText);
    UrlInterleave(region);
  }

  lemma UrlTemplateWellFormed(segs: seq<string>, names: seq<string>)
    requires segs == ["https://", ".", ".amazonaws.com"] && names == ["service_name", "region"]
    ensures Method.WellFormed(segs, names)
  {
    Method.LettersFieldName(names[0]);
    Method.LettersFieldName(names[1]);
  }

  lemma UrlEnv(region: string)
    ensures KeysOf([("service_name", Str(SERVICE_NAME)), ("region", Str(region))]) == ["service_name", "region"]
    ensures Method.Lookups(["service_name", "region"], [("service_name", Str(SERVICE_NAME)), ("region", Str(region))], StrText)
              == [SERVICE_NAME, region]
  {
    var names := ["service_name", "region"];
    var env := [("service_name", Str(SERVICE_NAME)), ("region", Str(region))];
    assert KeysOf(env)[0] == names[0] && KeysOf(env)[1] == names[1];
    assert Get(env, "service_name") == Some(Str(SERVICE_NAME));
    assert |"region"| != |"service_name"|;
    assert env[1..] == [("region", Str(region))];
    assert Get(env, "region") == Some(Str(region));
    var vals := Method.Lookups(names, env, StrText);
    assert vals[0] == StrText(Str(SERVICE_NAME)) == SERVICE_NAME;
    assert vals[1] == StrText(Str(region)) == region;
  }

  lemma UrlInterleave(region: string)
    ensures Method.Interleave(["https://", ".", ".amazonaws.com"], [SERVICE_NAME, region]) == BaseUrl(SERVICE_NAME, region)
  {
    var segs := ["https://", ".", ".amazonaws.com"];
    var vals := [SERVICE_NAME, region];
    assert segs[1..] == [".", ".amazonaws.com"] && vals[1..] == [region];
    assert segs[2..] == [".amazonaws.com"] && vals[2..] == [];
    assert Method.Interleave(segs[2..], vals[2..]) == ".amazonaws.com";
    assert Method.Interleave(segs[1..], vals[1..]) == "." + region + ".amazonaws.com";
  }

  // ---------------------------------------------------------------------------
  // Responses
  // ---------------------------------------------------------------------------

  /**
    What the client reads from an HTTP response: the content type, the
    status, the headers, the body parsed as JSON (None when it is not valid
    JSON), the raw body, and the body decoded as text (None when it cannot be
    decoded).
   */
  datatype Response = Response(
    contentType: string,
    status: int,
    headers: Dict<string>,
    json: Option<Value>,
    body: seq<byte>,
    text: Option<string>)

  /** A header lookup, ignoring ASCII case as the HTTP library's header map does. */
  function HeaderGet(headers: Dict<string>, name: string): (r: Option<string>)
    ensures r.None? <==> forall i :: 0 <= i < |headers| ==> LowerStr(headers[i].0) != LowerStr(name)
    ensures r.Some? ==> exists i :: 0 <= i < |headers| && LowerStr(headers[i].0) == LowerStr(name) && headers[i].1 == r.value &&
                                    forall j :: 0 <= j < i ==> LowerStr(headers[j].0) != LowerStr(name)
  {
    if headers == [] then None
    else if LowerStr(headers[0].0) == LowerStr(name) then Some(headers[0].1)
    else HeaderGet(headers[1..], name)
  }

  /** The content `get_content` produces: parsed JSON (None when snake-casing is off) or the raw bytes. */
  datatype Content = JsonContent(value: Option<Value>) | BytesContent(bytes: seq<byte>)

  /** What an error message can be: the JSON `message` entry (None when absent), bytes, or text. */
  datatype ErrorMessage = MessageValue(v: Option<Value>) | MessageBytes(b: seq<byte>) | MessageText(t: string)

  datatype ApiError =
    | JsonDecode                                   // JSONDecodeException
    | CaseConversion(v: Value)                     // ValueError from to_snake on a JSON scalar
    | MessageLookup                                // `.get` on JSON that is not a dict (AttributeError)
    | ApiException(errorType: Option<string>, status: int, message: ErrorMessage) // the get_exception class
    | ResponseType(contentType: string)            // ResponseTypeException

  /** `get_json`: the parsed body, snake-cased when the client converts; falls through to None otherwise. */
  function GetJson(r: Response, convertToSnake: bool): Result<Content, ApiError>
  {
    match r.json
    case None => Err(JsonDecode)
    case Some(v) =>
      if convertToSnake then
        match Case.ToSnake(v)
        case Ok(s) => Ok(JsonContent(Some(s)))
        case Err(_) => Err(CaseConversion(v))
      else Ok(JsonContent(None))
  }

  /** The content read before any status check; both non-JSON branches read the raw body. */
  function ReadContent(r: Response, convertToSnake: bool): Result<Content, ApiError>
  {
    if r.contentType == APPLICATION_JSON then GetJson(r, convertToSnake)
    else if r.contentType == AUDIO_JSON then Ok(BytesContent(r.body))
    else Ok(BytesContent(r.body))
  }

  /** `raise_api_exception`'s choice of message. */
  function ErrorMessageOf(r: Response, content: Content): Result<ErrorMessage, ApiError>
  {
    if r.contentType == APPLICATION_JSON then
      match content
      case JsonContent(Some(Dict(e))) => Ok(MessageValue(Get(e, "message")))
      case _ => Err(MessageLookup)
    else if content.BytesContent? && content.bytes != [] then Ok(MessageBytes(content.bytes))
    else
      match r.text
      case Some(t) => Ok(MessageText(t))
      case None => Ok(MessageBytes(r.body))
  }

  predicate Success(status: int)
  {
    200 <= status < 400
  }

  /** `get_content`: read, then the status window, then the no-data shortcut, then the content-type check. */
  function GetContent(r: Response, d: Method.Descriptor, convertToSnake: bool): Result<Content, ApiError>
  {
    match ReadContent(r, convertToSnake)
    case Err(e) => Err(e)
    case Ok(content) =>
      if !Success(r.status) then
        match ErrorMessageOf(r, content)
        case Ok(m) => Err(ApiException(HeaderGet(r.headers, EXCEPTION_HEADER), r.status, m))
        case Err(e) => Err(e)
      else if d.noDataOnSuccess then Ok(content)
      else if r.contentType !in d.expectedContentTypes then Err(ResponseType(r.contentType))
      else Ok(content)
  }

  /**
    The decision table: a readable response succeeds exactly when its status
    is in 200..399 (so 3xx counts) and the operation either returns no data
    or expects this content type; a status outside the window fails before
    the content type is looked at; a no-data operation never checks it.
   */
  lemma GetContentDecision(r: Response, d: Method.Descriptor, convertToSnake: bool)
    requires ReadContent(r, convertToSnake).Ok?
    ensures GetContent(r, d, convertToSnake).Ok? <==>
              Success(r.status) && (d.noDataOnSuccess || r.contentType in d.expectedContentTypes)
    ensures GetContent(r, d, convertToSnake).Ok? ==> GetContent(r, d, convertToSnake).value == ReadContent(r, convertToSnake).value
    ensures !Success(r.status) ==> GetContent(r, d, convertToSnake).Err? && !GetContent(r, d, convertToSnake).error.ResponseType?
    ensures GetContent(r, d, convertToSnake) == Err(ResponseType(r.contentType)) <==>
              Success(r.status) && !d.noDataOnSuccess && r.contentType !in d.expectedContentTypes
  {
  }

  /** An unreadable body fails with the reading error, whatever the status. */
  lemma GetContentReadFails(r: Response, d: Method.Descriptor, convertToSnake: bool)
    requires ReadContent(r, convertToSnake).Err?
    ensures GetContent(r, d, convertToSnake) == Err(ReadContent(r, convertToSnake).error)
    ensures r.contentType == APPLICATION_JSON
  {
  }

  /**
    Decoding: JSON bodies are parsed and, with conversion on, snake-cased
    (a dict or list always converts); with conversion off the content is
    None; every other content type yields the raw bytes.
   */
  lemma ReadContentCases(r: Response, convertToSnake: bool)
    ensures r.contentType != APPLICATION_JSON ==> ReadContent(r, convertToSnake) == Ok(BytesContent(r.body))
    ensures r.contentType == APPLICATION_JSON && r.json.None? ==> ReadContent(r, convertToSnake) == Err(JsonDecode)
    ensures r.contentType == APPLICATION_JSON && r.json.Some? && !convertToSnake ==>
              ReadContent(r, convertToSnake) == Ok(JsonContent(None))
    ensures r.contentType == APPLICATION_JSON && r.json.Some? && (r.json.value.Dict? || r.json.value.List?) && convertToSnake ==>
              ReadContent(r, convertToSnake) == Ok(JsonContent(Some(Case.Nested(r.json.value, Case.SnakeCase))))
  {
  }

  /**
    The error message: the `message` entry of a JSON body; otherwise the body
    when it is not empty; otherwise the decoded text, or the raw bytes when
    the text cannot be decoded.
   */
  lemma ErrorMessageCases(r: Response, convertToSnake: bool)
    requires ReadContent(r, convertToSnake).Ok?
    ensures r.contentType == APPLICATION_JSON && r.json.Some? && r.json.value.Dict? && convertToSnake ==>
              ErrorMessageOf(r, ReadContent(r, convertToSnake).value) ==
              Ok(MessageValue(Get(Case.Nested(r.json.value, Case.SnakeCase).entries, "message")))
    ensures r.contentType != APPLICATION_JSON && r.body != [] ==>
              ErrorMessageOf(r, ReadContent(r, convertToSnake).value) == Ok(MessageBytes(r.body))
    ensures r.contentType != APPLICATION_JSON && r.body == [] && r.text.Some? ==>
              ErrorMessageOf(r, ReadContent(r, convertToSnake).value) == Ok(MessageText(r.text.value))
    ensures r.contentType != APPLICATION_JSON && r.body == [] && r.text.None? ==>
              ErrorMessageOf(r, ReadContent(r, convertToSnake).value) == Ok(MessageBytes([]))
  {
  }

  // ---------------------------------------------------------------------------
  // The request sequence
  // ---------------------------------------------------------------------------

  /** The request as it goes on the wire: the signed headers cover exactly this URL, method and body. */
  datatype Prepared = Prepared(url: string, requestMethod: string, body: Option<string>, headers: Dict<string>)

  /** What the transport gives back: a response, or an `aiohttp.ClientError` with its text. */
  datatype Outcome = Received(response: Response) | ClientError(cause: string)

  datatype RequestError =
    | UrlError(urlError: Method.MethodError)          // raised by get_url before anything is sent
    | Transport(url: string, cause: string)      // AioHTTPException with the URL and the cause
    | Api(apiError: ApiError)                        // raised while reading the response

  /** The collaborators the client calls but does not define. */
  datatype Env = Env(
    render: Value -> string,                     // str()
    urlencode: Dict<Value> -> string,            // urllib.parse.urlencode
    dumps: Value -> string,                      // json.dumps
    sign: (string, string, Option<string>) -> Dict<string>, // SigV4 header signing
    send: Prepared -> Outcome)                   // the HTTP session

  class Client {
    const region: string
    const baseUrl: string
    const convertToSnake: bool

    /** `__init__`: the base URL from the region; snake-casing follows the configuration flag. */
    constructor (region: string)
      ensures this.region == region
      ensures baseUrl == BaseUrl(SERVICE_NAME, region)
      ensures convertToSnake
    {
      this.region := region;
      this.baseUrl := BaseUrl(SERVICE_NAME, region);
      this.convertToSnake := true;
    }

    /** The first half of `request`: URL, body, signed headers. */
    function Prepare(env: Env, d: Method.Descriptor, payload: Option<Value>, params: Dict<Value>): (r: Result<Prepared, Method.MethodError>)
      ensures r.Ok? <==> Method.GetUrl(d, baseUrl, params, env.render, env.urlencode).Ok?
      ensures r.Err? ==> r.error == Method.GetUrl(d, baseUrl, params, env.render, env.urlencode).error
      ensures r.Ok? ==> r.value.url == Method.GetUrl(d, baseUrl, params, env.render, env.urlencode).value
      ensures r.Ok? ==> r.value.requestMethod == d.requestMethod
      ensures r.Ok? ==> (r.value.body.None? <==> payload.None?)
      ensures r.Ok? && payload.Some? ==> r.value.body == Some(env.dumps(payload.value))
      ensures r.Ok? ==> r.value.headers == env.sign(r.value.url, r.value.requestMethod, r.value.body)
    {
      match Method.GetUrl(d, baseUrl, params, env.render, env.urlencode)
      case Err(e) => Err(e)
      case Ok(url) =>
        var body := if payload.Some? then Some(env.dumps(payload.value)) else None;
        Ok(Prepared(url, d.requestMethod, body, env.sign(url, d.requestMethod, body)))
    }

    /** `request`: prepare, send, read the content; returns the content and the response. */
    function Request(env: Env, d: Method.Descriptor, payload: Option<Value>, params: Dict<Value>): Result<(Content, Response), RequestError>
    {
      match Prepare(env, d, payload, params)
      case Err(e) => Err(UrlError(e))
      case Ok(p) =>
        match env.send(p)
        case ClientError(cause) => Err(Transport(p.url, cause))
        case Received(resp) =>
          match GetContent(resp, d, convertToSnake)
          case Err(e) => Err(Api(e))
          case Ok(content) => Ok((content, resp))
    }

    /**
      A URL error is raised before anything is sent, so the outcome does not
      depend on the transport; a transport error carries the prepared URL;
      a received response is returned with the content read from it.
     */
    lemma RequestSequence(env: Env, d: Method.Descriptor, payload: Option<Value>, params: Dict<Value>,
                          send': Prepared -> Outcome)
      ensures Prepare(env, d, payload, params).Err? ==>
                Request(env, d, payload, params) == Err(UrlError(Prepare(env, d, payload, params).error)) &&
                Request(env.(send := send'), d, payload, params) == Request(env, d, payload, params)
      ensures Prepare(env, d, payload, params).Ok? && env.send(Prepare(env, d, payload, params).value).ClientError? ==>
                Request(env, d, payload, params) ==
                Err(Transport(Prepare(env, d, payload, params).value.url, env.send(Prepare(env, d, payload, params).value).cause))
      ensures Request(env, d, payload, params).Ok? ==>
                Prepare(env, d, payload, params).Ok? &&
                env.send(Prepare(env, d, payload, params).value) == Received(Request(env, d, payload, params).value.1) &&
                GetContent(Request(env, d, payload, params).value.1, d, convertToSnake) == Ok(Request(env, d, payload, params).value.0)
    {
      assert Prepare(env.(send := send'), d, payload, params) == Prepare(env, d, payload, params);
    }
  }
}

=== FILE: case.dfy ===
/**
  Field-name case conversion between the wire (PascalCase) and Python
  (snake_case), for single strings and recursively over dicts and lists
  (aiopolly/utils/case.py).
 */
module Case {
  import opened Common

  /** `x[:1].upper() + x[1:]` */
  function Capitalize(part: string): (r: string)
    ensures |r| == |part|
    ensures '_' !in part ==> '_' !in r
  {
    if part == [] then [] else [Upper(part[0])] + part[1..]
  }

  function CapitalizeAll(parts: seq<string>): (r: seq<string>)
    ensures |r| == |parts|
  {
    seq(|parts|, i requires 0 <= i < |parts| => Capitalize(parts[i]))
  }

  lemma {:induction false} ConcatWithout(parts: seq<string>, c: char)
    requires forall i :: 0 <= i < |parts| ==> c !in parts[i]
    ensures c !in Concat(parts)
  {
    if parts != [] {
      ConcatWithout(parts[1..], c);
    }
  }

  /** `string_to_camel`: split on '_', capitalise every part, glue the parts together. */
  function StringToCamel(s: string): (r: string)
    ensures '_' !in r
  {
    var parts := CapitalizeAll(Split(s, '_'));
    ConcatWithout(parts, '_');
    Concat(parts)
  }

  /** `re.sub('([A-Z]+)', r'_\1', s)`: an underscore in front of every maximal run of capitals. */
  function MarkRuns(s: string, inRun: bool): string
  {
    if s == [] then []
    else if IsUpper(s[0]) then (if inRun then [s[0]] else ['_', s[0]]) + MarkRuns(s[1..], true)
    else [s[0]] + MarkRuns(s[1..], false)
  }

  /** `string_to_snake`: mark the capital runs, lower-case everything, drop one leading '_'. */
  function StringToSnake(s: string): (r: string)
    ensures forall i :: 0 <= i < |r| ==> !IsUpper(r[i])
  {
    var lowered := LowerStr(MarkRuns(s, false));
    LowerStrAt(MarkRuns(s, false));
    if StartsWith(lowered, "_") then lowered[1..] else lowered
  }

  // ---------------------------------------------------------------------------
  // The string round trip
  // ---------------------------------------------------------------------------

  /** A snake-case part: a lower-case letter followed by lower-case letters and digits. */
  predicate IsSnakePart(p: string)
  {
    |p| >= 1 && IsLower(p[0]) && forall i :: 0 <= i < |p| ==> IsLower(p[i]) || IsDigit(p[i])
  }

  /**
    A snake-case name that survives the trip through camel case: its parts are
    snake parts, and every part but the last has at least two characters (a
    one-letter part would merge with the next capital into one run).
   */
  predicate IsSnakeName(s: string)
  {
    var parts := Split(s, '_');
    (forall i :: 0 <= i < |parts| ==> IsSnakePart(parts[i])) &&
    (forall i :: 0 <= i < |parts| - 1 ==> |parts[i]| >= 2)
  }

  function Underscored(parts: seq<string>): string
  {
    if parts == [] then [] else ['_'] + Capitalize(parts[0]) + Underscored(parts[1..])
  }

  lemma {:induction false} MarkRunsLowerTail(t: string, y: string)
    requires forall i :: 0 <= i < |t| ==> !IsUpper(t[i])
    requires t != [] || y == []
    ensures MarkRuns(t + y, true) == t + MarkRuns(y, false)
  {
    if t != [] {
      assert (t + y)[0] == t[0] && (t + y)[1..] == t[1..] + y;
      if t[1..] == [] {
        assert t[1..] + y == y;
        assert [t[0]] + MarkRuns(y, false) == t + MarkRuns(y, false);
      } else {
        MarkRunsLowerTail(t[1..], y);
        assert [t[0]] + (t[1..] + MarkRuns(y, false)) == t + MarkRuns(y, false);
      }
    }
  }

  /** A capitalised part opens a run: it gains one leading underscore and nothing else changes. */
  lemma MarkRunsCapitalized(p: string, y: string)
    requires IsSnakePart(p)
    requires |p| >= 2 || y == []
    ensures MarkRuns(Capitalize(p) + y, false) == ['_'] + Capitalize(p) + MarkRuns(y, false)
  {
    var u := Upper(p[0]);
    var tail := p[1..];
    assert forall i :: 0 <= i < |tail| ==> !IsUpper(tail[i]) by {
      forall i | 0 <= i < |tail| ensures !IsUpper(tail[i]) {
        assert tail[i] == p[i + 1];
      }
    }
    assert Capitalize(p) == [u] + tail;
    assert Capitalize(p) + y == [u] + (tail + y);
    MarkRunsOpen(u, tail + y);
    MarkRunsLowerTail(tail, y);
    Regroup(['_'], [u], tail, MarkRuns(y, false));
    assert ['_', u] == ['_'] + [u];
  }

  lemma MarkRunsOpen(u: char, t: string)
    requires IsUpper(u)
    ensures MarkRuns([u] + t, false) == ['_', u] + MarkRuns(t, true)
  {
    assert ([u] + t)[1..] == t;
  }

  lemma {:induction false} MarkRunsOfCamel(parts: seq<string>)
    requires forall i :: 0 <= i < |parts| ==> IsSnakePart(parts[i])
    requires forall i :: 0 <= i < |parts| - 1 ==> |parts[i]| >= 2
    ensures MarkRuns(Concat(CapitalizeAll(parts)), false) == Underscored(parts)
  {
    if parts != [] {
      var p := parts[0];
      var caps := CapitalizeAll(parts);
      assert caps[1..] == CapitalizeAll(parts[1..]);
      var y := Concat(caps[1..]);
      assert Concat(caps) == Capitalize(p) + y;
      if |parts| == 1 {
        assert y == [];
      }
      MarkRunsCapitalized(p, y);
      MarkRunsOfCamel(parts[1..]);
    }
  }

  lemma LowerCapitalized(p: string)
    requires IsSnakePart(p)
    ensures LowerStr(['_'] + Capitalize(p)) == ['_'] + p
  {
    var x := ['_'] + Capitalize(p);
    var r := LowerStr(x);
    LowerStrAt(x);
    assert |r| == |['_'] + p|;
    forall i | 0 <= i < |r| ensures r[i] == (['_'] + p)[i] {
      if i == 1 {
        assert x[1] == Upper(p[0]);
      } else if i > 1 {
        assert x[i] == p[i - 1];
        assert IsLower(p[i - 1]) || IsDigit(p[i - 1]);
      }
    }
  }

  lemma {:induction false} LowerUnderscored(parts: seq<string>)
    requires |parts| >= 1
    requires forall i :: 0 <= i < |parts| ==> IsSnakePart(parts[i])
    ensures LowerStr(Underscored(parts)) == ['_'] + Join(parts, "_")
  {
    var p := parts[0];
    var rest := parts[1..];
    var head := ['_'] + Capitalize(p);
    assert Underscored(parts) == head + Underscored(rest);
    LowerCapitalized(p);
    LowerStrConcat(head, Underscored(rest));
    if |parts| == 1 {
      assert Underscored(rest) == [];
    } else {
      assert forall i :: 0 <= i < |rest| ==> IsSnakePart(rest[i]) by {
        forall i | 0 <= i < |rest| ensures IsSnakePart(rest[i]) {
          assert rest[i] == parts[i + 1];
        }
      }
      LowerUnderscored(rest);
      JoinCons(p, rest);
    }
  }

  lemma JoinCons(p: string, rest: seq<string>)
    requires |rest| >= 1
    ensures ['_'] + Join([p] + rest, "_") == (['_'] + p) + (['_'] + Join(rest, "_"))
  {
    var j := Join(rest, "_");
    assert ([p] + rest)[1..] == rest;
    assert Join([p] + rest, "_") == p + "_" + j;
    Regroup(['_'], p, "_", j);
  }

  lemma Regroup<T>(a: seq<T>, b: seq<T>, c: seq<T>, d: seq<T>)
    ensures a + (b + c + d) == (a + b) + (c + d)
  {
  }

  lemma {:induction false} SnakeCamelRoundTrip(s: string)
    requires IsSnakeName(s)
    ensures StringToSnake(StringToCamel(s)) == s
  {
    var parts := Split(s, '_');
    MarkRunsOfCamel(parts);
    LowerUnderscored(parts);
    JoinSplit(s, '_');
    var lowered := LowerStr(MarkRuns(StringToCamel(s), false));
    assert lowered == ['_'] + s;
    assert StartsWith(lowered, "_");
    assert lowered[1..] == s;
  }

  /** Camel-casing is injective on round-trippable snake names. */
  lemma CamelInjective(a: string, b: string)
    requires IsSnakeName(a) && IsSnakeName(b)
    requires StringToCamel(a) == StringToCamel(b)
    ensures a == b
  {
    SnakeCamelRoundTrip(a);
    SnakeCamelRoundTrip(b);
  }

  /** The round trip needs the length condition: "a_b" comes back as "ab". */
  lemma OneLetterPartMerges()
    ensures StringToSnake(StringToCamel("a_b")) == "ab"
  {
    assert "a_b"[1..] == "_b" && "_b"[1..] == "b" && "b"[1..] == [];
    assert Split("b"[1..], '_') == [[]];
    assert ['b'] + [] == "b";
    assert Split("b", '_') == ["b"];
    assert Split("_b", '_') == ["", "b"];
    var rest := Split("_b", '_');
    assert Split("a_b", '_') == [['a'] + rest[0]] + rest[1..];
    assert rest[0] == "" && rest[1..] == ["b"] && ['a'] + rest[0] == "a";
    assert Split("a_b", '_') == ["a", "b"];
    assert StringToCamel("a_b") == "AB";
    assert MarkRuns("AB", false) == "_AB" by {
      assert "AB"[1..] == "B" && "B"[1..] == [];
    }
  }

  // ---------------------------------------------------------------------------
  // Recursive conversion of dicts and lists
  // ---------------------------------------------------------------------------

  /** The `str_case_converter` argument: `to_snake` and `to_camel` fix it. */
  datatype Converter = SnakeCase | CamelCase

  function ConvertString(c: Converter, s: string): string
  {
    match c
    case SnakeCase => StringToSnake(s)
    case CamelCase => StringToCamel(s)
  }

  /** The converted (key, value) pairs of a dict, before the dict is built. */
  function ConvertedPairs(e: seq<(string, Value)>, c: Converter): (r: seq<(string, Value)>)
    ensures |r| == |e|
    decreases Dict(e), 0
  {
    seq(|e|, i requires 0 <= i < |e| => (ConvertString(c, e[i].0), Nested(e[i].1, c)))
  }

  /**
    `to_case(v, ignore_string=True, no_exception=True)`, the form of every
    nested call: dict keys converted, values and list elements recursed into,
    everything else (strings included) returned unchanged. The dict is built
    by a comprehension, so two keys that convert alike keep the first one's
    position and the last one's value.
   */
  function Nested(v: Value, c: Converter): Value
    decreases v, 1
  {
    match v
    case Dict(e) => Dict(PutAll([], ConvertedPairs(e, c)))
    case List(l) => List(seq(|l|, i requires 0 <= i < |l| => Nested(l[i], c)))
    case _ => v
  }

  datatype CaseError = UnexpectedType(v: Value)

  /** `to_case(obj, ignore_string, no_exception, str_case_converter)` */
  function ToCase(v: Value, ignoreString: bool, noException: bool, c: Converter): Result<Value, CaseError>
  {
    match v
    case Str(s) => Ok(if ignoreString then v else Str(ConvertString(c, s)))
    case Dict(_) => Ok(Nested(v, c))
    case List(_) => Ok(Nested(v, c))
    case _ => if noException then Ok(v) else Err(UnexpectedType(v))
  }

  /** `to_snake(obj)` with the default flags. */
  function ToSnake(v: Value): Result<Value, CaseError>
  {
    ToCase(v, false, false, SnakeCase)
  }

  /** `to_camel(obj)` with the default flags. */
  function ToCamel(v: Value): Result<Value, CaseError>
  {
    ToCase(v, false, false, CamelCase)
  }

  // ---------------------------------------------------------------------------
  // Properties of the recursive conversion
  // ---------------------------------------------------------------------------

  /** Only a top-level object that is not a str, dict or list fails, and only without `no_exception`. */
  lemma ToCaseFailsIff(v: Value, ignoreString: bool, noException: bool, c: Converter)
    ensures ToCase(v, ignoreString, noException, c).Err? <==> !noException && !(v.Str? || v.Dict? || v.List?)
    ensures ToCase(v, ignoreString, noException, c).Ok? && !(v.Str? && !ignoreString) && !v.Dict? && !v.List?
            ==> ToCase(v, ignoreString, noException, c).value == v
  {
  }

  /** A converted dict has exactly the converted keys, each once. */
  lemma {:induction false} NestedDictKeys(e: seq<(string, Value)>, c: Converter)
    ensures Nested(Dict(e), c).Dict?
    ensures DistinctKeys(Nested(Dict(e), c).entries)
    ensures forall k :: k in KeysOf(Nested(Dict(e), c).entries) <==>
              exists i :: 0 <= i < |e| && k == ConvertString(c, e[i].0)
  {
    var pairs := ConvertedPairs(e, c);
    PutAllDistinct([], pairs);
    PutAllKeys([], pairs);
    ConvertedPairsKeys(e, c);
  }

  /** The converted pairs carry exactly the converted keys. */
  lemma ConvertedPairsKeys(e: seq<(string, Value)>, c: Converter)
    ensures forall k :: k in KeysOf(ConvertedPairs(e, c)) <==> exists i :: 0 <= i < |e| && k == ConvertString(c, e[i].0)
  {
    var ks := KeysOf(ConvertedPairs(e, c));
    assert forall i :: 0 <= i < |e| ==> ks[i] == ConvertString(c, e[i].0);
    forall k ensures k in ks <==> exists i :: 0 <= i < |e| && k == ConvertString(c, e[i].0) {
      if k in ks {
        var i :| 0 <= i < |ks| && ks[i] == k;
        assert k == ConvertString(c, e[i].0);
      }
    }
  }

  lemma {:induction false} PutAllKeys<V>(acc: Dict<V>, pairs: seq<(string, V)>)
    ensures forall k :: k in KeysOf(PutAll(acc, pairs)) <==> k in KeysOf(acc) || k in KeysOf(pairs)
    decreases pairs
  {
    if pairs != [] {
      var acc' := Put(acc, pairs[0].0, pairs[0].1);
      KeysPut(acc, pairs[0].0, pairs[0].1);
      PutAllKeys(acc', pairs[1..]);
      assert KeysOf(pairs) == [pairs[0].0] + KeysOf(pairs[1..]);
    }
  }

  /** Every Python dict in `v` has distinct round-trippable snake-case keys. */
  ghost predicate SnakeKeyed(v: Value)
  {
    match v
    case Dict(e) =>
      DistinctKeys(e) && forall i :: 0 <= i < |e| ==> IsSnakeName(e[i].0) && SnakeKeyed(e[i].1)
    case List(l) => forall i :: 0 <= i < |l| ==> SnakeKeyed(l[i])
    case _ => true
  }

  /** Camel-casing a snake-keyed structure and snake-casing it back gives it back unchanged. */
  lemma {:induction false} NestedRoundTrip(v: Value)
    requires SnakeKeyed(v)
    ensures Nested(Nested(v, CamelCase), SnakeCase) == v
    decreases v, 2
  {
    match v
    case Dict(e) => DictRoundTrip(e);
    case List(l) => ListRoundTrip(l);
    case _ =>
  }

  lemma {:induction false} DictRoundTrip(e: seq<(string, Value)>)
    requires SnakeKeyed(Dict(e))
    ensures Nested(Nested(Dict(e), CamelCase), SnakeCase) == Dict(e)
    decreases Dict(e), 1
  {
    var pairs1 := ConvertedPairs(e, CamelCase);
    CamelPairsDistinct(e);
    assert [] + pairs1 == pairs1;
    PutAllFresh([], pairs1);
    assert Nested(Dict(e), CamelCase) == Dict(pairs1);
    PairsRoundTrip(e);
    assert [] + e == e;
    PutAllFresh([], e);
  }

  /** Each entry's key and value come back after camel-casing and snake-casing. */
  lemma {:induction false} PairsRoundTrip(e: seq<(string, Value)>)
    requires SnakeKeyed(Dict(e))
    ensures ConvertedPairs(ConvertedPairs(e, CamelCase), SnakeCase) == e
    decreases Dict(e), 0
  {
    var pairs1 := ConvertedPairs(e, CamelCase);
    var pairs2 := ConvertedPairs(pairs1, SnakeCase);
    forall i | 0 <= i < |e| ensures pairs2[i] == e[i] {
      assert pairs2[i] == (StringToSnake(pairs1[i].0), Nested(pairs1[i].1, SnakeCase));
      assert pairs1[i] == (StringToCamel(e[i].0), Nested(e[i].1, CamelCase));
      SnakeCamelRoundTrip(e[i].0);
      assert e[i].1 < Dict(e);
      NestedRoundTrip(e[i].1);
    }
  }

  lemma CamelPairsDistinct(e: seq<(string, Value)>)
    requires SnakeKeyed(Dict(e))
    ensures DistinctKeys(ConvertedPairs(e, CamelCase))
  {
    var pairs1 := ConvertedPairs(e, CamelCase);
    forall i, j | 0 <= i < j < |pairs1| ensures pairs1[i].0 != pairs1[j].0 {
      if pairs1[i].0 == pairs1[j].0 {
        CamelInjective(e[i].0, e[j].0);
      }
    }
  }

  lemma {:induction false} ListRoundTrip(l: seq<Value>)
    requires SnakeKeyed(List(l))
    ensures Nested(Nested(List(l), CamelCase), SnakeCase) == List(l)
    decreases List(l), 0
  {
    var l1 := seq(|l|, i requires 0 <= i < |l| => Nested(l[i], CamelCase));
    assert Nested(List(l), CamelCase) == List(l1);
    forall i | 0 <= i < |l| ensures Nested(l1[i], SnakeCase) == l[i] {
      NestedRoundTrip(l[i]);
    }
  }

  /** The top-level round trip: `to_snake(to_camel(obj)) == obj` for a snake name, dict or list. */
  lemma ToCaseRoundTrip(v: Value)
    requires v.Str? ==> IsSnakeName(v.s)
    requires SnakeKeyed(v)
    requires v.Str? || v.Dict? || v.List?
    ensures ToCamel(v).Ok? && ToSnake(ToCamel(v).value) == Ok(v)
  {
    if v.Str? {
      SnakeCamelRoundTrip(v.s);
    } else {
      NestedRoundTrip(v);
    }
  }
}

=== FILE: common.dfy ===
/**
  Shared vocabulary of the model: failure-compatible wrappers, the ASCII string
  helpers that Python's `str` methods provide, the Python objects that flow
  through the library (`Value`), and insertion-ordered dictionaries (`Dict`).
 */
module Common {

  datatype Option<+T> = None | Some(value: T)

  datatype Result<+T, +E> = Ok(value: T) | Err(error: E)

  /** A byte of a `bytes` object. */
  newtype byte = b: int | 0 <= b < 256

  /** `b'\n'` */
  const NEWLINE: byte := 10

  // ---------------------------------------------------------------------------
  // Characters and strings (ASCII semantics of str.upper / str.lower)
  // ---------------------------------------------------------------------------

  predicate IsUpper(c: char) { 'A' <= c <= 'Z' }

  predicate IsLower(c: char) { 'a' <= c <= 'z' }

  predicate IsDigit(c: char) { '0' <= c <= '9' }

  function Upper(c: char): (r: char)
    ensures !IsLower(r)
    ensures IsLower(c) ==> IsUpper(r)
    ensures !IsLower(c) ==> r == c
  {
    if IsLower(c) then (c as int - 32) as char else c
  }

  function Lower(c: char): (r: char)
    ensures !IsUpper(r)
    ensures IsUpper(c) ==> IsLower(r) && Upper(r) == c
    ensures !IsUpper(c) ==> r == c
  {
    if IsUpper(c) then (c as int + 32) as char else c
  }

  /** `s.lower()` */
  function LowerStr(s: string): (r: string)
    ensures |r| == |s|
  {
    if s == [] then [] else [Lower(s[0])] + LowerStr(s[1..])
  }

  lemma {:induction false} LowerStrAt(s: string)
    ensures forall i :: 0 <= i < |s| ==> LowerStr(s)[i] == Lower(s[i])
  {
    if s != [] {
      LowerStrAt(s[1..]);
    }
  }

  lemma {:induction false} LowerStrConcat(a: string, b: string)
    ensures LowerStr(a + b) == LowerStr(a) + LowerStr(b)
  {
    if a == [] {
      assert a + b == b;
    } else {
      assert (a + b)[0] == a[0] && (a + b)[1..] == a[1..] + b;
      LowerStrConcat(a[1..], b);
    }
  }

  /** `sep.join(parts)` */
  function Join<T>(parts: seq<seq<T>>, sep: seq<T>): seq<T>
  {
    if |parts| == 0 then []
    else if |parts| == 1 then parts[0]
    else parts[0] + sep + Join(parts[1..], sep)
  }

  /** Concatenation of all parts, `''.join(parts)`. */
  function Concat<T>(parts: seq<seq<T>>): seq<T>
  {
    if parts == [] then [] else parts[0] + Concat(parts[1..])
  }

  lemma ConcatAppend<T>(a: seq<seq<T>>, b: seq<seq<T>>)
    ensures Concat(a + b) == Concat(a) + Concat(b)
  {
    if a != [] {
      assert (a + b)[0] == a[0];
      assert (a + b)[1..] == a[1..] + b;
      ConcatAppend(a[1..], b);
    } else {
      assert a + b == b;
    }
  }

  /** `s.split(c)` for a one-element separator: always at least one part. */
  function Split<T(==)>(s: seq<T>, c: T): (r: seq<seq<T>>)
    ensures |r| >= 1
    ensures forall i :: 0 <= i < |r| ==> c !in r[i]
  {
    if s == [] then [[]]
    else
      var rest := Split(s[1..], c);
      if s[0] == c then [[]] + rest
      else [[s[0]] + rest[0]] + rest[1..]
  }

  lemma {:induction false} JoinSplit<T>(s: seq<T>, c: T)
    ensures Join(Split(s, c), [c]) == s
  {
    if s != [] {
      var rest := Split(s[1..], c);
      JoinSplit(s[1..], c);
      if s[0] == c {
        assert Split(s, c) == [[]] + rest;
        assert Join([[]] + rest, [c]) == [] + [c] + Join(rest, [c]);
      } else {
        var r := Split(s, c);
        assert r == [[s[0]] + rest[0]] + rest[1..];
        if |rest| == 1 {
          assert Join(r, [c]) == [s[0]] + rest[0];
        } else {
          assert r[1..] == rest[1..];
          assert Join(rest, [c]) == rest[0] + [c] + Join(rest[1..], [c]);
        }
      }
    }
  }

  lemma {:induction false} SplitJoin<T>(parts: seq<seq<T>>, c: T)
    requires |parts| >= 1
    requires forall i :: 0 <= i < |parts| ==> c !in parts[i]
    ensures Split(Join(parts, [c]), c) == parts
  {
    if |parts| == 1 {
      SplitNoSep(parts[0], c);
    } else {
      SplitJoin(parts[1..], c);
      SplitPrefix(parts[0], c, Join(parts[1..], [c]));
      assert Join(parts, [c]) == parts[0] + ([c] + Join(parts[1..], [c]));
      assert [parts[0]] + parts[1..] == parts;
    }
  }

  lemma {:induction false} SplitNoSep<T>(p: seq<T>, c: T)
    requires c !in p
    ensures Split(p, c) == [p]
  {
    if p != [] {
      SplitNoSep(p[1..], c);
      assert [p[0]] + p[1..] == p;
    }
  }

  lemma {:induction false} SplitPrefix<T>(p: seq<T>, c: T, rest: seq<T>)
    requires c !in p
    ensures Split(p + ([c] + rest), c) == [p] + Split(rest, c)
  {
    if p == [] {
      assert p + ([c] + rest) == [c] + rest;
      assert ([c] + rest)[1..] == rest;
    } else {
      SplitPrefix(p[1..], c, rest);
      assert (p + ([c] + rest))[1..] == p[1..] + ([c] + rest);
      assert [p[0]] + p[1..] == p;
    }
  }

  function StartsWith<T(==)>(s: seq<T>, prefix: seq<T>): bool
  {
    |prefix| <= |s| && s[..|prefix|] == prefix
  }

  function EndsWith<T(==)>(s: seq<T>, suffix: seq<T>): bool
  {
    |suffix| <= |s| && s[|s| - |suffix|..] == suffix
  }

  /** Python's `needle in hay` for strings. */
  function IsSubstring<T(==)>(needle: seq<T>, hay: seq<T>): bool
  {
    exists i | 0 <= i <= |hay| - |needle| :: OccursAt(needle, hay, i)
  }

  predicate OccursAt<T(==)>(needle: seq<T>, hay: seq<T>, i: int)
  {
    0 <= i <= |hay| - |needle| && hay[i..i + |needle|] == needle
  }

  /** `s.replace(c, rep)` for a one-character pattern. */
  function ReplaceChar(s: string, c: char, rep: string): (r: string)
    ensures c !in rep ==> c !in r
    ensures |rep| == 1 ==> |r| == |s|
  {
    if s == [] then []
    else (if s[0] == c then rep else [s[0]]) + ReplaceChar(s[1..], c, rep)
  }

  lemma {:induction false} ReplaceCharBack(s: string, c: char, d: char)
    requires d !in s && c != d
    ensures ReplaceChar(ReplaceChar(s, c, [d]), d, [c]) == s
  {
    if s != [] {
      ReplaceCharBack(s[1..], c, d);
      var head := if s[0] == c then [d] else [s[0]];
      assert ReplaceChar(s, c, [d]) == head + ReplaceChar(s[1..], c, [d]);
      assert (head + ReplaceChar(s[1..], c, [d]))[0] == head[0];
      assert (head + ReplaceChar(s[1..], c, [d]))[1..] == ReplaceChar(s[1..], c, [d]);
    }
  }

  /**
    Python's whitespace (`str.isspace`), at which `split()` breaks and which
    `strip()` drops: the ASCII controls 9-13 and 28-31, the space, and the
    Unicode spaces and separators.
   */
  predicate IsSpace(c: char)
  {
    ('\U{9}' <= c <= '\U{D}') || ('\U{1C}' <= c <= '\U{20}') || c == '\U{85}' || c == '\U{A0}' ||
    c == '\U{1680}' || ('\U{2000}' <= c <= '\U{200A}') || c == '\U{2028}' || c == '\U{2029}' ||
    c == '\U{202F}' || c == '\U{205F}' || c == '\U{3000}'
  }

  /** `s.strip()`: drops leading and trailing whitespace. */
  function Strip(s: string): (r: string)
    ensures |r| <= |s|
    ensures r != [] ==> !IsSpace(r[0]) && !IsSpace(r[|r| - 1])
  {
    StripEnd(StripStart(s))
  }

  /** A string with no whitespace at either end is its own strip. */
  lemma StripUnchanged(s: string)
    requires s != [] ==> !IsSpace(s[0]) && !IsSpace(s[|s| - 1])
    ensures Strip(s) == s
  {
  }

  function StripStart(s: string): (r: string)
    ensures |r| <= |s|
    ensures r != [] ==> !IsSpace(r[0])
    ensures EndsWith(s, r)
  {
    if s != [] && IsSpace(s[0]) then StripStart(s[1..]) else s
  }

  function StripEnd(s: string): (r: string)
    ensures |r| <= |s|
    ensures r != [] ==> !IsSpace(r[|r| - 1]) && r[0] == s[0]
    ensures StartsWith(s, r)
  {
    if s != [] && IsSpace(s[|s| - 1]) then StripEnd(s[..|s| - 1]) else s
  }

  function DigitChar(d: nat): (c: char)
    requires d < 10
    ensures IsDigit(c)
  {
    ('0' as int + d) as char
  }

  /** `str(n)` for a non-negative int. */
  function NatToString(n: nat): (r: string)
    ensures |r| >= 1
    ensures forall i :: 0 <= i < |r| ==> IsDigit(r[i])
  {
    if n < 10 then [DigitChar(n)] else NatToString(n / 10) + [DigitChar(n % 10)]
  }

  /** `str(i)` for an int, with a leading '-' when negative. */
  function IntToString(i: int): (r: string)
    ensures |r| >= 1
    ensures (r[0] == '-') <==> i < 0
  {
    if i < 0 then "-" + NatToString(-i) else NatToString(i)
  }

  /** `int(s)` for a string of ASCII digits. */
  function DigitsValue(s: string): nat
    requires forall i :: 0 <= i < |s| ==> IsDigit(s[i])
  {
    if s == [] then 0 else DigitsValue(s[..|s| - 1]) * 10 + DigitValue(s[|s| - 1])
  }

  /**
    `int(s)` of a string: surrounding whitespace, an optional sign, then one
    or more ASCII digits; anything else is the ValueError (None).
   */
  function ParseInt(s: string): (r: Option<int>)
    ensures r.Some? ==> Strip(s) != []
  {
    var t := Strip(s);
    var signed := t != [] && (t[0] == '+' || t[0] == '-');
    var digits := if signed then t[1..] else t;
    if digits != [] && AllDigits(digits) then
      var n: int := DigitsValue(digits);
      Some(if signed && t[0] == '-' then -n else n)
    else None
  }

  predicate AllDigits(s: string)
  {
    forall i :: 0 <= i < |s| ==> IsDigit(s[i])
  }

  /** `int(str(i)) == i`. */
  lemma ParseIntOfString(i: int)
    ensures ParseInt(IntToString(i)) == Some(i)
  {
    var r := IntToString(i);
    var n: nat := if i < 0 then -i else i;
    var digits := NatToString(n);
    assert !IsSpace(r[0]) && !IsSpace(r[|r| - 1]) by {
      if i < 0 {
        assert r[|r| - 1] == digits[|digits| - 1];
      }
    }
    StripUnchanged(r);
    DigitsValueOfNat(n);
    if i < 0 {
      assert r[1..] == digits;
    } else {
      assert r == digits;
    }
  }

  /** Text that is not a number is refused. */
  lemma ParseIntRefuses(s: string)
    requires forall i :: 0 <= i < |s| ==> !IsDigit(s[i])
    ensures ParseInt(s) == None
  {
    var u := StripStart(s);
    var t := StripEnd(u);
    if t != [] {
      assert u[..|t|] == t && s[|s| - |u|..] == u;
      assert t[|t| - 1] == s[|s| - |u| + |t| - 1];
      var digits := if t[0] == '+' || t[0] == '-' then t[1..] else t;
      assert Strip(s) == t;
      if digits != [] {
        assert digits[|digits| - 1] == t[|t| - 1] && !IsDigit(digits[|digits| - 1]);
        assert !AllDigits(digits);
      }
    }
  }

  function DigitValue(c: char): (d: nat)
    requires IsDigit(c)
    ensures d < 10
  {
    c as int - '0' as int
  }

  lemma {:induction false} DigitsValueOfNat(n: nat)
    ensures DigitsValue(NatToString(n)) == n
  {
    var r := NatToString(n);
    if n >= 10 {
      DigitsValueOfNat(n / 10);
      assert r[..|r| - 1] == NatToString(n / 10);
    }
  }

  lemma {:induction false} NatToStringLength(n: nat)
    ensures n < 10 ==> |NatToString(n)| == 1
    ensures 10 <= n < 100 ==> |NatToString(n)| == 2
    ensures 100 <= n < 1000 ==> |NatToString(n)| == 3
  {
    if n >= 10 { NatToStringLength(n / 10); }
  }

  // ---------------------------------------------------------------------------
  // Python objects and insertion-ordered dictionaries
  // ---------------------------------------------------------------------------

  /**
    The Python objects the library passes around: `None`, booleans, ints,
    strings, lists, dicts (insertion-ordered, string keys) and any other object
    (an enum member, a float, `self`), identified by its `str()` text.
   */
  datatype Value =
    | Null
    | Bool(b: bool)
    | Int(i: int)
    | Str(s: string)
    | List(items: seq<Value>)
    | Dict(entries: seq<(string, Value)>)
    | Other(text: string)

  /** Python truthiness (`bool(v)`); any other object is truthy. */
  predicate Truthy(v: Value)
  {
    match v
    case Null => false
    case Bool(b) => b
    case Int(i) => i != 0
    case Str(s) => s != []
    case List(items) => items != []
    case Dict(entries) => entries != []
    case Other(_) => true
  }

  /** An insertion-ordered dict: a sequence of (key, value) pairs. */
  type Dict<V> = seq<(string, V)>

  function KeysOf<V>(d: Dict<V>): (r: seq<string>)
    ensures |r| == |d|
    ensures forall i :: 0 <= i < |d| ==> r[i] == d[i].0
  {
    if d == [] then [] else [d[0].0] + KeysOf(d[1..])
  }

  ghost predicate DistinctKeys<V>(d: Dict<V>)
  {
    forall i, j :: 0 <= i < j < |d| ==> d[i].0 != d[j].0
  }

  /** `d.get(k)`, with `None` for a missing key. */
  function Get<V>(d: Dict<V>, k: string): (r: Option<V>)
    ensures r.Some? <==> k in KeysOf(d)
  {
    if d == [] then None
    else if d[0].0 == k then Some(d[0].1)
    else Get(d[1..], k)
  }

  /** `d[k] = v`: replaces the value in place, or appends a new entry. */
  function Put<V>(d: Dict<V>, k: string, v: V): (r: Dict<V>)
    ensures |r| == if k in KeysOf(d) then |d| else |d| + 1
  {
    if d == [] then [(k, v)]
    else if d[0].0 == k then [(k, v)] + d[1..]
    else [d[0]] + Put(d[1..], k, v)
  }

  /** Successive `acc[k] = v` for the pairs in order: a dict display or comprehension. */
  function PutAll<V>(acc: Dict<V>, pairs: seq<(string, V)>): Dict<V>
    decreases pairs
  {
    if pairs == [] then acc else PutAll(Put(acc, pairs[0].0, pairs[0].1), pairs[1..])
  }

  lemma {:induction false} GetPut<V>(d: Dict<V>, k: string, v: V, k': string)
    ensures Get(Put(d, k, v), k') == if k' == k then Some(v) else Get(d, k')
  {
    if d != [] && d[0].0 != k {
      GetPut(d[1..], k, v, k');
    }
  }

  lemma {:induction false} KeysPut<V>(d: Dict<V>, k: string, v: V)
    ensures KeysOf(Put(d, k, v)) == if k in KeysOf(d) then KeysOf(d) else KeysOf(d) + [k]
  {
    if d != [] && d[0].0 != k {
      KeysPut(d[1..], k, v);
      assert KeysOf(d) == [d[0].0] + KeysOf(d[1..]);
    }
  }

  lemma KeysDistinct<V>(d: Dict<V>)
    requires DistinctKeys(d)
    ensures forall i, j :: 0 <= i < j < |KeysOf(d)| ==> KeysOf(d)[i] != KeysOf(d)[j]
  {
  }

  lemma {:induction false} PutDistinct<V>(d: Dict<V>, k: string, v: V)
    requires DistinctKeys(d)
    ensures DistinctKeys(Put(d, k, v))
  {
    KeysPut(d, k, v);
    var r := Put(d, k, v);
    forall i, j | 0 <= i < j < |r| ensures r[i].0 != r[j].0 {
      assert KeysOf(r)[i] == r[i].0 && KeysOf(r)[j] == r[j].0;
    }
  }

  lemma {:induction false} PutAllDistinct<V>(acc: Dict<V>, pairs: seq<(string, V)>)
    requires DistinctKeys(acc)
    ensures DistinctKeys(PutAll(acc, pairs))
    decreases pairs
  {
    if pairs != [] {
      PutDistinct(acc, pairs[0].0, pairs[0].1);
      PutAllDistinct(Put(acc, pairs[0].0, pairs[0].1), pairs[1..]);
    }
  }

  lemma {:induction false} GetAt<V>(d: Dict<V>, i: nat)
    requires DistinctKeys(d) && i < |d|
    ensures Get(d, d[i].0) == Some(d[i].1)
  {
    if i > 0 {
      assert d[0].0 != d[i].0;
      GetAt(d[1..], i - 1);
    }
  }

  lemma {:induction false} PutFresh<V>(d: Dict<V>, k: string, v: V)
    requires k !in KeysOf(d)
    ensures Put(d, k, v) == d + [(k, v)]
  {
    if d != [] {
      assert KeysOf(d) == [d[0].0] + KeysOf(d[1..]);
      PutFresh(d[1..], k, v);
      assert [d[0]] + (d[1..] + [(k, v)]) == d + [(k, v)];
    }
  }

  /** Building a dict from pairs whose keys are distinct and new keeps them all, in order. */
  lemma {:induction false} PutAllFresh<V>(acc: Dict<V>, pairs: seq<(string, V)>)
    requires DistinctKeys(acc + pairs)
    ensures PutAll(acc, pairs) == acc + pairs
    decreases pairs
  {
    if pairs != [] {
      var k := pairs[0].0;
      forall i | 0 <= i < |acc| ensures acc[i].0 != k {
        assert (acc + pairs)[i] == acc[i] && (acc + pairs)[|acc|] == pairs[0];
      }
      PutFresh(acc, k, pairs[0].1);
      assert acc + [pairs[0]] + pairs[1..] == acc + pairs;
      PutAllFresh(acc + [pairs[0]], pairs[1..]);
    } else {
      assert acc + pairs == acc;
    }
  }
}

=== FILE: exceptions.dfy ===
/**
  The library's exceptions (aiopolly/utils/exceptions.py): the per-class
  default message and HTTP status code, and the message an exception is
  built with from an optional message, request URL, response and cause.
 */
module Exceptions {
  import opened Common

  /** The exception classes; `Base` is `BasePollyException` itself. */
  datatype Kind =
    | Base | AioHTTP | PollyAPI | JSONDecode | ResponseType
    | InvalidS3Bucket | InvalidS3Key | InvalidSampleRate | InvalidSnsTopicArn | InvalidSSML
    | LanguageNotSupported | LexiconNotFound | MarksNotSupportedForFormat | ServiceFailure
    | SSMLMarksNotSupportedForTextType | TextLengthExceeded | InvalidTaskId | SynthesisTaskNotFound
    | InvalidNextToken | InvalidLexicon | LexiconSizeExceeded | MaxLexemeLengthExceeded
    | MaxLexiconsNumberExceeded | UnsupportedPlsAlphabet | UnsupportedPlsLanguage
    | SignatureDoesNotMatch | ValidationError | MissingAuthToken | InvalidPLSLexicon
    | UnsupportedPLSLanguage | ResponseValue

  /** The class attribute `msg`; the five plain subclasses inherit the base one. */
  function Msg(k: Kind): string
  {
    match k
    case Base => "Exception occurred"
    case AioHTTP => "Exception occurred"
    case PollyAPI => "Exception occurred"
    case JSONDecode => "Exception occurred"
    case ResponseType => "Exception occurred"
    case InvalidS3Bucket => "The provided Amazon S3 bucket name is invalid."
    case InvalidS3Key => "The provided Amazon S3 key prefix is invalid. Please provide a valid S3 object key name."
    case InvalidSampleRate => "The specified sample rate is not valid."
    case InvalidSnsTopicArn => "The provided SNS topic ARN is invalid. Please provide a valid SNS topic ARN and try again."
    case InvalidSSML => "The SSML you provided is invalid."
    case LanguageNotSupported => "The language specified is not currently supported by Amazon Polly in this capacity."
    case LexiconNotFound => "Amazon Polly can't find the specified lexicon."
    case MarksNotSupportedForFormat => "Speech marks are not supported for the OutputFormat selected."
    case ServiceFailure => "An unknown condition has caused a service failure."
    case SSMLMarksNotSupportedForTextType => "SSML speech marks are not supported for plain text-type input."
    case TextLengthExceeded => "The value of the \"Text\" parameter is longer than the accepted limits."
    case InvalidTaskId => "The provided Task ID is not valid. Please provide a valid Task ID and try again."
    case SynthesisTaskNotFound => "The Speech Synthesis task with requested Task ID cannot be found."
    case InvalidNextToken => "The NextToken is invalid. Verify that it's spelled correctly, and then try again."
    case InvalidLexicon => "Amazon Polly can't find the specified lexicon."
    case LexiconSizeExceeded => "The maximum size of the specified lexicon would be exceeded by this operation."
    case MaxLexemeLengthExceeded => "The maximum size of the lexeme would be exceeded by this operation."
    case MaxLexiconsNumberExceeded => "The maximum number of lexicons would be exceeded by this operation."
    case UnsupportedPlsAlphabet =>
      "The alphabet specified by the lexicon is not a supported alphabet. Valid values are x-sampa and ipa."
    case UnsupportedPlsLanguage => "The language specified in the lexicon is unsupported."
    case SignatureDoesNotMatch => "The request signature we calculated does not match the signature you provided."
    case ValidationError => "validation error detected"
    case MissingAuthToken => "Missing Authentication Token"
    case InvalidPLSLexicon => "Invalid PLS Lexicon"
    case UnsupportedPLSLanguage => "Unsupported PLS language"
    case ResponseValue => "API send response with unexpected values"
  }

  /** The class attribute `http_code`, absent on the classes that declare none. */
  function HttpCode(k: Kind): Option<int>
  {
    match k
    case LexiconNotFound => Some(404)
    case ServiceFailure => Some(500)
    case Base | AioHTTP | PollyAPI | JSONDecode | ResponseType
       | SignatureDoesNotMatch | ValidationError | MissingAuthToken
       | UnsupportedPLSLanguage | ResponseValue => None
    case _ => Some(400)
  }

  /** The service errors: the classes after the five plain ones. */
  predicate IsServiceError(k: Kind)
  {
    !(k.Base? || k.AioHTTP? || k.PollyAPI? || k.JSONDecode? || k.ResponseType?)
  }

  /** The status-code table: 404 and 500 each belong to one class, the other declared codes are 400. */
  lemma HttpCodeTable(k: Kind)
    ensures HttpCode(k) == Some(404) <==> k == LexiconNotFound
    ensures HttpCode(k) == Some(500) <==> k == ServiceFailure
    ensures HttpCode(k).Some? ==> HttpCode(k).value in {400, 404, 500}
    ensures HttpCode(k).None? <==>
              !IsServiceError(k) || k in {SignatureDoesNotMatch, ValidationError, MissingAuthToken, UnsupportedPLSLanguage, ResponseValue}
  {
  }

  /** The exception given as `cause`: its class name and its `str()`. */
  datatype Cause = Cause(className: string, text: string)

  predicate UrlGiven(url: Option<string>)
  {
    url.Some? && url.value != []
  }

  /** The message before the optional parts: the given one, or the class default when it is empty or None. */
  function BaseMessage(k: Kind, message: Option<string>): (r: string)
    ensures message.Some? && message.value != [] ==> r == message.value
  {
    if message.Some? && message.value != [] then message.value else Msg(k)
  }

  function CauseText(c: Cause): string
  {
    ". Caused by " + c.className + ": " + c.text
  }

  /** `', request: {url}'`, followed by `', response: {response}'` when the response is truthy; nothing without a URL. */
  function RequestPart(url: Option<string>, response: Value, render: Value -> string): string
  {
    if UrlGiven(url) then
      ", request: " + url.value + (if Truthy(response) then ", response: " + render(response) else "")
    else ""
  }

  function CausePart(cause: Option<Cause>): string
  {
    if cause.Some? then CauseText(cause.value) else ""
  }

  /**
    The full message: the base message, then the request URL, then (only
    with a URL) the response, then the cause. `render` is `str()` of the
    response.
   */
  function ComposeMessage(base: string, url: Option<string>, response: Value,
                          cause: Option<Cause>, render: Value -> string): string
  {
    base + RequestPart(url, response, render) + CausePart(cause)
  }

  /**
    The segments can be told apart: the message starts with the base
    message; the character after it is ',' exactly when a URL was given;
    the message is the base message alone exactly when there is neither a
    URL nor a cause; it ends with the cause text when there is a cause; and
    without a URL the response never shows.
   */
  lemma ComposeMessageShape(base: string, url: Option<string>, response: Value,
                            cause: Option<Cause>, render: Value -> string)
    ensures StartsWith(ComposeMessage(base, url, response, cause, render), base)
    ensures UrlGiven(url) <==>
              |ComposeMessage(base, url, response, cause, render)| > |base| &&
              ComposeMessage(base, url, response, cause, render)[|base|] == ','
    ensures ComposeMessage(base, url, response, cause, render) == base <==>
              !UrlGiven(url) && cause.None?
    ensures cause.Some? ==> EndsWith(ComposeMessage(base, url, response, cause, render), CauseText(cause.value))
    ensures !UrlGiven(url) ==>
              ComposeMessage(base, url, response, cause, render) == base + CausePart(cause)
  {
    var req := RequestPart(url, response, render);
    var c := CausePart(cause);
    var r := ComposeMessage(base, url, response, cause, render);
    assert r[..|base|] == base;
    if UrlGiven(url) {
      assert r[|base|] == req[0] == ',';
    } else {
      assert req == [];
      if cause.Some? {
        assert r[|base|] == c[0] == '.';
      }
    }
    if cause.Some? {
      assert r[|r| - |c|..] == c;
    }
  }

  /** The response is rendered exactly when both the URL and the response are truthy, right after the URL. */
  lemma ComposeMessageResponse(base: string, url: Option<string>, response: Value,
                               cause: Option<Cause>, render: Value -> string)
    requires UrlGiven(url)
    ensures Truthy(response) ==>
              StartsWith(ComposeMessage(base, url, response, cause, render),
                         base + ", request: " + url.value + ", response: " + render(response))
    ensures !Truthy(response) ==>
              ComposeMessage(base, url, response, cause, render) == base + ", request: " + url.value + CausePart(cause)
  {
    var rest := CausePart(cause);
    if Truthy(response) {
      var q := base + ", request: " + url.value + ", response: " + render(response);
      assert base + RequestPart(url, response, render) == q;
      assert (q + rest)[..|q|] == q;
    } else {
      assert base + RequestPart(url, response, render) == base + ", request: " + url.value;
    }
  }

  /** The suffixes `__init__` appends to the base message, one after the other. */
  method AppendDetails(base: string, url: Option<string>, response: Value, cause: Option<Cause>,
                       render: Value -> string) returns (m: string)
    ensures m == ComposeMessage(base, url, response, cause, render)
  {
    ghost var req := RequestPart(url, response, render);
    m := base;
    if UrlGiven(url) {
      m := m + ", request: " + url.value;
      if Truthy(response) {
        m := m + ", response: " + render(response);
        assert req == ", request: " + url.value + ", response: " + render(response);
      } else {
        assert req == ", request: " + url.value;
      }
    } else {
      assert req == [];
    }
    assert m == base + req;
    if cause.Some? {
      m := m + ". Caused by " + cause.value.className + ": " + cause.value.text;
      assert CausePart(cause) == ". Caused by " + cause.value.className + ": " + cause.value.text;
    } else {
      assert CausePart(cause) == [];
    }
  }

  /** An exception object: its message (`str(e)`) and the fields it stores. */
  class PollyException {
    const kind: Kind
    var message: string
    var url: Option<string>
    var response: Value
    var cause: Option<Cause>

    /** `__init__`: the message is built up step by step; the three arguments are kept as given. */
    constructor (kind: Kind, message: Option<string>, url: Option<string>, response: Value,
                 cause: Option<Cause>, render: Value -> string)
      ensures this.kind == kind
      ensures this.message == ComposeMessage(BaseMessage(kind, message), url, response, cause, render)
      ensures this.url == url && this.response == response && this.cause == cause
    {
      var m := BaseMessage(kind, message);
      m := AppendDetails(m, url, response, cause, render);
      this.kind := kind;
      this.message := m;
      this.url := url;
      this.response := response;
      this.cause := cause;
    }
  }
}

=== FILE: lexicon.dfy ===
/**
  Building pronunciation lexicons (aiopolly/utils/lexicon.py): the PLS
  document of the W3C Pronunciation Lexicon Specification 1.0 (section 4:
  `lexicon`, `lexeme`, `grapheme`, `phoneme`, `alias`), assembled from
  lexemes given as strings, keyword dictionaries, lexeme objects or nested
  lexicon templates.
 */
module Lexicon {
  import opened Common

  // ---------------------------------------------------------------------------
  // Templates
  // ---------------------------------------------------------------------------

  /** The fixed text of the lexicon template before `{alphabet}`. */
  const LEXICON_HEAD: string :=
    "<?xml version=\"1.0\" encoding=\"UTF-8\"?>\n" +
    "<lexicon version=\"1.0\" \n" +
    "      xmlns=\"http://www.w3.org/2005/01/pronunciation-lexicon\"\n" +
    "      xmlns:xsi=\"http://www.w3.org/2001/XMLSchema-instance\" \n" +
    "      xsi:schemaLocation=\"http://www.w3.org/2005/01/pronunciation-lexicon \n" +
    "        http://www.w3.org/TR/2007/CR-pronunciation-lexicon-20071212/pls.xsd\"\n" +
    "      alphabet=\""
  /** Between `{alphabet}` and `{lang}`. */
  const LEXICON_LANG: string := "\" \n      xml:lang=\""
  /** Between `{lang}` and `{lexemes}`. */
  const LEXICON_BODY: string := "\">\n  "
  /** After `{lexemes}`. */
  const LEXICON_TAIL: string := "\n</lexicon>\n"

  const LEXEME_OPEN: string := "<lexeme>"
  const LEXEME_CLOSE: string := "\n  </lexeme>"

  function GraphemeElement(g: string): string { "\n     <grapheme>" + g + "</grapheme>" }
  function PhonemeElement(p: string): string { "\n     <phoneme>" + p + "</phoneme>" }
  function AliasElement(a: string): string { "\n     <alias>" + a + "</alias>" }

  /** `LEXICON_TEMPLATE.format(alphabet=…, lang=…, lexemes=…)` */
  function LexiconXml(alphabet: string, lang: string, lexemes: string): string
  {
    LEXICON_HEAD + alphabet + LEXICON_LANG + lang + LEXICON_BODY + lexemes + LEXICON_TAIL
  }

  /** An argument that is either an enum member (unwrapped to its value) or given as text. */
  datatype Named = EnumMember(value: string) | PlainText(text: string)

  function Unwrap(n: Named): string
  {
    match n
    case EnumMember(v) => v
    case PlainText(t) => t
  }

  // ---------------------------------------------------------------------------
  // Lexemes
  // ---------------------------------------------------------------------------

  /** The element for an optional field: nothing when it is absent. */
  function PhonemePart(p: Option<string>): string { if p.Some? then PhonemeElement(p.value) else "" }
  function AliasPart(a: Option<string>): string { if a.Some? then AliasElement(a.value) else "" }

  /** `create_lexeme(grapheme, phoneme=…, alias=…)`: absent elements are left out. */
  function CreateLexeme(grapheme: string, phoneme: Option<string>, alias: Option<string>): string
  {
    LEXEME_OPEN + GraphemeElement(grapheme) + (PhonemePart(phoneme) + AliasPart(alias)) + LEXEME_CLOSE
  }

  /** Text framed by an opening and a closing part starts and ends with them. */
  lemma Framed(open: string, body: string, close: string)
    ensures StartsWith(open + body + close, open)
    ensures EndsWith(open + body + close, close)
  {
    var r := open + body + close;
    assert r[..|open|] == open;
    assert r[|r| - |close|..] == close;
  }

  /**
    The grapheme element always comes first, right after the opening tag;
    the lexeme closes with the closing tag; with neither phoneme nor alias
    nothing else is emitted, and each one given adds exactly its element,
    phoneme before alias.
   */
  lemma CreateLexemeShape(g: string, p: Option<string>, a: Option<string>)
    ensures StartsWith(CreateLexeme(g, p, a), LEXEME_OPEN + GraphemeElement(g))
    ensures EndsWith(CreateLexeme(g, p, a), LEXEME_CLOSE)
    ensures p.None? && a.None? ==> CreateLexeme(g, p, a) == LEXEME_OPEN + GraphemeElement(g) + LEXEME_CLOSE
    ensures |CreateLexeme(g, p, a)| ==
              |LEXEME_OPEN + GraphemeElement(g) + LEXEME_CLOSE| + |PhonemePart(p)| + |AliasPart(a)|
    ensures p.Some? ==> |PhonemePart(p)| > 0
    ensures a.Some? ==> |AliasPart(a)| > 0
  {
    var start := LEXEME_OPEN + GraphemeElement(g);
    var mid := PhonemePart(p) + AliasPart(a);
    Framed(start, mid, LEXEME_CLOSE);
  }

  /** The `Lexeme` dataclass. */
  datatype Lexeme = Lexeme(grapheme: string, phoneme: Option<string>, alias: Option<string>)

  predicate TruthyText(s: Option<string>)
  {
    s.Some? && s.value != []
  }

  datatype LexiconError =
    | NoAliasOrPhoneme                 // ValueError in `Lexeme.to_str`
    | NoLexemes                        // ValueError in `LexiconTemplate.to_str`
    | UnsupportedLexemes               // ValueError in `lexemes_to_xml`
    | UnexpectedKeyword(name: string)  // TypeError from `create_lexeme(**d)`
    | MissingGrapheme                  // TypeError from `create_lexeme(**d)`

  /** `Lexeme.to_str`: a lexeme needs a non-empty alias or phoneme. */
  function LexemeToStr(l: Lexeme): Result<string, LexiconError>
  {
    if !(TruthyText(l.alias) || TruthyText(l.phoneme)) then Err(NoAliasOrPhoneme)
    else Ok(CreateLexeme(l.grapheme, l.phoneme, l.alias))
  }

  /** A lexeme is refused exactly when it has no non-empty alias or phoneme, and an accepted one always carries more than its grapheme. */
  lemma LexemeToStrCases(l: Lexeme)
    ensures LexemeToStr(l).Err? <==> !TruthyText(l.alias) && !TruthyText(l.phoneme)
    ensures LexemeToStr(l).Ok? ==>
              LexemeToStr(l).value == CreateLexeme(l.grapheme, l.phoneme, l.alias) &&
              |LexemeToStr(l).value| > |LEXEME_OPEN + GraphemeElement(l.grapheme) + LEXEME_CLOSE|
  {
    CreateLexemeShape(l.grapheme, l.phoneme, l.alias);
  }

  /** How `%s` shows a keyword value: an absent one as `None`. */
  function Shown(v: Option<string>): string
  {
    if v.Some? then v.value else "None"
  }

  /** The first key that `create_lexeme` does not accept as a keyword. */
  function UnexpectedKey(d: Dict<Option<string>>): (r: Option<string>)
    ensures r.Some? ==> r.value in KeysOf(d) && r.value !in {"grapheme", "phoneme", "alias"}
    ensures r.None? ==> forall i :: 0 <= i < |d| ==> d[i].0 in {"grapheme", "phoneme", "alias"}
  {
    if d == [] then None
    else if d[0].0 !in {"grapheme", "phoneme", "alias"} then Some(d[0].0)
    else UnexpectedKey(d[1..])
  }

  /** `create_lexeme(**d)`: unknown keywords and a missing grapheme are refused. */
  function CreateLexemeFrom(d: Dict<Option<string>>): Result<string, LexiconError>
  {
    var bad := UnexpectedKey(d);
    if bad.Some? then Err(UnexpectedKeyword(bad.value))
    else if Get(d, "grapheme").None? then Err(MissingGrapheme)
    else
      var p := Get(d, "phoneme");
      var a := Get(d, "alias");
      Ok(CreateLexeme(Shown(Get(d, "grapheme").value),
                      if p.Some? then p.value else None,
                      if a.Some? then a.value else None))
  }

  /** The keyword dictionary of a `Lexeme`'s fields. */
  function Fields(l: Lexeme): Dict<Option<string>>
  {
    [("grapheme", Some(l.grapheme)), ("phoneme", l.phoneme), ("alias", l.alias)]
  }

  /**
    A lexeme's fields passed as keywords give the same XML as the lexeme,
    whether or not `to_str` would accept it.
   */
  lemma CreateLexemeFromFields(l: Lexeme)
    ensures CreateLexemeFrom(Fields(l)) == Ok(CreateLexeme(l.grapheme, l.phoneme, l.alias))
    ensures LexemeToStr(l).Ok? ==> CreateLexemeFrom(Fields(l)) == LexemeToStr(l)
  {
    var d := Fields(l);
    var d1 := d[1..];
    var d2 := d1[1..];
    assert d2 == [("alias", l.alias)];
    assert "alias" != "phoneme" && "alias" != "grapheme" && "phoneme" != "grapheme" by {
      assert |"alias"| == 5 && |"phoneme"| == 7 && |"grapheme"| == 8;
    }
    assert Get(d, "grapheme") == Some(Some(l.grapheme));
    assert Get(d1, "phoneme") == Some(l.phoneme);
    assert Get(d, "phoneme") == Some(l.phoneme);
    assert Get(d2, "alias") == Some(l.alias);
    assert Get(d1, "alias") == Some(l.alias);
    assert Get(d, "alias") == Some(l.alias);
    assert UnexpectedKey(d2) == None;
    assert UnexpectedKey(d1) == None;
  }

  /** Keyword errors: an unknown keyword is reported first, then a missing grapheme. */
  lemma CreateLexemeFromErrors(d: Dict<Option<string>>)
    ensures (exists i :: 0 <= i < |d| && d[i].0 !in {"grapheme", "phoneme", "alias"}) <==>
              CreateLexemeFrom(d).Err? && CreateLexemeFrom(d).error.UnexpectedKeyword?
    ensures CreateLexemeFrom(d).Err? && CreateLexemeFrom(d).error.UnexpectedKeyword? ==>
              CreateLexemeFrom(d).error.name in KeysOf(d)
    ensures (forall i :: 0 <= i < |d| ==> d[i].0 in {"grapheme", "phoneme", "alias"}) ==>
              (CreateLexemeFrom(d) == Err(MissingGrapheme) <==> "grapheme" !in KeysOf(d))
  {
    var bad := UnexpectedKey(d);
    if bad.Some? {
      var i :| 0 <= i < |d| && KeysOf(d)[i] == bad.value;
    }
  }

  // ---------------------------------------------------------------------------
  // lexemes_to_xml and create_lexicon
  // ---------------------------------------------------------------------------

  /** What `lexemes_to_xml` is given, in the order it tells the cases apart. */
  datatype Lexemes =
    | LexList(items: seq<Lexemes>)
    | LexDict(entries: Dict<Option<string>>)
    | LexObject(lexeme: Lexeme)
    | LexTemplate(alphabet: Named, lang: Named, lexemes: seq<Lexemes>)  // `None` as the empty list
    | LexStr(s: string)
    | LexOther

  /** `''.join(...)` over results computed in order: the first failure wins. */
  function JoinResults(rs: seq<Result<string, LexiconError>>): (r: Result<string, LexiconError>)
    ensures r.Err? <==> exists i :: 0 <= i < |rs| && rs[i].Err?
  {
    if rs == [] then Ok([])
    else match rs[0]
      case Err(e) => Err(e)
      case Ok(x) =>
        match JoinResults(rs[1..])
        case Err(e) => Err(e)
        case Ok(y) => Ok(x + y)
  }

  /** `lexemes_to_xml`; a template goes through its own `to_str`. */
  function LexemesToXml(l: Lexemes): Result<string, LexiconError>
  {
    match l
    case LexList(items) => JoinResults(seq(|items|, i requires 0 <= i < |items| => LexemesToXml(items[i])))
    case LexDict(d) => CreateLexemeFrom(d)
    case LexObject(x) => LexemeToStr(x)
    case LexTemplate(a, g, items) =>
      if items == [] then Err(NoLexemes)
      else
        var joined := JoinResults(seq(|items|, i requires 0 <= i < |items| => LexemesToXml(items[i])));
        if joined.Err? then Err(joined.error) else Ok(LexiconXml(Unwrap(a), Unwrap(g), joined.value))
    case LexStr(s) => Ok(s)
    case LexOther => Err(UnsupportedLexemes)
  }

  /** `create_lexicon`: the lexemes first, then the unwrapped alphabet and language into the template. */
  function CreateLexicon(alphabet: Named, lang: Named, lexemes: Lexemes): Result<string, LexiconError>
  {
    match LexemesToXml(lexemes)
    case Err(e) => Err(e)
    case Ok(x) => Ok(LexiconXml(Unwrap(alphabet), Unwrap(lang), x))
  }

  /** `LexiconTemplate.to_str` on given field values. */
  function TemplateToStr(alphabet: Named, lang: Named, lexemes: seq<Lexemes>): Result<string, LexiconError>
  {
    LexemesToXml(LexTemplate(alphabet, lang, lexemes))
  }

  /** The XML of strings given as a list is their in-order concatenation. */
  lemma {:induction false} ListOfStrings(ss: seq<string>)
    ensures LexemesToXml(LexList(seq(|ss|, i requires 0 <= i < |ss| => LexStr(ss[i])))) == Ok(Concat(ss))
  {
    var items := seq(|ss|, i requires 0 <= i < |ss| => LexStr(ss[i]));
    var rs := seq(|items|, i requires 0 <= i < |items| => LexemesToXml(items[i]));
    assert LexemesToXml(LexList(items)) == JoinResults(rs);
    if ss != [] {
      ListOfStrings(ss[1..]);
      var tail := seq(|ss[1..]|, i requires 0 <= i < |ss[1..]| => LexStr(ss[1..][i]));
      assert tail == items[1..];
      var rt := seq(|tail|, i requires 0 <= i < |tail| => LexemesToXml(tail[i]));
      assert LexemesToXml(LexList(tail)) == JoinResults(rt);
      assert rs[1..] == rt;
      assert rs[0] == Ok(ss[0]);
    }
  }

  /** A list's XML is the concatenation of its two halves' XML; a failure anywhere fails the list. */
  lemma {:induction false} JoinResultsAppend(a: seq<Result<string, LexiconError>>, b: seq<Result<string, LexiconError>>)
    ensures JoinResults(a).Ok? && JoinResults(b).Ok? ==>
              JoinResults(a + b) == Ok(JoinResults(a).value + JoinResults(b).value)
    ensures JoinResults(a).Err? ==> JoinResults(a + b) == JoinResults(a)
  {
    if a == [] {
      assert a + b == b;
      if JoinResults(b).Ok? {
        assert [] + JoinResults(b).value == JoinResults(b).value;
      }
    } else {
      assert (a + b)[0] == a[0] && (a + b)[1..] == a[1..] + b;
      JoinResultsAppend(a[1..], b);
      if a[0].Ok? && JoinResults(a[1..]).Ok? && JoinResults(b).Ok? {
        assert a[0].value + JoinResults(a[1..]).value + JoinResults(b).value ==
               a[0].value + (JoinResults(a[1..]).value + JoinResults(b).value);
      }
    }
  }

  /** Each simple kind of input is handled as `lexemes_to_xml` says: strings pass, unknown types fail. */
  lemma LexemesToXmlCases(s: string, l: Lexeme, items: seq<Lexemes>)
    ensures LexemesToXml(LexStr(s)) == Ok(s)
    ensures LexemesToXml(LexOther) == Err(UnsupportedLexemes)
    ensures LexemesToXml(LexObject(l)).Err? <==> !TruthyText(l.alias) && !TruthyText(l.phoneme)
    ensures (exists i :: 0 <= i < |items| && LexemesToXml(items[i]).Err?) <==> LexemesToXml(LexList(items)).Err?
  {
    LexemeToStrCases(l);
    var rs := seq(|items|, i requires 0 <= i < |items| => LexemesToXml(items[i]));
    assert forall i :: 0 <= i < |items| ==> rs[i] == LexemesToXml(items[i]);
  }

  /**
    A built lexicon is the XML declaration and the `lexicon` element, with
    the alphabet right after the fixed head; an enum member and its value
    give the same document.
   */
  lemma CreateLexiconShape(alphabet: Named, lang: Named, lexemes: Lexemes)
    ensures CreateLexicon(alphabet, lang, lexemes).Err? <==> LexemesToXml(lexemes).Err?
    ensures CreateLexicon(alphabet, lang, lexemes).Ok? ==>
              StartsWith(CreateLexicon(alphabet, lang, lexemes).value, LEXICON_HEAD + Unwrap(alphabet)) &&
              EndsWith(CreateLexicon(alphabet, lang, lexemes).value, LEXICON_TAIL)
    ensures CreateLexicon(EnumMember(Unwrap(alphabet)), EnumMember(Unwrap(lang)), lexemes) ==
              CreateLexicon(alphabet, lang, lexemes)
  {
    match LexemesToXml(lexemes)
    case Ok(x) => LexiconXmlFramed(Unwrap(alphabet), Unwrap(lang), x);
    case Err(_) =>
  }

  /** The filled template starts with the fixed head and the alphabet and ends with the fixed tail. */
  lemma LexiconXmlFramed(alphabet: string, lang: string, lexemes: string)
    ensures StartsWith(LexiconXml(alphabet, lang, lexemes), LEXICON_HEAD + alphabet)
    ensures EndsWith(LexiconXml(alphabet, lang, lexemes), LEXICON_TAIL)
  {
    var m := LEXICON_LANG + lang + LEXICON_BODY + lexemes;
    assert LexiconXml(alphabet, lang, lexemes) == (LEXICON_HEAD + alphabet) + m + LEXICON_TAIL;
    Framed(LEXICON_HEAD + alphabet, m, LEXICON_TAIL);
  }

  /** A template without lexemes is refused; with lexemes it is `create_lexicon` of their list. */
  lemma TemplateToStrCases(alphabet: Named, lang: Named, lexemes: seq<Lexemes>)
    ensures lexemes == [] ==> TemplateToStr(alphabet, lang, lexemes) == Err(NoLexemes)
    ensures lexemes != [] ==>
              TemplateToStr(alphabet, lang, lexemes) == CreateLexicon(alphabet, lang, LexList(lexemes))
  {
  }

  /** When joining fails, the error is that of the first failing item, all earlier ones having succeeded. */
  lemma {:induction false} FirstErr(rs: seq<Result<string, LexiconError>>)
    requires JoinResults(rs).Err?
    ensures exists i :: 0 <= i < |rs| && rs[i] == JoinResults(rs) && forall j :: 0 <= j < i ==> rs[j].Ok?
  {
    if rs[0].Err? {
      assert rs[0] == JoinResults(rs);
    } else {
      FirstErr(rs[1..]);
      var i :| 0 <= i < |rs[1..]| && rs[1..][i] == JoinResults(rs[1..]) && forall j :: 0 <= j < i ==> rs[1..][j].Ok?;
      assert rs[i + 1] == JoinResults(rs);
      assert forall j :: 0 <= j < i + 1 ==> rs[j].Ok? by {
        forall j | 0 <= j < i + 1 ensures rs[j].Ok? {
          if j > 0 { assert rs[j] == rs[1..][j - 1]; }
        }
      }
    }
  }

  // ---------------------------------------------------------------------------
  // LexiconTemplate
  // ---------------------------------------------------------------------------

  /**
    A Python list of lexemes. A template keeps the list object it is given,
    so the caller and the template share it.
   */
  class LexemeList {
    var items: seq<Lexemes>

    constructor (items: seq<Lexemes>)
      ensures this.items == items
    {
      this.items := items;
    }
  }

  /** A lexicon being put together; `lexemes` is null for `None`. */
  class LexiconTemplate {
    var alphabet: Named
    var lang: Named
    var lexemes: LexemeList?

    /** The dataclass constructor keeps the caller's list object itself. */
    constructor (alphabet: Named, lang: Named, lexemes: LexemeList?)
      ensures this.alphabet == alphabet && this.lang == lang && this.lexemes == lexemes
    {
      this.alphabet := alphabet;
      this.lang := lang;
      this.lexemes := lexemes;
    }

    /** The lexemes as `to_str` and `add_lexemes` see them: `None` is as falsy as the empty list. */
    function Items(): seq<Lexemes>
      reads this, lexemes
    {
      if lexemes == null then [] else lexemes.items
    }

    /** `to_str` */
    function ToStr(): Result<string, LexiconError>
      reads this, lexemes
    {
      TemplateToStr(alphabet, lang, Items())
    }

    /**
      `add_lexemes(*ls)`: a non-empty list is extended in place, so the list
      the caller gave the constructor grows as well; otherwise the template
      gets a new list holding `ls`, and the caller's list is left alone.
     */
    method AddLexemes(ls: seq<Lexemes>)
      modifies this, lexemes
      ensures Items() == old(Items()) + ls
      ensures old(Items()) != [] ==> lexemes == old(lexemes) && lexemes.items == old(lexemes.items) + ls
      ensures old(Items()) == [] ==> fresh(lexemes) && lexemes.items == ls
      ensures old(lexemes) != null && old(Items()) == [] ==> old(lexemes).items == old(lexemes.items)
      ensures alphabet == old(alphabet) && lang == old(lang)
    {
      if lexemes != null && lexemes.items != [] {
        lexemes.items := lexemes.items + ls;
      } else {
        lexemes := new LexemeList(ls);
      }
    }
  }

  /**
    Once lexemes were added, `to_str` refuses the template for lack of
    lexemes only when one of its items (a nested template) has none.
   */
  lemma AddedLexemes(alphabet: Named, lang: Named, before: seq<Lexemes>, ls: seq<Lexemes>)
    requires ls != []
    ensures TemplateToStr(alphabet, lang, before + ls) == Err(NoLexemes) ==>
              exists i :: 0 <= i < |before + ls| && LexemesToXml((before + ls)[i]) == Err(NoLexemes)
  {
    var items := before + ls;
    if TemplateToStr(alphabet, lang, items) == Err(NoLexemes) {
      var rs := seq(|items|, i requires 0 <= i < |items| => LexemesToXml(items[i]));
      FirstErr(rs);
    }
  }
}

=== FILE: method.dfy ===
/**
  An operation descriptor and endpoint resolution (aiopolly/types/method.py):
  the placeholders of a path template, the split of the call parameters into
  path and query parameters, the endpoint and the request URL, and the two
  field normalisers for `expected_keys` and `expected_content_types`.
 */
module Method {
  import opened Common
  import Case

  /**
    One API operation. An absent or empty `endpoint`/`endpoint_template` is
    falsy in the source; `Present` is that test.
   */
  datatype Descriptor = Descriptor(
    requestMethod: string,
    name: string,
    endpoint: Option<string>,
    endpointTemplate: Option<string>,
    expectedContentTypes: seq<string>,
    expectedKeys: Option<Dict<Value>>,
    noDataOnSuccess: bool,
    urlParamsAllowed: bool)

  predicate Present(o: Option<string>)
  {
    o.Some? && o.value != []
  }

  /** The ways resolution fails; `IsValueError` tells the `ValueError`s from the `RuntimeError`s. */
  datatype MethodError =
    | NoEndpoint                  // RuntimeError: neither endpoint nor template
    | NoPlaceholders              // RuntimeError: a template without placeholders
    | EmptyEndpointParams         // ValueError
    | Unfilled(key: string)       // ValueError: a parameter whose value is None
    | Unexpected(key: string)     // ValueError: a parameter with nowhere to go
    | NotFound(name: string)      // ValueError: a placeholder nobody supplied
    | FormatKeyError(name: string) // KeyError raised by str.format

  predicate IsValueError(e: MethodError)
  {
    e.EmptyEndpointParams? || e.Unfilled? || e.Unexpected? || e.NotFound?
  }

  // ---------------------------------------------------------------------------
  // Placeholders: re.findall(r'{(.*?)}', template)
  // ---------------------------------------------------------------------------

  /** Index of the first '}' at or after `k`, unless a newline comes first ('.' stops at a newline). */
  function CloseBrace(t: string, k: nat): (r: Option<nat>)
    requires k <= |t|
    ensures r.Some? ==> k <= r.value < |t| && t[r.value] == '}'
    ensures r.Some? ==> forall m :: k <= m < r.value ==> t[m] != '}' && t[m] != '\n'
    decreases |t| - k
  {
    if k == |t| then None
    else if t[k] == '}' then Some(k)
    else if t[k] == '\n' then None
    else CloseBrace(t, k + 1)
  }

  /** The left-to-right list of the shortest `{name}` matches. */
  function Placeholders(t: string): (r: seq<string>)
    decreases |t|
  {
    if t == [] then []
    else if t[0] == '{' then
      match CloseBrace(t, 1)
      case Some(j) => [t[1..j]] + Placeholders(t[j + 1..])
      case None => Placeholders(t[1..])
    else Placeholders(t[1..])
  }

  /** `needed_endpoint_params`: the template's placeholders, or none without a template. */
  function NeededEndpointParams(d: Descriptor): (r: seq<string>)
    ensures !Present(d.endpointTemplate) ==> r == []
  {
    if Present(d.endpointTemplate) then Placeholders(d.endpointTemplate.value) else []
  }

  /**
    A template written as literal segments around placeholder names:
    segs[0] {names[0]} segs[1] ... {names[n-1]} segs[n].
   */
  function Build(segs: seq<string>, names: seq<string>): string
    requires |segs| == |names| + 1
  {
    if names == [] then segs[0] else segs[0] + "{" + names[0] + "}" + Build(segs[1..], names[1..])
  }

  /**
    A replacement-field name that `str.format` looks up as a keyword as it
    stands: not empty (automatic numbering), not starting with a digit (a
    positional index), and free of the attribute, index, conversion and
    format-spec syntax; a newline would end the regex match.
   */
  predicate FieldName(n: string)
  {
    n != [] && !IsDigit(n[0]) &&
    '{' !in n && '}' !in n && '.' !in n && '[' !in n && ':' !in n && '!' !in n && '\n' !in n
  }

  /**
    Literal segments without braces (which `str.format` would read as an
    escape or a stray brace) and plain field names: every placeholder is
    found by the regex and filled by `str.format` as a keyword lookup.
   */
  predicate WellFormed(segs: seq<string>, names: seq<string>)
  {
    |segs| == |names| + 1 &&
    (forall i :: 0 <= i < |segs| ==> '{' !in segs[i] && '}' !in segs[i]) &&
    (forall i :: 0 <= i < |names| ==> FieldName(names[i]))
  }

  /** A template of one field after a literal prefix. */
  lemma OneFieldWellFormed(prefix: string, name: string)
    requires '{' !in prefix && '}' !in prefix && FieldName(name)
    ensures WellFormed([prefix, ""], [name])
  {
  }

  /** A name made of ASCII letters and underscores is a plain field name. */
  lemma LettersFieldName(n: string)
    requires n != [] && forall i :: 0 <= i < |n| ==> 'A' <= n[i] <= 'Z' || 'a' <= n[i] <= 'z' || n[i] == '_'
    ensures FieldName(n)
  {
  }

  lemma {:induction false} CloseBraceOfField(t: string, n: string, k: nat)
    requires '}' !in n && '\n' !in n
    requires |t| >= |n| + 2 && t[1..|n| + 1] == n && t[|n| + 1] == '}'
    requires 1 <= k <= |n| + 1
    ensures CloseBrace(t, k) == Some(|n| + 1)
    decreases |n| + 1 - k
  {
    if k < |n| + 1 {
      assert t[k] == n[k - 1];
      CloseBraceOfField(t, n, k + 1);
    }
  }

  lemma {:induction false} PlaceholdersOfLiteral(s: string, rest: string)
    requires '{' !in s
    ensures Placeholders(s + rest) == Placeholders(rest)
  {
    if s != [] {
      assert (s + rest)[0] == s[0] && (s + rest)[1..] == s[1..] + rest;
      PlaceholdersOfLiteral(s[1..], rest);
    } else {
      assert s + rest == rest;
    }
  }

  lemma PlaceholdersOfField(n: string, rest: string)
    requires '}' !in n && '\n' !in n
    ensures Placeholders("{" + n + "}" + rest) == [n] + Placeholders(rest)
  {
    var t := "{" + n + "}" + rest;
    assert t[1..|n| + 1] == n && t[|n| + 1] == '}';
    CloseBraceOfField(t, n, 1);
    assert t[|n| + 2..] == rest;
  }

  /** A well-formed template with a placeholder is its first segment, that placeholder, and a well-formed rest. */
  lemma {:induction false} BuildCons(segs: seq<string>, names: seq<string>)
    requires WellFormed(segs, names) && names != []
    ensures WellFormed(segs[1..], names[1..])
    ensures Build(segs, names) == segs[0] + ("{" + names[0] + "}" + Build(segs[1..], names[1..]))
  {
    forall i | 0 <= i < |segs| - 1 ensures '{' !in segs[1..][i] && '}' !in segs[1..][i] {
      assert segs[1..][i] == segs[i + 1];
    }
    forall i | 0 <= i < |names| - 1 ensures FieldName(names[1..][i]) {
      assert names[1..][i] == names[i + 1];
    }
  }

  /** Reading the placeholders back from a well-formed template gives its names, in order. */
  lemma {:induction false} PlaceholdersOfBuild(segs: seq<string>, names: seq<string>)
    requires WellFormed(segs, names)
    ensures Placeholders(Build(segs, names)) == names
  {
    if names == [] {
      PlaceholdersOfLiteral(segs[0], []);
      assert segs[0] + [] == segs[0];
    } else {
      var rest := Build(segs[1..], names[1..]);
      BuildCons(segs, names);
      PlaceholdersOfBuild(segs[1..], names[1..]);
      PlaceholdersOfLiteral(segs[0], "{" + names[0] + "}" + rest);
      PlaceholdersOfField(names[0], rest);
    }
  }

  // ---------------------------------------------------------------------------
  // Substitution: template.format(**endpoint_params)
  // ---------------------------------------------------------------------------

  function PrefixOk(s: string, r: Result<string, MethodError>): Result<string, MethodError>
  {
    match r
    case Ok(x) => Ok(s + x)
    case Err(e) => Err(e)
  }

  /**
    Each placeholder replaced by the `str()` (`render`) of its parameter; a
    placeholder without a parameter is a `KeyError`.
   */
  function Format(t: string, env: Dict<Value>, render: Value -> string): Result<string, MethodError>
    decreases |t|
  {
    if t == [] then Ok([])
    else if t[0] == '{' then
      match CloseBrace(t, 1)
      case Some(j) =>
        (match Get(env, t[1..j])
         case Some(v) => PrefixOk(render(v), Format(t[j + 1..], env, render))
         case None => Err(FormatKeyError(t[1..j])))
      case None => PrefixOk([t[0]], Format(t[1..], env, render))
    else PrefixOk([t[0]], Format(t[1..], env, render))
  }

  /** segs[0] vals[0] segs[1] ... vals[n-1] segs[n]. */
  function Interleave(segs: seq<string>, vals: seq<string>): string
    requires |segs| == |vals| + 1
  {
    if vals == [] then segs[0] else segs[0] + vals[0] + Interleave(segs[1..], vals[1..])
  }

  /** The rendered value of each name in `env`. */
  function Lookups(names: seq<string>, env: Dict<Value>, render: Value -> string): (r: seq<string>)
    requires forall i :: 0 <= i < |names| ==> names[i] in KeysOf(env)
    ensures |r| == |names|
  {
    seq(|names|, i requires 0 <= i < |names| => render(Get(env, names[i]).value))
  }

  lemma {:induction false} FormatOfLiteral(s: string, rest: string, env: Dict<Value>, render: Value -> string)
    requires '{' !in s
    ensures Format(s + rest, env, render) == PrefixOk(s, Format(rest, env, render))
  {
    if s != [] {
      assert (s + rest)[0] == s[0] && (s + rest)[1..] == s[1..] + rest;
      FormatOfLiteral(s[1..], rest, env, render);
      match Format(rest, env, render)
      case Ok(x) => assert [s[0]] + (s[1..] + x) == s + x;
      case Err(_) =>
    } else {
      assert s + rest == rest;
      match Format(rest, env, render)
      case Ok(x) => assert s + x == x;
      case Err(_) =>
    }
  }

  lemma FormatOfField(n: string, rest: string, env: Dict<Value>, render: Value -> string)
    requires '}' !in n && '\n' !in n
    requires n in KeysOf(env)
    ensures Format("{" + n + "}" + rest, env, render) == PrefixOk(render(Get(env, n).value), Format(rest, env, render))
  {
    var t := "{" + n + "}" + rest;
    assert t[1..|n| + 1] == n && t[|n| + 1] == '}';
    CloseBraceOfField(t, n, 1);
    assert t[|n| + 2..] == rest;
  }

  /** Substituting into a well-formed template whose names are all supplied fills every placeholder. */
  lemma {:induction false} FormatOfBuild(segs: seq<string>, names: seq<string>, env: Dict<Value>, render: Value -> string)
    requires WellFormed(segs, names)
    requires forall i :: 0 <= i < |names| ==> names[i] in KeysOf(env)
    ensures Format(Build(segs, names), env, render) == Ok(Interleave(segs, Lookups(names, env, render)))
  {
    if names == [] {
      FormatOfLiteral(segs[0], [], env, render);
      assert segs[0] + [] == segs[0];
    } else {
      var rest := Build(segs[1..], names[1..]);
      BuildCons(segs, names);
      assert forall i :: 0 <= i < |names[1..]| ==> names[1..][i] in KeysOf(env) by {
        forall i | 0 <= i < |names[1..]| ensures names[1..][i] in KeysOf(env) {
          assert names[1..][i] == names[i + 1];
        }
      }
      FormatOfBuild(segs[1..], names[1..], env, render);
      var vals := Lookups(names, env, render);
      assert Lookups(names[1..], env, render) == vals[1..];
      FormatOfLiteral(segs[0], "{" + names[0] + "}" + rest, env, render);
      FormatOfField(names[0], rest, env, render);
      assert segs[0] + (vals[0] + Interleave(segs[1..], vals[1..])) == Interleave(segs, vals);
    }
  }

  // ---------------------------------------------------------------------------
  // _filter_params
  // ---------------------------------------------------------------------------

  /** The first needed name that is not among `keys` (`next(..., None)`). */
  function FirstAbsent(needed: seq<string>, keys: seq<string>): (r: Option<string>)
    ensures r.None? <==> forall n :: n in needed ==> n in keys
    ensures r.Some? ==> r.value in needed && r.value !in keys
    ensures r.Some? ==> exists j :: 0 <= j < |needed| && needed[j] == r.value && forall i :: 0 <= i < j ==> needed[i] in keys
  {
    if needed == [] then None
    else if needed[0] !in keys then Some(needed[0])
    else FirstAbsent(needed[1..], keys)
  }

  /**
    The loop of `_filter_params` from entry `i` on, with the path parameters
    `ep` and query parameters `up` gathered so far, followed by the check
    that every placeholder was supplied.
   */
  function Scan(needed: seq<string>, allowed: bool, params: Dict<Value>, i: nat,
                ep: Dict<Value>, up: Dict<Value>): Result<(Dict<Value>, Dict<Value>), MethodError>
    requires i <= |params|
    decreases |params| - i
  {
    if i == |params| then
      match FirstAbsent(needed, KeysOf(ep))
      case Some(n) => Err(NotFound(n))
      case None => Ok((ep, up))
    else
      var k := params[i].0;
      var v := params[i].1;
      if v == Null then Err(Unfilled(k))
      else if k in needed then Scan(needed, allowed, params, i + 1, Put(ep, k, v), up)
      else if allowed || needed == [] then Scan(needed, allowed, params, i + 1, ep, Put(up, k, v))
      else Err(Unexpected(k))
  }

  /** `_filter_params(params)`; `params or {}` makes `None` the empty dict. */
  function Partition(d: Descriptor, params: Dict<Value>): Result<(Dict<Value>, Dict<Value>), MethodError>
  {
    Scan(NeededEndpointParams(d), d.urlParamsAllowed, params, 0, [], [])
  }

  method FilterParams(d: Descriptor, params: Dict<Value>) returns (r: Result<(Dict<Value>, Dict<Value>), MethodError>)
    ensures r == Partition(d, params)
  {
    var needed := NeededEndpointParams(d);
    var ep: Dict<Value> := [];
    var up: Dict<Value> := [];
    var i := 0;
    while i < |params|
      invariant 0 <= i <= |params|
      invariant Scan(needed, d.urlParamsAllowed, params, i, ep, up) == Partition(d, params)
    {
      var k := params[i].0;
      var v := params[i].1;
      if v == Null {
        return Err(Unfilled(k));
      }
      if k in needed {
        ep := Put(ep, k, v);
      } else if d.urlParamsAllowed || needed == [] {
        up := Put(up, k, v);
      } else {
        return Err(Unexpected(k));
      }
      i := i + 1;
    }
    var missing := FirstAbsent(needed, KeysOf(ep));
    if missing.Some? {
      return Err(NotFound(missing.value));
    }
    return Ok((ep, up));
  }

  /** Every entry with a non-None value can be routed to the path or the query. */
  predicate Routable(needed: seq<string>, allowed: bool, e: (string, Value))
  {
    e.1 != Null && (e.0 in needed || allowed || needed == [])
  }

  /** Every entry from `i` on can be routed. */
  predicate RoutableFrom(needed: seq<string>, allowed: bool, params: Dict<Value>, i: nat)
  {
    forall m :: i <= m < |params| ==> Routable(needed, allowed, params[m])
  }

  /** Every placeholder is among `keys` or is the key of an entry from `i` on. */
  predicate SuppliedFrom(needed: seq<string>, keys: seq<string>, params: Dict<Value>, i: nat)
  {
    forall n :: n in needed ==> n in keys || exists m :: i <= m < |params| && params[m].0 == n
  }

  lemma SuppliedStep(needed: seq<string>, keys: seq<string>, keys': seq<string>, params: Dict<Value>, i: nat)
    requires i < |params|
    requires forall n :: n in needed ==> (n in keys' <==> n in keys || n == params[i].0)
    ensures SuppliedFrom(needed, keys, params, i) <==> SuppliedFrom(needed, keys', params, i + 1)
  {
    if SuppliedFrom(needed, keys, params, i) {
      forall n | n in needed ensures n in keys' || exists m :: i + 1 <= m < |params| && params[m].0 == n {
        if n !in keys' {
          var m :| i <= m < |params| && params[m].0 == n;
        }
      }
    }
  }

  lemma RoutableStep(needed: seq<string>, allowed: bool, params: Dict<Value>, i: nat)
    requires i < |params|
    ensures RoutableFrom(needed, allowed, params, i) <==>
              Routable(needed, allowed, params[i]) && RoutableFrom(needed, allowed, params, i + 1)
  {
  }

  lemma {:induction false} ScanOkIff(needed: seq<string>, allowed: bool, params: Dict<Value>, i: nat,
                                     ep: Dict<Value>, up: Dict<Value>)
    requires i <= |params|
    ensures Scan(needed, allowed, params, i, ep, up).Err? ==> IsValueError(Scan(needed, allowed, params, i, ep, up).error)
    ensures Scan(needed, allowed, params, i, ep, up).Ok? <==>
              RoutableFrom(needed, allowed, params, i) && SuppliedFrom(needed, KeysOf(ep), params, i)
    decreases |params| - i
  {
    if i < |params| {
      var k := params[i].0;
      var v := params[i].1;
      RoutableStep(needed, allowed, params, i);
      if v != Null && k in needed {
        var ep' := Put(ep, k, v);
        ScanOkIff(needed, allowed, params, i + 1, ep', up);
        KeysPut(ep, k, v);
        SuppliedStep(needed, KeysOf(ep), KeysOf(ep'), params, i);
      } else if v != Null && (allowed || needed == []) {
        ScanOkIff(needed, allowed, params, i + 1, ep, Put(up, k, v));
        SuppliedStep(needed, KeysOf(ep), KeysOf(ep), params, i);
      }
    }
  }

  /**
    `_filter_params` succeeds exactly when no value is None, every key has
    somewhere to go and every placeholder is supplied; all its failures are
    `ValueError`s.
   */
  lemma PartitionOkIff(d: Descriptor, params: Dict<Value>)
    ensures Partition(d, params).Err? ==> IsValueError(Partition(d, params).error)
    ensures Partition(d, params).Ok? <==>
              (forall m :: 0 <= m < |params| ==> Routable(NeededEndpointParams(d), d.urlParamsAllowed, params[m])) &&
              (forall n :: n in NeededEndpointParams(d) ==> n in KeysOf(params))
  {
    var needed := NeededEndpointParams(d);
    ScanOkIff(needed, d.urlParamsAllowed, params, 0, [], []);
    assert KeysOf<Value>([]) == [];
    forall n | n in needed
      ensures (exists m :: 0 <= m < |params| && params[m].0 == n) <==> n in KeysOf(params)
    {
      if n in KeysOf(params) {
        var m :| 0 <= m < |params| && KeysOf(params)[m] == n;
        assert params[m].0 == n;
      }
    }
  }

  /** A None value always makes resolution fail with a `ValueError`. */
  lemma PartitionRejectsNone(d: Descriptor, params: Dict<Value>, m: nat)
    requires m < |params| && params[m].1 == Null
    ensures Partition(d, params).Err? && IsValueError(Partition(d, params).error)
  {
    PartitionOkIff(d, params);
  }

  /** The entries of `params` whose key is (or, with `inNeeded` false, is not) a placeholder name. */
  function Select(params: Dict<Value>, needed: seq<string>, inNeeded: bool): (r: Dict<Value>)
    ensures |r| <= |params|
  {
    if params == [] then []
    else (if (params[0].0 in needed) == inNeeded then [params[0]] else []) + Select(params[1..], needed, inNeeded)
  }

  lemma {:induction false} SelectMembers(params: Dict<Value>, needed: seq<string>, inNeeded: bool)
    ensures forall e :: e in Select(params, needed, inNeeded) <==> e in params && (e.0 in needed) == inNeeded
  {
    if params != [] {
      SelectMembers(params[1..], needed, inNeeded);
      assert forall e :: e in params <==> e == params[0] || e in params[1..];
    }
  }

  /** Keys of `acc` that avoid params[i..] still avoid params[i + 1..] once params[i] joins them. */
  lemma {:induction false} DisjointAfterStep(acc: Dict<Value>, params: Dict<Value>, i: nat)
    requires i < |params| && DistinctKeys(params)
    requires forall j, m :: 0 <= j < |acc| && i <= m < |params| ==> acc[j].0 != params[m].0
    ensures forall j, m :: 0 <= j < |acc| + 1 && i + 1 <= m < |params| ==> (acc + [params[i]])[j].0 != params[m].0
  {
    forall j, m | 0 <= j < |acc| + 1 && i + 1 <= m < |params| ensures (acc + [params[i]])[j].0 != params[m].0 {
      if j == |acc| {
        assert params[i].0 != params[m].0;
      }
    }
  }

  /** Selecting from params[i..] is the choice on params[i] followed by the selection from params[i + 1..]. */
  lemma SelectStep(params: Dict<Value>, needed: seq<string>, i: nat, acc: Dict<Value>, inNeeded: bool)
    requires i < |params|
    ensures (params[i].0 in needed) == inNeeded ==>
              (acc + [params[i]]) + Select(params[i + 1..], needed, inNeeded) == acc + Select(params[i..], needed, inNeeded)
    ensures (params[i].0 in needed) != inNeeded ==>
              Select(params[i..], needed, inNeeded) == Select(params[i + 1..], needed, inNeeded)
  {
    assert params[i..][0] == params[i] && params[i..][1..] == params[i + 1..];
  }

  lemma {:induction false} ScanOkSelects(needed: seq<string>, allowed: bool, params: Dict<Value>, i: nat,
                                         ep: Dict<Value>, up: Dict<Value>)
    requires i <= |params| && DistinctKeys(params)
    requires forall j, m :: 0 <= j < |ep| && i <= m < |params| ==> ep[j].0 != params[m].0
    requires forall j, m :: 0 <= j < |up| && i <= m < |params| ==> up[j].0 != params[m].0
    requires Scan(needed, allowed, params, i, ep, up).Ok?
    ensures Scan(needed, allowed, params, i, ep, up).value ==
              (ep + Select(params[i..], needed, true), up + Select(params[i..], needed, false))
    decreases |params| - i
  {
    if i == |params| {
      assert params[i..] == [];
      assert ep + [] == ep && up + [] == up;
    } else {
      var k := params[i].0;
      SelectStep(params, needed, i, ep, true);
      SelectStep(params, needed, i, up, false);
      if k in needed {
        assert k !in KeysOf(ep);
        PutFresh(ep, k, params[i].1);
        DisjointAfterStep(ep, params, i);
        ScanOkSelects(needed, allowed, params, i + 1, ep + [params[i]], up);
      } else {
        assert k !in KeysOf(up);
        PutFresh(up, k, params[i].1);
        DisjointAfterStep(up, params, i);
        ScanOkSelects(needed, allowed, params, i + 1, ep, up + [params[i]]);
      }
    }
  }

  /**
    On success the path parameters are exactly the entries named by a
    placeholder and the query parameters exactly the others, each in the
    order of `params`: the two parts are disjoint and together cover it.
   */
  lemma PartitionSplits(d: Descriptor, params: Dict<Value>)
    requires DistinctKeys(params)
    requires Partition(d, params).Ok?
    ensures Partition(d, params).value.0 == Select(params, NeededEndpointParams(d), true)
    ensures Partition(d, params).value.1 == Select(params, NeededEndpointParams(d), false)
    ensures forall e :: e in params <==> e in Partition(d, params).value.0 || e in Partition(d, params).value.1
    ensures forall e :: !(e in Partition(d, params).value.0 && e in Partition(d, params).value.1)
  {
    ScanOkSelects(NeededEndpointParams(d), d.urlParamsAllowed, params, 0, [], []);
    assert params[0..] == params;
    SelectMembers(params, NeededEndpointParams(d), true);
    SelectMembers(params, NeededEndpointParams(d), false);
    assert [] + Select(params, NeededEndpointParams(d), true) == Select(params, NeededEndpointParams(d), true);
    assert [] + Select(params, NeededEndpointParams(d), false) == Select(params, NeededEndpointParams(d), false);
  }

  lemma {:induction false} GetSelect(params: Dict<Value>, needed: seq<string>, n: string)
    requires n in needed
    ensures Get(Select(params, needed, true), n) == Get(params, n)
  {
    if params != [] {
      GetSelect(params[1..], needed, n);
      var rest := Select(params[1..], needed, true);
      if params[0].0 in needed {
        var sel := [params[0]] + rest;
        assert sel[0] == params[0] && sel[1..] == rest;
      } else {
        assert [] + rest == rest;
      }
    }
  }

  // ---------------------------------------------------------------------------
  // _get_endpoint and get_url
  // ---------------------------------------------------------------------------

  /** `_get_endpoint(endpoint_params)` */
  function GetEndpoint(d: Descriptor, ep: Dict<Value>, render: Value -> string): Result<string, MethodError>
  {
    if Present(d.endpoint) then Ok(d.endpoint.value)
    else if !Present(d.endpointTemplate) then Err(NoEndpoint)
    else if Placeholders(d.endpointTemplate.value) == [] then Err(NoPlaceholders)
    else if ep == [] then Err(EmptyEndpointParams)
    else Format(d.endpointTemplate.value, ep, render)
  }

  /**
    `get_url(base_url, params)`: `render` is `str()` and `urlencode` the
    query-string encoder; the query string encodes the whole `params` map.
   */
  function GetUrl(d: Descriptor, baseUrl: string, params: Dict<Value>,
                  render: Value -> string, urlencode: Dict<Value> -> string): Result<string, MethodError>
  {
    match Partition(d, params)
    case Err(e) => Err(e)
    case Ok((ep, up)) =>
      match GetEndpoint(d, ep, render)
      case Err(e) => Err(e)
      case Ok(endpoint) => Ok(baseUrl + endpoint + (if up != [] then "?" + urlencode(params) else ""))
  }

  /** The endpoint error cases, in the order the source checks them. */
  lemma GetEndpointCases(d: Descriptor, ep: Dict<Value>, render: Value -> string)
    ensures Present(d.endpoint) ==> GetEndpoint(d, ep, render) == Ok(d.endpoint.value)
    ensures !Present(d.endpoint) && !Present(d.endpointTemplate) ==> GetEndpoint(d, ep, render) == Err(NoEndpoint)
    ensures !Present(d.endpoint) && NeededEndpointParams(d) == [] ==>
              GetEndpoint(d, ep, render).Err? && !IsValueError(GetEndpoint(d, ep, render).error)
    ensures !Present(d.endpoint) && NeededEndpointParams(d) != [] && ep == [] ==>
              GetEndpoint(d, ep, render) == Err(EmptyEndpointParams)
  {
  }

  /**
    A descriptor with a fixed endpoint and no template: every parameter goes
    to the query, the call fails only on a None value, and '?' with the
    encoded parameters is appended exactly when there are parameters.
   */
  lemma GetUrlFixed(d: Descriptor, baseUrl: string, params: Dict<Value>,
                    render: Value -> string, urlencode: Dict<Value> -> string)
    requires Present(d.endpoint) && !Present(d.endpointTemplate)
    requires DistinctKeys(params)
    ensures GetUrl(d, baseUrl, params, render, urlencode).Ok? <==> forall m :: 0 <= m < |params| ==> params[m].1 != Null
    ensures GetUrl(d, baseUrl, params, render, urlencode).Ok? ==>
              GetUrl(d, baseUrl, params, render, urlencode).value ==
              baseUrl + d.endpoint.value + (if params != [] then "?" + urlencode(params) else "")
  {
    PartitionOkIff(d, params);
    if Partition(d, params).Ok? {
      PartitionSplits(d, params);
      var up := Partition(d, params).value.1;
      assert up == [] <==> params == [] by {
        if params != [] {
          assert params[0] in up;
        }
      }
    }
  }

  /**
    A descriptor with a well-formed template: on success the URL is the
    template with every placeholder replaced by its parameter, followed by
    '?' and the encoded parameters exactly when some parameter is not a
    placeholder. No partially filled template is ever produced.
   */
  lemma GetUrlTemplate(d: Descriptor, baseUrl: string, params: Dict<Value>,
                       render: Value -> string, urlencode: Dict<Value> -> string,
                       segs: seq<string>, names: seq<string>)
    requires !Present(d.endpoint) && Present(d.endpointTemplate)
    requires WellFormed(segs, names) && names != [] && d.endpointTemplate.value == Build(segs, names)
    requires DistinctKeys(params)
    requires Partition(d, params).Ok?
    ensures forall i :: 0 <= i < |names| ==> names[i] in KeysOf(params)
    ensures GetUrl(d, baseUrl, params, render, urlencode) ==
              Ok(baseUrl + Interleave(segs, Lookups(names, params, render)) +
                 (if exists m :: 0 <= m < |params| && params[m].0 !in names then "?" + urlencode(params) else ""))
  {
    PlaceholdersOfBuild(segs, names);
    assert NeededEndpointParams(d) == names;
    PartitionOkIff(d, params);
    PartitionSplits(d, params);
    var ep := Partition(d, params).value.0;
    var up := Partition(d, params).value.1;
    SelectLookups(params, names, render);
    FormatOfBuild(segs, names, ep, render);
    SelectOthersIff(params, names);
  }

  /** A template with a single placeholder at its end is filled by the one parameter that names it. */
  lemma GetUrlOnePlaceholder(d: Descriptor, baseUrl: string, prefix: string, name: string, v: Value,
                             render: Value -> string, urlencode: Dict<Value> -> string)
    requires !Present(d.endpoint) && Present(d.endpointTemplate)
    requires '{' !in prefix && '}' !in prefix && FieldName(name)
    requires d.endpointTemplate.value == Build([prefix, ""], [name])
    requires v != Null
    ensures GetUrl(d, baseUrl, [(name, v)], render, urlencode) == Ok(baseUrl + prefix + render(v))
  {
    var params := [(name, v)];
    PlaceholdersOfBuild([prefix, ""], [name]);
    PartitionOkIff(d, params);
    assert KeysOf(params) == [name];
    GetUrlTemplate(d, baseUrl, params, render, urlencode, [prefix, ""], [name]);
    assert Get(params, name) == Some(v);
    assert Lookups([name], params, render) == [render(v)];
    assert !exists m :: 0 <= m < |params| && params[m].0 !in [name];
    assert Interleave([prefix, ""], [render(v)]) == prefix + render(v);
    assert GetUrl(d, baseUrl, params, render, urlencode) ==
           Ok(baseUrl + Interleave([prefix, ""], Lookups([name], params, render)) + "");
    assert baseUrl + (prefix + render(v)) + "" == baseUrl + prefix + render(v);
  }

  lemma SelectLookups(params: Dict<Value>, names: seq<string>, render: Value -> string)
    requires names != [] && forall i :: 0 <= i < |names| ==> names[i] in KeysOf(params)
    ensures Select(params, names, true) != []
    ensures forall i :: 0 <= i < |names| ==> names[i] in KeysOf(Select(params, names, true))
    ensures Lookups(names, Select(params, names, true), render) == Lookups(names, params, render)
  {
    var ep := Select(params, names, true);
    forall i | 0 <= i < |names| ensures names[i] in KeysOf(ep) && Get(ep, names[i]) == Get(params, names[i]) {
      GetSelect(params, names, names[i]);
    }
    assert names[0] in KeysOf(ep);
  }

  lemma SelectOthersIff(params: Dict<Value>, names: seq<string>)
    ensures Select(params, names, false) != [] <==> exists m :: 0 <= m < |params| && params[m].0 !in names
  {
    var up := Select(params, names, false);
    SelectMembers(params, names, false);
    if up != [] {
      assert up[0] in up;
      var m :| 0 <= m < |params| && params[m] == up[0];
    }
    if exists m :: 0 <= m < |params| && params[m].0 !in names {
      var m :| 0 <= m < |params| && params[m].0 !in names;
      assert params[m] in up;
    }
  }

  // ---------------------------------------------------------------------------
  // __getattr__ fallback and the two validators
  // ---------------------------------------------------------------------------

  datatype AttrError = AttributeError(item: string)

  /** `method.<item>` for an attribute the model does not have: looked up in `expected_keys`. */
  function KeyAttr(expectedKeys: Option<Dict<Value>>, item: string): (r: Result<Value, AttrError>)
    ensures r.Ok? <==> expectedKeys.Some? && item in KeysOf(expectedKeys.value)
    ensures r.Ok? ==> Some(r.value) == Get(expectedKeys.value, item)
  {
    match expectedKeys
    case None => Err(AttributeError(item))
    case Some(keys) =>
      match Get(keys, item)
      case Some(v) => Ok(v)
      case None => Err(AttributeError(item))
  }

  /** The `expected_keys` value as written: one key, a dict, or any other iterable of keys. */
  datatype KeysSpec = KeysStr(key: string) | KeysDict(entries: Dict<Value>) | KeysIter(keys: seq<string>)

  function KeyName(k: string): string
  {
    Case.StringToSnake(k) + "_key"
  }

  /** `_make_keys_dict`: maps `snake(K) + '_key'` to each key K; a dict is snake-cased. */
  function MakeKeysDict(keys: KeysSpec): (r: Dict<Value>)
    ensures DistinctKeys(r)
  {
    match keys
    case KeysStr(k) => [(KeyName(k), Str(k))]
    case KeysDict(e) =>
      Case.NestedDictKeys(e, Case.SnakeCase);
      Case.Nested(Dict(e), Case.SnakeCase).entries
    case KeysIter(ks) =>
      PutAllDistinct([], KeyEntries(ks));
      PutAll([], KeyEntries(ks))
  }

  /** The (attribute name, key) pair of each key, in order. */
  function KeyEntries(ks: seq<string>): (r: Dict<Value>)
    ensures |r| == |ks| && forall i :: 0 <= i < |ks| ==> r[i] == (KeyName(ks[i]), Str(ks[i]))
  {
    seq(|ks|, i requires 0 <= i < |ks| => (KeyName(ks[i]), Str(ks[i])))
  }

  /** A single expected key K is then readable as the attribute `snake(K)_key`, giving K. */
  lemma KeyAttrOfStr(k: string)
    ensures KeyAttr(Some(MakeKeysDict(KeysStr(k))), KeyName(k)) == Ok(Str(k))
    ensures forall item :: item != KeyName(k) ==> KeyAttr(Some(MakeKeysDict(KeysStr(k))), item).Err?
  {
  }

  /** An iterable of keys gives one attribute per key, and no other. */
  lemma {:induction false} MakeKeysDictIter(ks: seq<string>)
    ensures forall item :: item in KeysOf(MakeKeysDict(KeysIter(ks))) <==> exists i :: 0 <= i < |ks| && item == KeyName(ks[i])
  {
    var pairs := KeyEntries(ks);
    Case.PutAllKeys([], pairs);
    forall item ensures item in KeysOf(pairs) <==> exists i :: 0 <= i < |ks| && item == KeyName(ks[i]) {
      if item in KeysOf(pairs) {
        var i :| 0 <= i < |pairs| && KeysOf(pairs)[i] == item;
        assert item == KeyName(ks[i]);
      }
      if exists i :: 0 <= i < |ks| && item == KeyName(ks[i]) {
        var i :| 0 <= i < |ks| && item == KeyName(ks[i]);
        assert KeysOf(pairs)[i] == item;
      }
    }
  }

  /** The `expected_content_types` value as written: one content type or a tuple of them. */
  datatype ContentTypesSpec = OneType(ct: string) | TypeTuple(cts: seq<string>)

  /** `_make_tuple_from_content_types`: a single content type becomes a 1-tuple. */
  function MakeContentTypes(c: ContentTypesSpec): (r: seq<string>)
    ensures c.OneType? ==> |r| == 1 && forall x :: x in r <==> x == c.ct
    ensures c.TypeTuple? ==> r == c.cts
  {
    match c
    case OneType(ct) => [ct]
    case TypeTuple(cts) => cts
  }
}

=== FILE: opus_converter.dfy ===
/**
  The Opus converter (aiopolly/utils/converter/opus_converter.py): the
  parameters and command line it hands to ffmpeg, the check of the
  process's output, the duration it reads from ffmpeg's diagnostics, and
  the fields `convert` updates on the speech. The ffmpeg process itself is
  a given function from command and input to (stdout, stderr).
 */
module OpusConverter {
  import opened Common
  import Speech

  // ---------------------------------------------------------------------------
  // Per-format tables
  // ---------------------------------------------------------------------------

  /** `INPUT_PARAMS.get(fmt, '')`: raw PCM needs its sample layout spelled out. */
  function InputParams(fmt: string): string
  {
    if fmt == "pcm" then "-f s16le -ar 16000 -ac 1 " else ""
  }

  /** `DEFAULT_BITRATE.get(fmt)` in kbit/s. */
  function DefaultBitrate(fmt: string): Option<int>
  {
    if fmt == "mp3" then Some(48)
    else if fmt == "ogg_vorbis" then Some(35)
    else if fmt == "pcm" then Some(128)
    else None
  }

  /** `DEFAULT_SAMPLE_RATE.get(fmt)` in Hz. */
  function DefaultSampleRate(fmt: string): Option<int>
  {
    if fmt == "mp3" || fmt == "ogg_vorbis" then Some(24000)
    else if fmt == "pcm" then Some(16000)
    else None
  }

  /** Python truthiness of an optional number. */
  predicate Given(x: Option<int>)
  {
    x.Some? && x.value != 0
  }

  /** `x or y` */
  function Or(x: Option<int>, y: Option<int>): Option<int>
  {
    if Given(x) then x else y
  }

  // ---------------------------------------------------------------------------
  // Command parameters
  // ---------------------------------------------------------------------------

  /** The `key=value` filters whose key is not excluded, in order. */
  function FilterEntries(filters: Dict<string>, excluded: seq<string>): (r: seq<string>)
    ensures |r| <= |filters|
    ensures forall i :: 0 <= i < |r| ==> r[i] != []
  {
    if filters == [] then []
    else (if filters[0].0 in excluded then [] else [filters[0].0 + "=" + filters[0].1])
         + FilterEntries(filters[1..], excluded)
  }

  /** `filters and '-filter:a ' + filters` over the space-joined entries. */
  function FiltersArg(filters: Dict<string>, excluded: seq<string>): string
  {
    var joined := Join(FilterEntries(filters, excluded), " ");
    if joined == [] then "" else "-filter:a " + joined
  }

  /** What `_get_cmd_params` returns. */
  datatype CmdParams = CmdParams(outBitrate: Option<int>, outSampleRate: Option<int>, inParams: string, filters: string)

  /** `_get_cmd_params` with the arguments already merged with the converter's defaults. */
  function GetCmdParams(fmt: string, outBitrate: Option<int>, sampleRate: Option<int>,
                        filters: Dict<string>, excluded: seq<string>): CmdParams
  {
    CmdParams(Or(outBitrate, DefaultBitrate(fmt)), Or(sampleRate, DefaultSampleRate(fmt)),
              InputParams(fmt), FiltersArg(filters, excluded))
  }

  /** How `format` shows an optional number. */
  function ShownNumber(x: Option<int>): string
  {
    if x.Some? then IntToString(x.value) else "None"
  }

  /** `COMMAND_TEMPLATE.format(**cmd_params)` */
  function Command(cp: CmdParams): string
  {
    "ffmpeg " + cp.inParams + "-i pipe:0 " + cp.filters + " -ar " + ShownNumber(cp.outSampleRate)
      + " -f opus -acodec libopus -b:a " + ShownNumber(cp.outBitrate) + "k pipe:1\n"
  }

  /** A filter list is empty exactly when every filter is excluded. */
  lemma {:induction false} FilterEntriesEmpty(filters: Dict<string>, excluded: seq<string>)
    ensures FilterEntries(filters, excluded) == [] <==> forall i :: 0 <= i < |filters| ==> filters[i].0 in excluded
  {
    if filters != [] {
      FilterEntriesEmpty(filters[1..], excluded);
      assert forall i :: 1 <= i < |filters| ==> filters[i] == filters[1..][i - 1];
    }
  }

  /** Every entry comes from a filter that is not excluded, and every such filter shows as `key=value`. */
  lemma {:induction false} FilterEntriesMembers(filters: Dict<string>, excluded: seq<string>)
    ensures forall e :: e in FilterEntries(filters, excluded) ==>
              exists i :: 0 <= i < |filters| && filters[i].0 !in excluded && e == filters[i].0 + "=" + filters[i].1
    ensures forall i :: 0 <= i < |filters| && filters[i].0 !in excluded ==>
              filters[i].0 + "=" + filters[i].1 in FilterEntries(filters, excluded)
  {
    if filters != [] {
      var rest := filters[1..];
      FilterEntriesMembers(rest, excluded);
      forall e | e in FilterEntries(filters, excluded)
        ensures exists i :: 0 <= i < |filters| && filters[i].0 !in excluded && e == filters[i].0 + "=" + filters[i].1
      {
        if e !in FilterEntries(rest, excluded) {
          assert filters[0].0 !in excluded && e == filters[0].0 + "=" + filters[0].1;
        } else {
          var i :| 0 <= i < |rest| && rest[i].0 !in excluded && e == rest[i].0 + "=" + rest[i].1;
          assert filters[i + 1] == rest[i];
        }
      }
      forall i | 0 <= i < |filters| && filters[i].0 !in excluded
        ensures filters[i].0 + "=" + filters[i].1 in FilterEntries(filters, excluded)
      {
        if i > 0 {
          assert filters[i] == rest[i - 1];
        }
      }
    }
  }

  /**
    The command parameters: an explicit (non-zero) value wins over the
    format's table; only PCM input gets input parameters; the filters
    argument is empty exactly when every filter is excluded and otherwise
    is `-filter:a ` followed by the kept entries.
   */
  lemma CmdParamsShape(fmt: string, outBitrate: Option<int>, sampleRate: Option<int>,
                       filters: Dict<string>, excluded: seq<string>)
    ensures var cp := GetCmdParams(fmt, outBitrate, sampleRate, filters, excluded);
            (Given(outBitrate) ==> cp.outBitrate == outBitrate) &&
            (!Given(outBitrate) ==> cp.outBitrate == DefaultBitrate(fmt)) &&
            (Given(sampleRate) ==> cp.outSampleRate == sampleRate) &&
            (!Given(sampleRate) ==> cp.outSampleRate == DefaultSampleRate(fmt)) &&
            (cp.inParams != [] <==> fmt == "pcm") &&
            (cp.filters == [] <==> forall i :: 0 <= i < |filters| ==> filters[i].0 in excluded) &&
            (cp.filters != [] ==> cp.filters == "-filter:a " + Join(FilterEntries(filters, excluded), " "))
  {
    FilterEntriesEmpty(filters, excluded);
    var es := FilterEntries(filters, excluded);
    if es != [] {
      JoinNonEmpty(es);
    }
  }

  lemma JoinNonEmpty(es: seq<string>)
    requires es != [] && es[0] != []
    ensures Join(es, " ") != []
  {
    if |es| > 1 {
      assert |Join(es, " ")| >= |es[0]|;
    }
  }

  /**
    The converter's defaults sit between an explicit value and the format's
    table (`DefaultBitrate` or `DefaultSampleRate`).
   */
  lemma ResolvePrecedence(arg: Option<int>, default: Option<int>, table: Option<int>)
    ensures Given(arg) ==> Or(Or(arg, default), table) == arg
    ensures !Given(arg) && Given(default) ==> Or(Or(arg, default), table) == default
    ensures !Given(arg) && !Given(default) ==> Or(Or(arg, default), table) == table
  {
  }

  // ---------------------------------------------------------------------------
  // The process result
  // ---------------------------------------------------------------------------

  /** The two `RuntimeError`s of `_execute`. */
  datatype ExecError = FailedWithOutput(stderr: seq<byte>) | NoDiagnostics

  /** `_execute`'s check of (stdout, stderr); `decode` is `bytes.decode()`. */
  function CheckProcess(stdout: seq<byte>, stderr: seq<byte>, decode: seq<byte> -> string)
    : (r: Result<(seq<byte>, string), ExecError>)
    ensures r.Ok? <==> stderr != [] && stdout != []
    ensures r.Ok? ==> r.value == (stdout, decode(stderr))
    ensures r == Err(NoDiagnostics) <==> stderr == []
  {
    if stderr != [] && stdout == [] then Err(FailedWithOutput(stderr))
    else if stderr == [] then Err(NoDiagnostics)
    else Ok((stdout, decode(stderr)))
  }

  // ---------------------------------------------------------------------------
  // _find_duration
  // ---------------------------------------------------------------------------

  /** The number of consecutive digits from position i on. */
  function DigitRun(s: string, i: nat): (n: nat)
    requires i <= |s|
    ensures i + n <= |s|
    ensures forall j :: i <= j < i + n ==> IsDigit(s[j])
    ensures i + n == |s| || !IsDigit(s[i + n])
    decreases |s| - i
  {
    if i < |s| && IsDigit(s[i]) then 1 + DigitRun(s, i + 1) else 0
  }

  /** The three digit groups of a match. */
  datatype Hms = Hms(h: string, m: string, sec: string)

  predicate AllDigits(s: string)
  {
    forall j :: 0 <= j < |s| ==> IsDigit(s[j])
  }

  /**
    The match of `\d{1,3}:\d{1,3}:\d{1,3}` starting at position i: the first
    two runs of digits must be one to three long and end at a ':', the
    last group takes at most three digits.
   */
  function MatchAt(s: string, i: nat): (r: Option<Hms>)
    requires i <= |s|
    ensures r.Some? ==> AllDigits(r.value.h) && AllDigits(r.value.m) && AllDigits(r.value.sec)
    ensures r.Some? ==> 1 <= |r.value.h| <= 3 && 1 <= |r.value.m| <= 3 && 1 <= |r.value.sec| <= 3
  {
    var a := DigitRun(s, i);
    if !(1 <= a <= 3 && i + a < |s| && s[i + a] == ':') then None
    else
      var j := i + a + 1;
      var b := DigitRun(s, j);
      if !(1 <= b <= 3 && j + b < |s| && s[j + b] == ':') then None
      else
        var k := j + b + 1;
        var c := DigitRun(s, k);
        if c == 0 then None
        else Some(Hms(s[i..i + a], s[j..j + b], s[k..k + (if c < 3 then c else 3)]))
  }

  /** The leftmost match at or after position i (`re.findall(...)[0]`). */
  function FirstMatch(s: string, i: nat): (r: Option<Hms>)
    requires i <= |s|
    ensures r.Some? ==> AllDigits(r.value.h) && AllDigits(r.value.m) && AllDigits(r.value.sec)
    decreases |s| - i
  {
    if i == |s| then None
    else if MatchAt(s, i).Some? then MatchAt(s, i)
    else FirstMatch(s, i + 1)
  }

  /** `_find_duration`: hours, minutes and seconds of the first match, None without one. */
  function FindDuration(s: string): Option<int>
  {
    match FirstMatch(s, 0)
    case None => None
    case Some(t) => Some(DigitsValue(t.h) * 3600 + DigitsValue(t.m) * 60 + DigitsValue(t.sec))
  }

  /** A run of digits written at position i, followed by a non-digit or the end, is seen whole. */
  lemma {:induction false} DigitRunOf(s: string, i: nat, d: string)
    requires i + |d| <= |s| && AllDigits(d)
    requires s[i..i + |d|] == d
    requires i + |d| == |s| || !IsDigit(s[i + |d|])
    ensures DigitRun(s, i) == |d|
    decreases |d|
  {
    if d != [] {
      assert s[i] == d[0];
      assert s[i + 1..i + 1 + |d[1..]|] == d[1..];
      DigitRunOf(s, i + 1, d[1..]);
    }
  }

  /** Positions holding no digit start no match. */
  lemma {:induction false} SkipNonDigits(s: string, i: nat, n: nat)
    requires i <= n <= |s|
    requires forall j :: i <= j < n ==> !IsDigit(s[j])
    ensures FirstMatch(s, i) == FirstMatch(s, n)
    decreases n - i
  {
    if i < n {
      assert DigitRun(s, i) == 0;
      SkipNonDigits(s, i + 1, n);
    }
  }

  /** Text without digits holds no duration. */
  lemma NoDigitsNoDuration(s: string)
    requires forall j :: 0 <= j < |s| ==> !IsDigit(s[j])
    ensures FindDuration(s) == None
  {
    SkipNonDigits(s, 0, |s|);
  }

  /** Three digit groups written `H:M:S` at position i, followed by a non-digit or the end, are the match there. */
  lemma {:induction false} MatchAtParts(s: string, i: nat, H: string, M: string, X: string)
    requires AllDigits(H) && AllDigits(M) && AllDigits(X)
    requires 1 <= |H| <= 3 && 1 <= |M| <= 3 && 1 <= |X| <= 3
    requires i + |H| + |M| + |X| + 2 <= |s|
    requires s[i..i + |H|] == H && s[i + |H|] == ':'
    requires s[i + |H| + 1..i + |H| + 1 + |M|] == M && s[i + |H| + 1 + |M|] == ':'
    requires s[i + |H| + |M| + 2..i + |H| + |M| + 2 + |X|] == X
    requires i + |H| + |M| + 2 + |X| == |s| || !IsDigit(s[i + |H| + |M| + 2 + |X|])
    ensures MatchAt(s, i) == Some(Hms(H, M, X))
  {
    DigitRunOf(s, i, H);
    DigitRunOf(s, i + |H| + 1, M);
    DigitRunOf(s, i + |H| + |M| + 2, X);
    MatchAtOfRuns(s, i, H, M, X);
  }

  /** Digit runs of one to three digits separated by colons are the match. */
  lemma MatchAtOfRuns(s: string, i: nat, H: string, M: string, X: string)
    requires i + |H| + |M| + |X| + 2 <= |s|
    requires s[i..i + |H|] == H && s[i + |H| + 1..i + |H| + 1 + |M|] == M
    requires s[i + |H| + |M| + 2..i + |H| + |M| + 2 + |X|] == X
    requires DigitRun(s, i) == |H| && 1 <= |H| <= 3 && s[i + |H|] == ':'
    requires DigitRun(s, i + |H| + 1) == |M| && 1 <= |M| <= 3 && s[i + |H| + 1 + |M|] == ':'
    requires DigitRun(s, i + |H| + |M| + 2) == |X| && 1 <= |X| <= 3
    ensures MatchAt(s, i) == Some(Hms(H, M, X))
  {
  }

  /** A time after text without digits is the first match. */
  lemma {:induction false} FindDurationParts(s: string, p: string, H: string, M: string, X: string, q: string)
    requires s == p + H + ":" + M + ":" + X + q
    requires AllDigits(H) && AllDigits(M) && AllDigits(X)
    requires 1 <= |H| <= 3 && 1 <= |M| <= 3 && 1 <= |X| <= 3
    requires forall j :: 0 <= j < |p| ==> !IsDigit(p[j])
    requires q == [] || !IsDigit(q[0])
    ensures FirstMatch(s, 0) == Some(Hms(H, M, X))
  {
    var i := |p|;
    assert s[i..i + |H|] == H;
    assert s[i + |H|] == ':';
    assert s[i + |H| + 1..i + |H| + 1 + |M|] == M;
    assert s[i + |H| + 1 + |M|] == ':';
    assert s[i + |H| + |M| + 2..i + |H| + |M| + 2 + |X|] == X;
    assert i + |H| + |M| + 2 + |X| < |s| ==> s[i + |H| + |M| + 2 + |X|] == q[0];
    assert forall t :: 0 <= t < i ==> s[t] == p[t];
    MatchAtParts(s, i, H, M, X);
    SkipNonDigits(s, 0, i);
  }

  /** The duration read off a match. */
  lemma DurationOfMatch(s: string, t: Hms)
    requires FirstMatch(s, 0) == Some(t)
    ensures AllDigits(t.h) && AllDigits(t.m) && AllDigits(t.sec)
    ensures FindDuration(s) == Some(DigitsValue(t.h) * 3600 + DigitsValue(t.m) * 60 + DigitsValue(t.sec))
  {
  }

  /** Numbers below 1000 written in decimal after text without digits are the first match. */
  lemma FirstMatchOfTime(p: string, h: nat, m: nat, x: nat, q: string)
    requires h < 1000 && m < 1000 && x < 1000
    requires forall j :: 0 <= j < |p| ==> !IsDigit(p[j])
    requires q == [] || !IsDigit(q[0])
    ensures FirstMatch(p + NatToString(h) + ":" + NatToString(m) + ":" + NatToString(x) + q, 0) ==
              Some(Hms(NatToString(h), NatToString(m), NatToString(x)))
  {
    var H, M, X := NatToString(h), NatToString(m), NatToString(x);
    NatToStringLength(h);
    NatToStringLength(m);
    NatToStringLength(x);
    FindDurationParts(p + H + ":" + M + ":" + X + q, p, H, M, X, q);
  }

  /** A match of decimal numbers gives back the numbers. */
  lemma DurationOfTime(s: string, h: nat, m: nat, x: nat)
    requires FirstMatch(s, 0) == Some(Hms(NatToString(h), NatToString(m), NatToString(x)))
    ensures FindDuration(s) == Some(h * 3600 + m * 60 + x)
  {
    DigitsValueOfNat(h);
    DigitsValueOfNat(m);
    DigitsValueOfNat(x);
    DurationOfMatch(s, Hms(NatToString(h), NatToString(m), NatToString(x)));
  }

  /**
    A time written `H:M:S` with numbers below 1000, after text without
    digits and before a non-digit, is read back as `H*3600 + M*60 + S`.
   */
  lemma FindDurationOf(p: string, h: nat, m: nat, x: nat, q: string)
    requires h < 1000 && m < 1000 && x < 1000
    requires forall j :: 0 <= j < |p| ==> !IsDigit(p[j])
    requires q == [] || !IsDigit(q[0])
    ensures FindDuration(p + NatToString(h) + ":" + NatToString(m) + ":" + NatToString(x) + q) ==
              Some(h * 3600 + m * 60 + x)
  {
    FirstMatchOfTime(p, h, m, x, q);
    DurationOfTime(p + NatToString(h) + ":" + NatToString(m) + ":" + NatToString(x) + q, h, m, x);
  }

  // ---------------------------------------------------------------------------
  // The converter
  // ---------------------------------------------------------------------------

  /** One run of the converter's process on the speech's audio, checked as `_execute` does. */
  function Attempt(cp: CmdParams, audio: seq<byte>, run: (string, seq<byte>) -> (seq<byte>, seq<byte>),
                   decode: seq<byte> -> string): Result<(seq<byte>, string), ExecError>
  {
    var out := run(Command(cp), audio);
    CheckProcess(out.0, out.1, decode)
  }

  /** `OpusConverter`: the settings fixed at construction. */
  class OpusConverter {
    const autoConvert: bool
    const keepOriginal: bool
    const defaultBitrate: Option<int>
    const defaultSampleRate: Option<int>
    /** Kept by the constructor but never applied by `convert`. */
    const defaultFilters: Dict<string>
    const excludedFilters: seq<string>

    constructor (outBitrate: Option<int>, sampleRate: Option<int>, autoConvert: bool, keepOriginal: bool,
                 excludedFilters: seq<string>, defaultFilters: Dict<string>)
      ensures this.defaultBitrate == outBitrate && this.defaultSampleRate == sampleRate
      ensures this.autoConvert == autoConvert && this.keepOriginal == keepOriginal
      ensures this.excludedFilters == excludedFilters && this.defaultFilters == defaultFilters
    {
      this.autoConvert := autoConvert;
      this.keepOriginal := keepOriginal;
      this.defaultBitrate := outBitrate;
      this.defaultSampleRate := sampleRate;
      this.defaultFilters := defaultFilters;
      this.excludedFilters := excludedFilters;
    }

    /** The command parameters `convert` computes for a speech. */
    function ParamsFor(fmt: string, outBitrate: Option<int>, sampleRate: Option<int>, filters: Dict<string>): CmdParams
    {
      GetCmdParams(fmt, Or(outBitrate, defaultBitrate), Or(sampleRate, defaultSampleRate), filters, excludedFilters)
    }

    /**
      `convert`: on success the converted audio is recorded (and replaces
      the original unless it is kept), the speech is marked converted and
      the parameters are recorded with the target format and the duration
      read from ffmpeg's diagnostics; on failure the speech is untouched.
     */
    method Convert(speech: Speech.Speech, outBitrate: Option<int>, sampleRate: Option<int>, filters: Dict<string>,
                   run: (string, seq<byte>) -> (seq<byte>, seq<byte>), decode: seq<byte> -> string)
      returns (r: Result<Speech.Speech, ExecError>)
      modifies speech
      ensures var cp := ParamsFor(speech.outputFormat, outBitrate, sampleRate, filters);
              var a := Attempt(cp, old(speech.audioStream), run, decode);
              (a.Err? ==> r == Err(a.error) && unchanged(speech)) &&
              (a.Ok? ==> r == Ok(speech) &&
                         speech.converted &&
                         speech.convertedStream == Some(a.value.0) &&
                         speech.audioStream == (if keepOriginal then old(speech.audioStream) else a.value.0) &&
                         speech.convertedParams == Some(Speech.ConvertParams(
                           "ogg_opus", FindDuration(a.value.1), cp.outBitrate, cp.outSampleRate,
                           cp.inParams, cp.filters)))
    {
      var cp := ParamsFor(speech.outputFormat, outBitrate, sampleRate, filters);
      var out := run(Command(cp), speech.audioStream);
      var checked := CheckProcess(out.0, out.1, decode);
      if checked.Err? {
        return Err(checked.error);
      }
      var bytestream := checked.value.0;
      var duration := FindDuration(checked.value.1);
      if !keepOriginal {
        speech.audioStream := bytestream;
      }
      speech.convertedStream := Some(bytestream);
      speech.converted := true;
      speech.convertedParams := Some(Speech.ConvertParams(
        "ogg_opus", duration, cp.outBitrate, cp.outSampleRate, cp.inParams, cp.filters));
      return Ok(speech);
    }
  }

  /** The converted format is named `ogg`. */
  lemma OggOpusFormat()
    ensures Speech.FormatName("ogg_opus") == "ogg"
  {
    SplitPrefix("ogg", '_', "opus");
    assert "ogg" + ['_'] + "opus" == "ogg_opus";
    assert !IsSpace('o') && !IsSpace('g');
    StripUnchanged("ogg");
  }

  /**
    After a successful conversion that replaced the audio, the speech's
    `format` is `ogg`; when the original was kept (and differs from the
    converted audio), `format` still names the output format.
   */
  lemma FormatAfterConvert(speech: Speech.Speech, replaced: bool)
    requires speech.converted && speech.convertedParams.Some?
    requires speech.convertedParams.value.toFormat == "ogg_opus"
    requires replaced ==> speech.convertedStream == Some(speech.audioStream)
    requires !replaced ==> speech.convertedStream != Some(speech.audioStream)
    ensures replaced ==> speech.Format() == Some("ogg")
    ensures !replaced ==> speech.Format() == Some(Speech.FormatName(speech.outputFormat))
    ensures speech.ConvertedFormat() == Some("ogg")
  {
    OggOpusFormat();
  }
}

=== FILE: payload.dfy ===
/**
  Request parameters from a call's keyword arguments (aiopolly/utils/payload.py):
  excluded and private names dropped, unset values taken from the instance
  defaults or dropped, nested dicts and lists of dicts processed the same way
  by a nested call that binds the dict's keys as keyword arguments, and keys
  camel-cased for the wire.
 */
module Payload {
  import opened Common
  import Case

  /** `DEFAULT_EXCLUDE`: the names `**locals()` always brings along. */
  const DEFAULT_EXCLUDE: set<string> := {"self", "cls"}

  /** A Python `set` the caller owns; `generate_params` adds to it in place. */
  class NameSet {
    var items: set<string>

    constructor (items: set<string>)
      ensures this.items == items
    {
      this.items := items;
    }
  }

  /**
    The names `generate_params` binds to its own parameters. They are never
    among its `**kwargs`: a nested dict's `use_camel` key sets the nested
    call's flag, and its `exclude` or `defaults` key is a `TypeError`
    (`BindsTwice`).
   */
  const OWN_PARAMETERS: set<string> := {"defaults", "exclude", "use_camel"}

  /** A name that never reaches the output: excluded, private, or one of the function's own parameters. */
  predicate Skipped(ex: set<string>, k: string)
  {
    k in ex || k in OWN_PARAMETERS || StartsWith(k, "_")
  }

  /**
    `generate_params(**d, exclude=exclude, defaults=defaults)` is given
    `exclude` or `defaults` twice when `d` has one of those keys.
   */
  predicate BindsTwice(d: Dict<Value>)
  {
    "exclude" in KeysOf(d) || "defaults" in KeysOf(d)
  }

  /** The `use_camel` the nested call for `d` binds: the truth of `d['use_camel']`, else the default `True`. */
  function NestedUseCamel(d: Dict<Value>): bool
  {
    match Get(d, "use_camel")
    case Some(v) => Truthy(v)
    case None => true
  }

  /** `generate_params` fails only with the nested call's `TypeError`. */
  datatype ParamsError = MultipleValues

  function OutKey(useCamel: bool, k: string): string
  {
    if useCamel then Case.StringToCamel(k) else k
  }

  /** The default for an unset argument, when there is one that is not None. */
  function DefaultFor(defaults: Dict<Value>, k: string): Option<Value>
  {
    match Get(defaults, k)
    case Some(dv) => if dv == Null then None else Some(dv)
    case None => None
  }

  /** An entry that reaches the output: not skipped, and set or defaulted. */
  predicate Kept(defaults: Dict<Value>, ex: set<string>, e: (string, Value))
  {
    !Skipped(ex, e.0) && (e.1 != Null || DefaultFor(defaults, e.0).Some?)
  }

  /**
    The loop of `generate_params` over `kwargs` from entry `i` on, with the
    parameters `acc` gathered so far. A default replaces an unset value as it
    is; only a value the caller passed is recursed into.
   */
  function Gen(defaults: Dict<Value>, ex: set<string>, useCamel: bool, kwargs: Dict<Value>, i: nat, acc: Dict<Value>): Dict<Value>
    requires i <= |kwargs|
    decreases Dict(kwargs), |kwargs| - i
  {
    if i == |kwargs| then acc
    else
      var k := kwargs[i].0;
      var v := kwargs[i].1;
      if Skipped(ex, k) then Gen(defaults, ex, useCamel, kwargs, i + 1, acc)
      else if v == Null then
        match DefaultFor(defaults, k)
        case None => Gen(defaults, ex, useCamel, kwargs, i + 1, acc)
        case Some(dv) => Gen(defaults, ex, useCamel, kwargs, i + 1, Put(acc, OutKey(useCamel, k), dv))
      else
        Gen(defaults, ex, useCamel, kwargs, i + 1, Put(acc, OutKey(useCamel, k), Processed(defaults, ex, v)))
  }

  /**
    The parameters `generate_params(**kwargs, exclude=..., defaults=...,
    use_camel=...)` returns, once `exclude` is settled, when no nested call
    raises (`Raises`).
   */
  function Generate(defaults: Dict<Value>, ex: set<string>, useCamel: bool, kwargs: Dict<Value>): Dict<Value>
  {
    Gen(defaults, ex, useCamel, kwargs, 0, [])
  }

  /**
    A dict is processed by a nested call, which camel-cases unless the dict
    binds a false `use_camel`; anything else is kept.
   */
  function Element(defaults: Dict<Value>, ex: set<string>, e: Value): Value
    decreases e, if e.Dict? then |e.entries| + 1 else 0
  {
    if e.Dict? then Dict(Gen(defaults, ex, NestedUseCamel(e.entries), e.entries, 0, [])) else e
  }

  /** A passed (non-None) value: dicts recursed into, lists element by element, the rest as is. */
  function Processed(defaults: Dict<Value>, ex: set<string>, v: Value): Value
    decreases v, if v.Dict? then |v.entries| + 2 else 1
  {
    match v
    case List(l) => List(seq(|l|, j requires 0 <= j < |l| => Element(defaults, ex, l[j])))
    case _ => Element(defaults, ex, v)
  }

  /**
    Whether the loop from entry `i` on meets a passed value whose processing
    raises. A default that replaces an unset value is not processed, so it
    never raises.
   */
  predicate GenRaises(ex: set<string>, kwargs: Dict<Value>, i: nat)
    requires i <= |kwargs|
    decreases Dict(kwargs), |kwargs| - i
  {
    i < |kwargs| &&
    ((!Skipped(ex, kwargs[i].0) && kwargs[i].1 != Null && ValueRaises(ex, kwargs[i].1)) ||
     GenRaises(ex, kwargs, i + 1))
  }

  /** A dict raises when it binds a parameter twice or when its own nested processing raises. */
  predicate ElementRaises(ex: set<string>, e: Value)
    decreases e, if e.Dict? then |e.entries| + 1 else 0
  {
    e.Dict? && (BindsTwice(e.entries) || GenRaises(ex, e.entries, 0))
  }

  /** Processing a passed value raises: a dict that raises, or a list with such a dict in it. */
  predicate ValueRaises(ex: set<string>, v: Value)
    decreases v, if v.Dict? then |v.entries| + 2 else 1
  {
    match v
    case List(l) => exists j :: 0 <= j < |l| && ElementRaises(ex, l[j])
    case _ => ElementRaises(ex, v)
  }

  /** Whether `generate_params` raises the nested call's `TypeError`. */
  predicate Raises(ex: set<string>, kwargs: Dict<Value>)
  {
    GenRaises(ex, kwargs, 0)
  }

  /** What `generate_params` returns or raises, once `exclude` is settled. */
  function Outcome(defaults: Dict<Value>, ex: set<string>, useCamel: bool, kwargs: Dict<Value>): Result<Dict<Value>, ParamsError>
  {
    if Raises(ex, kwargs) then Err(MultipleValues) else Ok(Generate(defaults, ex, useCamel, kwargs))
  }

  /** What processing a passed value gives or raises. */
  function ProcessedOutcome(defaults: Dict<Value>, ex: set<string>, v: Value): Result<Value, ParamsError>
  {
    if ValueRaises(ex, v) then Err(MultipleValues) else Ok(Processed(defaults, ex, v))
  }

  /** The value that entry `m` contributes when it is kept. */
  function ValueAt(defaults: Dict<Value>, ex: set<string>, kwargs: Dict<Value>, m: nat): Value
    requires m < |kwargs|
  {
    if kwargs[m].1 == Null then
      match DefaultFor(defaults, kwargs[m].0)
      case Some(dv) => dv
      case None => Null
    else Processed(defaults, ex, kwargs[m].1)
  }

  /**
    `generate_params`. With no `exclude` the default set is used; a caller's
    set is first extended in place with `self` and `cls`, and the nested calls
    share it. A nested call's `TypeError` propagates.
   */
  method GenerateParams(defaults: Dict<Value>, exclude: NameSet?, useCamel: bool, kwargs: Dict<Value>)
    returns (r: Result<Dict<Value>, ParamsError>)
    modifies exclude
    ensures exclude != null ==> exclude.items == old(exclude.items) + DEFAULT_EXCLUDE
    ensures r == Outcome(defaults, if exclude == null then DEFAULT_EXCLUDE else exclude.items, useCamel, kwargs)
    decreases Dict(kwargs), 0
  {
    var ex: set<string>;
    if exclude == null {
      ex := DEFAULT_EXCLUDE;
    } else {
      exclude.items := exclude.items + DEFAULT_EXCLUDE;
      ex := exclude.items;
    }
    var params := [];
    var i := 0;
    while i < |kwargs|
      invariant 0 <= i <= |kwargs|
      invariant exclude != null ==> exclude.items == ex && exclude.items == old(exclude.items) + DEFAULT_EXCLUDE
      invariant exclude == null ==> ex == DEFAULT_EXCLUDE
      invariant Gen(defaults, ex, useCamel, kwargs, i, params) == Generate(defaults, ex, useCamel, kwargs)
      invariant Raises(ex, kwargs) == GenRaises(ex, kwargs, i)
    {
      var k := kwargs[i].0;
      var value := kwargs[i].1;
      if Skipped(ex, k) {
        i := i + 1;
        continue;
      }
      if value == Null {
        var dv := DefaultFor(defaults, k);
        if dv.None? {
          i := i + 1;
          continue;
        }
        value := dv.value;
      } else {
        assert value < Dict(kwargs);
        var processed := ProcessValue(defaults, exclude, ex, value);
        if processed.Err? {
          return Err(processed.error);
        }
        value := processed.value;
      }
      params := Put(params, OutKey(useCamel, k), value);
      i := i + 1;
    }
    return Ok(params);
  }

  /**
    A passed value inside the loop of `generate_params`: a dict by a nested
    call, a list with a nested call for each dict in it, anything else as is.
   */
  method ProcessValue(defaults: Dict<Value>, exclude: NameSet?, ex: set<string>, v: Value)
    returns (r: Result<Value, ParamsError>)
    requires DEFAULT_EXCLUDE <= ex
    requires exclude != null ==> exclude.items == ex
    requires exclude == null ==> ex == DEFAULT_EXCLUDE
    modifies exclude
    ensures exclude != null ==> exclude.items == ex
    ensures r == ProcessedOutcome(defaults, ex, v)
    decreases v, 2
  {
    if v.Dict? {
      r := Nested(defaults, exclude, ex, v);
      assert ValueRaises(ex, v) == ElementRaises(ex, v) && Processed(defaults, ex, v) == Element(defaults, ex, v);
      assert r == ProcessedOutcome(defaults, ex, v);
    } else if v.List? {
      var items := v.items;
      var out: seq<Value> := [];
      var j := 0;
      while j < |items|
        invariant 0 <= j <= |items|
        invariant exclude != null ==> exclude.items == ex
        invariant out == seq(j, m requires 0 <= m < j => Element(defaults, ex, items[m]))
        invariant forall m :: 0 <= m < j ==> !ElementRaises(ex, items[m])
      {
        var e := items[j];
        if e.Dict? {
          assert e < v;
          var nested := Nested(defaults, exclude, ex, e);
          if nested.Err? {
            assert ElementRaises(ex, items[j]);
            assert ValueRaises(ex, v);
            return Err(nested.error);
          }
          e := nested.value;
        }
        out := out + [e];
        j := j + 1;
      }
      assert Processed(defaults, ex, v) == List(out);
      assert !ValueRaises(ex, v);
      r := Ok(List(out));
    } else {
      assert !ElementRaises(ex, v) && Element(defaults, ex, v) == v;
      assert !ValueRaises(ex, v) && Processed(defaults, ex, v) == v;
      r := Ok(v);
    }
  }

  /** `generate_params(**d, exclude=exclude, defaults=defaults)` for a dict `d`. */
  method Nested(defaults: Dict<Value>, exclude: NameSet?, ex: set<string>, d: Value)
    returns (r: Result<Value, ParamsError>)
    requires d.Dict?
    requires DEFAULT_EXCLUDE <= ex
    requires exclude != null ==> exclude.items == ex
    requires exclude == null ==> ex == DEFAULT_EXCLUDE
    modifies exclude
    ensures exclude != null ==> exclude.items == ex
    ensures r == (if ElementRaises(ex, d) then Err(MultipleValues) else Ok(Element(defaults, ex, d)))
    decreases d, 1
  {
    if "exclude" in KeysOf(d.entries) || "defaults" in KeysOf(d.entries) {
      return Err(MultipleValues);
    }
    var flag := Get(d.entries, "use_camel");
    var useCamel := flag.None? || Truthy(flag.value);
    var nested := GenerateParams(defaults, exclude, useCamel, d.entries);
    assert ex + DEFAULT_EXCLUDE == ex;
    if nested.Err? {
      return Err(nested.error);
    }
    r := Ok(Dict(nested.value));
  }

  // ---------------------------------------------------------------------------
  // Which keys come out
  // ---------------------------------------------------------------------------

  lemma {:induction false} GenKeys(defaults: Dict<Value>, ex: set<string>, useCamel: bool, kwargs: Dict<Value>, i: nat, acc: Dict<Value>)
    requires i <= |kwargs|
    ensures forall key :: key in KeysOf(Gen(defaults, ex, useCamel, kwargs, i, acc)) <==>
              key in KeysOf(acc) ||
              exists m :: i <= m < |kwargs| && Kept(defaults, ex, kwargs[m]) && key == OutKey(useCamel, kwargs[m].0)
    decreases |kwargs| - i
  {
    if i < |kwargs| {
      var k := kwargs[i].0;
      var v := kwargs[i].1;
      if !Kept(defaults, ex, kwargs[i]) {
        GenKeys(defaults, ex, useCamel, kwargs, i + 1, acc);
      } else {
        var acc' := Put(acc, OutKey(useCamel, k), ValueAt(defaults, ex, kwargs, i));
        assert Gen(defaults, ex, useCamel, kwargs, i, acc) == Gen(defaults, ex, useCamel, kwargs, i + 1, acc');
        KeysPut(acc, OutKey(useCamel, k), ValueAt(defaults, ex, kwargs, i));
        GenKeys(defaults, ex, useCamel, kwargs, i + 1, acc');
      }
    }
  }

  /**
    The output has one key per kept argument and no other: an excluded,
    private, or unset-and-undefaulted argument contributes nothing, and a key
    that only `defaults` has is never added.
   */
  lemma GenerateKeys(defaults: Dict<Value>, ex: set<string>, useCamel: bool, kwargs: Dict<Value>)
    ensures forall key :: key in KeysOf(Generate(defaults, ex, useCamel, kwargs)) <==>
              exists m :: 0 <= m < |kwargs| && Kept(defaults, ex, kwargs[m]) && key == OutKey(useCamel, kwargs[m].0)
  {
    GenKeys(defaults, ex, useCamel, kwargs, 0, []);
  }

  /** Without camel-casing, an excluded or private name never appears in the output. */
  lemma GenerateExcludes(defaults: Dict<Value>, ex: set<string>, kwargs: Dict<Value>, k: string)
    requires Skipped(ex, k)
    ensures k !in KeysOf(Generate(defaults, ex, false, kwargs))
  {
    GenerateKeys(defaults, ex, false, kwargs);
  }

  /** With camel-casing, no output key contains '_' (so none is private). */
  lemma GenerateCamelKeys(defaults: Dict<Value>, ex: set<string>, kwargs: Dict<Value>)
    ensures forall key :: key in KeysOf(Generate(defaults, ex, true, kwargs)) ==> '_' !in key
  {
    GenerateKeys(defaults, ex, true, kwargs);
  }

  // ---------------------------------------------------------------------------
  // Which values come out
  // ---------------------------------------------------------------------------

  /** Distinct arguments give distinct output keys (always so without camel-casing). */
  predicate OutKeysDistinct(useCamel: bool, kwargs: Dict<Value>)
  {
    forall a, b :: 0 <= a < b < |kwargs| ==> OutKey(useCamel, kwargs[a].0) != OutKey(useCamel, kwargs[b].0)
  }

  lemma {:induction false} GetGenUntouched(defaults: Dict<Value>, ex: set<string>, useCamel: bool, kwargs: Dict<Value>,
                                           i: nat, acc: Dict<Value>, key: string)
    requires i <= |kwargs|
    requires forall m :: i <= m < |kwargs| ==> OutKey(useCamel, kwargs[m].0) != key
    ensures Get(Gen(defaults, ex, useCamel, kwargs, i, acc), key) == Get(acc, key)
    decreases |kwargs| - i
  {
    if i < |kwargs| {
      var k := kwargs[i].0;
      if Kept(defaults, ex, kwargs[i]) {
        var acc' := Put(acc, OutKey(useCamel, k), ValueAt(defaults, ex, kwargs, i));
        assert Gen(defaults, ex, useCamel, kwargs, i, acc) == Gen(defaults, ex, useCamel, kwargs, i + 1, acc');
        GetPut(acc, OutKey(useCamel, k), ValueAt(defaults, ex, kwargs, i), key);
        GetGenUntouched(defaults, ex, useCamel, kwargs, i + 1, acc', key);
      } else {
        GetGenUntouched(defaults, ex, useCamel, kwargs, i + 1, acc, key);
      }
    }
  }

  lemma {:induction false} GetGenKept(defaults: Dict<Value>, ex: set<string>, useCamel: bool, kwargs: Dict<Value>,
                                      i: nat, acc: Dict<Value>, m: nat)
    requires i <= m < |kwargs| && Kept(defaults, ex, kwargs[m])
    requires OutKeysDistinct(useCamel, kwargs)
    ensures Get(Gen(defaults, ex, useCamel, kwargs, i, acc), OutKey(useCamel, kwargs[m].0)) == Some(ValueAt(defaults, ex, kwargs, m))
    decreases |kwargs| - i
  {
    var k := kwargs[i].0;
    var acc' := Put(acc, OutKey(useCamel, k), ValueAt(defaults, ex, kwargs, i));
    if i == m {
      assert Gen(defaults, ex, useCamel, kwargs, i, acc) == Gen(defaults, ex, useCamel, kwargs, i + 1, acc');
      GetPut(acc, OutKey(useCamel, k), ValueAt(defaults, ex, kwargs, i), OutKey(useCamel, k));
      GetGenUntouched(defaults, ex, useCamel, kwargs, i + 1, acc', OutKey(useCamel, k));
    } else if Kept(defaults, ex, kwargs[i]) {
      assert Gen(defaults, ex, useCamel, kwargs, i, acc) == Gen(defaults, ex, useCamel, kwargs, i + 1, acc');
      GetGenKept(defaults, ex, useCamel, kwargs, i + 1, acc', m);
    } else {
      GetGenKept(defaults, ex, useCamel, kwargs, i + 1, acc, m);
    }
  }

  /**
    Precedence: a value the caller passed wins over the default (processed
    when it is a dict or list); an unset value takes the default, unchanged.
   */
  lemma GeneratePrecedence(defaults: Dict<Value>, ex: set<string>, useCamel: bool, kwargs: Dict<Value>, m: nat)
    requires m < |kwargs| && !Skipped(ex, kwargs[m].0)
    requires OutKeysDistinct(useCamel, kwargs)
    ensures kwargs[m].1 != Null ==>
              Get(Generate(defaults, ex, useCamel, kwargs), OutKey(useCamel, kwargs[m].0)) == Some(Processed(defaults, ex, kwargs[m].1))
    ensures kwargs[m].1 == Null ==>
              Get(Generate(defaults, ex, useCamel, kwargs), OutKey(useCamel, kwargs[m].0)) == DefaultFor(defaults, kwargs[m].0)
  {
    if Kept(defaults, ex, kwargs[m]) {
      GetGenKept(defaults, ex, useCamel, kwargs, 0, [], m);
    } else {
      forall m' | 0 <= m' < |kwargs| ensures OutKey(useCamel, kwargs[m'].0) != OutKey(useCamel, kwargs[m].0) || m' == m {
      }
      GenerateKeys(defaults, ex, useCamel, kwargs);
    }
  }

  /**
    A list keeps its length and order: dicts in it are processed by nested
    calls, other elements copied; it raises exactly when one of its dicts does.
   */
  lemma ProcessedList(defaults: Dict<Value>, ex: set<string>, l: seq<Value>)
    ensures ValueRaises(ex, List(l)) <==>
              exists j :: 0 <= j < |l| && l[j].Dict? && (BindsTwice(l[j].entries) || Raises(ex, l[j].entries))
    ensures Processed(defaults, ex, List(l)).List?
    ensures |Processed(defaults, ex, List(l)).items| == |l|
    ensures forall j :: 0 <= j < |l| && !l[j].Dict? ==> Processed(defaults, ex, List(l)).items[j] == l[j]
    ensures forall j :: 0 <= j < |l| && l[j].Dict? ==>
              Processed(defaults, ex, List(l)).items[j] == Dict(Generate(defaults, ex, NestedUseCamel(l[j].entries), l[j].entries))
  {
  }

  /**
    A nested dict is processed with the same exclusions and defaults, its
    keys bound as keyword arguments: an `exclude` or `defaults` key raises,
    a `use_camel` key sets the flag and is not an entry, and the keys are
    camel-cased unless that flag is false.
   */
  lemma ProcessedDict(defaults: Dict<Value>, ex: set<string>, e: Dict<Value>)
    ensures ValueRaises(ex, Dict(e)) <==> BindsTwice(e) || Raises(ex, e)
    ensures Processed(defaults, ex, Dict(e)) == Dict(Generate(defaults, ex, NestedUseCamel(e), e))
    ensures !NestedUseCamel(e) ==> "use_camel" in KeysOf(e)
    ensures NestedUseCamel(e) ==> forall key :: key in KeysOf(Processed(defaults, ex, Dict(e)).entries) ==> '_' !in key
    ensures "use_camel" !in KeysOf(Processed(defaults, ex, Dict(e)).entries)
  {
    if NestedUseCamel(e) {
      GenerateCamelKeys(defaults, ex, e);
    } else {
      GenerateExcludes(defaults, ex, e, "use_camel");
    }
  }

  /** A nested `{'use_camel': False, 'a_b': 1}` keeps its key as written; a nested `exclude` key raises. */
  lemma NestedKeywords(x: Value)
    ensures Processed([], DEFAULT_EXCLUDE, Dict([("use_camel", Bool(false)), ("a_b", Int(1))])) == Dict([("a_b", Int(1))])
    ensures ValueRaises(DEFAULT_EXCLUDE, Dict([("exclude", x)]))
  {
    var d := [("use_camel", Bool(false)), ("a_b", Int(1))];
    assert Get(d, "use_camel") == Some(Bool(false));
    assert !Skipped(DEFAULT_EXCLUDE, "a_b") by {
      assert "a_b"[0] != '_';
    }
    assert Gen([], DEFAULT_EXCLUDE, false, d, 0, []) == Gen([], DEFAULT_EXCLUDE, false, d, 1, []);
    assert KeysOf([("exclude", x)]) == ["exclude"];
  }

  /** A value that is neither a dict nor a list holding one is never processed into a raise. */
  predicate Flat(v: Value)
  {
    !v.Dict? && (v.List? ==> forall j :: 0 <= j < |v.items| ==> !v.items[j].Dict?)
  }

  /** Keyword arguments whose kept values hold no dict never make `generate_params` raise. */
  lemma {:induction false} FlatNeverRaises(ex: set<string>, kwargs: Dict<Value>, i: nat)
    requires i <= |kwargs|
    requires forall m :: i <= m < |kwargs| && !Skipped(ex, kwargs[m].0) ==> Flat(kwargs[m].1)
    ensures !GenRaises(ex, kwargs, i)
    decreases |kwargs| - i
  {
    if i < |kwargs| {
      var v := kwargs[i].1;
      assert !Skipped(ex, kwargs[i].0) ==> !ValueRaises(ex, v) by {
        if v.List? && !Skipped(ex, kwargs[i].0) {
          assert forall j :: 0 <= j < |v.items| ==> !ElementRaises(ex, v.items[j]);
        }
      }
      FlatNeverRaises(ex, kwargs, i + 1);
    }
  }
}

=== FILE: polly.dfy ===
/**
  The operation façade (aiopolly/polly/polly.py): the registry of the nine
  Amazon Polly operations, the instance-defaults map, the request each
  operation sends, and the post-processing of SynthesizeSpeech (speech-mark
  lines, the `Speech` record, the converter decision).
 */
module Polly {
  import opened Common
  import Case
  import Method
  import Payload
  import Api
  import Speech
  import OpusConverter

  // ---------------------------------------------------------------------------
  // Content types
  // ---------------------------------------------------------------------------

  /** `types.ContentType` (aiopolly/types/content_type.py), the table responses are compared with. */
  const APPLICATION_JSON: string := Api.APPLICATION_JSON
  const AUDIO_JSON: string := Api.AUDIO_JSON
  const AUDIO_MPEG: string := "audio/mpeg"
  const AUDIO_PCM: string := "audio/pcm"
  const AUDIO_OGG: string := "audio/ogg"

  /** `types.enums.ContentType.audio_json` (aiopolly/types/enums.py): another value for the same member. */
  const ENUMS_AUDIO_JSON: string := "application/x-json-stream"

  /** `AUDIO_CONTENT_TYPES` of the table the client compares with. */
  const AUDIO_CONTENT_TYPES: seq<string> := [AUDIO_OGG, AUDIO_PCM, AUDIO_JSON, AUDIO_MPEG]

  /** `types.enums.AUDIO_CONTENT_TYPES`, the tuple the SynthesizeSpeech descriptor is given. */
  const ENUMS_AUDIO_CONTENT_TYPES: seq<string> := [AUDIO_OGG, AUDIO_PCM, ENUMS_AUDIO_JSON, AUDIO_MPEG]

  /** The response header carrying the number of characters billed. */
  const CHARACTERS_HEADER: string := "x-amzn-RequestCharacters"

  /** The `Speech` field the header fills; the model converts its text to an int. */
  const REQUEST_CHARACTERS: string := "request_characters"

  // ---------------------------------------------------------------------------
  // The operation registry (class Methods)
  // ---------------------------------------------------------------------------

  datatype Operation =
    | DeleteLexicon
    | DescribeVoices
    | GetLexicon
    | GetSpeechSynthesisTask
    | ListLexicons
    | ListSpeechSynthesisTasks
    | PutLexicon
    | StartSpeechSynthesisTask
    | SynthesizeSpeech

  const LEXICON_SEGMENTS: seq<string> := ["/v1/lexicons/", ""]
  const TASK_SEGMENTS: seq<string> := ["/v1/synthesisTasks/", ""]

  /** `/v1/lexicons/{LexiconName}` */
  const LEXICON_TEMPLATE: string := Method.Build(LEXICON_SEGMENTS, ["LexiconName"])
  /** `/v1/synthesisTasks/{TaskId}` */
  const TASK_TEMPLATE: string := Method.Build(TASK_SEGMENTS, ["TaskId"])

  /** A descriptor with a fixed endpoint; `expected_keys`, when given, is one key. */
  function Fixed(requestMethod: string, name: string, endpoint: string, types: Method.ContentTypesSpec,
                 key: Option<string>): Method.Descriptor
  {
    Method.Descriptor(requestMethod, name, Some(endpoint), None, Method.MakeContentTypes(types),
                      if key.Some? then Some(Method.MakeKeysDict(Method.KeysStr(key.value))) else None,
                      false, false)
  }

  /** A descriptor with an endpoint template. */
  function Templated(requestMethod: string, name: string, template: string, types: seq<string>,
                     key: Option<string>, noData: bool): Method.Descriptor
  {
    Method.Descriptor(requestMethod, name, None, Some(template), types,
                      if key.Some? then Some(Method.MakeKeysDict(Method.KeysStr(key.value))) else None,
                      noData, false)
  }

  /** The registry, with the content types SynthesizeSpeech is given as a parameter. */
  function Describe(op: Operation, audioTypes: seq<string>): Method.Descriptor
  {
    var json := Method.OneType(APPLICATION_JSON);
    match op
    case DeleteLexicon => Templated("DELETE", "DeleteLexicon", LEXICON_TEMPLATE, [], None, true)
    case DescribeVoices => Fixed("GET", "DescribeVoices", "/v1/voices", json, None)
    case GetLexicon =>
      Templated("GET", "GetLexicon", LEXICON_TEMPLATE, Method.MakeContentTypes(json), Some("GetLexicon"), false)
    case GetSpeechSynthesisTask =>
      Templated("GET", "GetSpeechSynthesisTask", TASK_TEMPLATE, Method.MakeContentTypes(json), Some("SynthesisTask"), false)
    case ListLexicons => Fixed("GET", "ListLexicons", "/v1/lexicons", json, None)
    case ListSpeechSynthesisTasks => Fixed("GET", "ListSpeechSynthesisTasks", "/v1/synthesisTasks", json, None)
    case PutLexicon => Templated("PUT", "PutLexicon", LEXICON_TEMPLATE, [], None, true)
    case StartSpeechSynthesisTask => Fixed("POST", "StartSpeechSynthesisTask", "/v1/synthesisTasks", json, Some("SynthesisTask"))
    case SynthesizeSpeech => Fixed("POST", "SynthesizeSpeech", "/v1/speech", Method.TypeTuple(audioTypes), None)
  }

  /** The registry as written: SynthesizeSpeech expects the other table's audio types. */
  function MethodsAsWritten(op: Operation): Method.Descriptor
  {
    Describe(op, ENUMS_AUDIO_CONTENT_TYPES)
  }

  /** The registry the rest of the model uses: SynthesizeSpeech expects the client's audio types. */
  function Methods(op: Operation): Method.Descriptor
  {
    Describe(op, AUDIO_CONTENT_TYPES)
  }

  predicate IsLexiconOperation(op: Operation)
  {
    op == DeleteLexicon || op == GetLexicon || op == PutLexicon
  }

  /** Only DeleteLexicon and PutLexicon return no data, and no operation allows query parameters beside a template. */
  lemma MethodsFlags(op: Operation)
    ensures Methods(op).noDataOnSuccess <==> op == DeleteLexicon || op == PutLexicon
    ensures !Methods(op).urlParamsAllowed
  {
  }

  /**
    The three lexicon operations share the `{LexiconName}` template and
    GetSpeechSynthesisTask has the `{TaskId}` template.
   */
  lemma MethodsTemplates(op: Operation)
    ensures IsLexiconOperation(op) ==> Methods(op).endpointTemplate == Some(LEXICON_TEMPLATE)
    ensures op == GetSpeechSynthesisTask ==> Methods(op).endpointTemplate == Some(TASK_TEMPLATE)
  {
  }

  /** Each template has exactly one placeholder. */
  lemma TemplatePlaceholders()
    ensures Method.Placeholders(LEXICON_TEMPLATE) == ["LexiconName"]
    ensures Method.Placeholders(TASK_TEMPLATE) == ["TaskId"]
  {
    TemplatesWellFormed();
    Method.PlaceholdersOfBuild(LEXICON_SEGMENTS, ["LexiconName"]);
    Method.PlaceholdersOfBuild(TASK_SEGMENTS, ["TaskId"]);
  }

  lemma TemplatesWellFormed()
    ensures Method.WellFormed(LEXICON_SEGMENTS, ["LexiconName"])
    ensures Method.WellFormed(TASK_SEGMENTS, ["TaskId"])
  {
    LexiconTemplateWellFormed("/v1/lexicons/", "LexiconName");
    TaskTemplateWellFormed("/v1/synthesisTasks/", "TaskId");
  }

  lemma LexiconTemplateWellFormed(prefix: string, name: string)
    requires prefix == "/v1/lexicons/" && name == "LexiconName"
    ensures Method.WellFormed([prefix, ""], [name])
  {
    Method.LettersFieldName(name);
    Method.OneFieldWellFormed(prefix, name);
  }

  lemma TaskTemplateWellFormed(prefix: string, name: string)
    requires prefix == "/v1/synthesisTasks/" && name == "TaskId"
    ensures Method.WellFormed([prefix, ""], [name])
  {
    Method.LettersFieldName(name);
    Method.OneFieldWellFormed(prefix, name);
  }

  /** The lexicon operations need the path parameter `LexiconName`, GetSpeechSynthesisTask needs `TaskId`. */
  lemma MethodsPathParams(op: Operation)
    ensures IsLexiconOperation(op) ==> Method.NeededEndpointParams(Methods(op)) == ["LexiconName"]
    ensures op == GetSpeechSynthesisTask ==> Method.NeededEndpointParams(Methods(op)) == ["TaskId"]
  {
    MethodsTemplates(op);
    TemplatePlaceholders();
  }

  /** Every operation without a template has a fixed endpoint and needs no path parameter. */
  lemma MethodsEndpoints(op: Operation)
    ensures Method.Present(Methods(op).endpoint) <==> !IsLexiconOperation(op) && op != GetSpeechSynthesisTask
    ensures Method.Present(Methods(op).endpoint) ==> Method.NeededEndpointParams(Methods(op)) == []
  {
    if IsLexiconOperation(op) || op == GetSpeechSynthesisTask {
      assert Methods(op).endpoint == None;
    } else {
      assert Methods(op).endpointTemplate == None;
    }
  }

  /** The registry as written differs from the corrected one only in SynthesizeSpeech. */
  lemma AsWrittenDiffersOnlyInSpeech(op: Operation)
    ensures op != SynthesizeSpeech ==> MethodsAsWritten(op) == Methods(op)
  {
  }

  /**
    The registry as written rejects a successful speech-mark response: its
    content type `audio/json` is not among the expected types, so the
    request fails with a response-type error and the speech-mark branch of
    `synthesize_speech` is never reached.
   */
  lemma SpeechMarksRejectedAsWritten(r: Api.Response, convertToSnake: bool)
    requires r.contentType == AUDIO_JSON && Api.Success(r.status)
    ensures Api.GetContent(r, MethodsAsWritten(SynthesizeSpeech), convertToSnake) == Err(Api.ResponseType(AUDIO_JSON))
  {
  }

  /** No response the registry as written accepts for SynthesizeSpeech has the speech-mark content type. */
  lemma AcceptedIsNotSpeechMarksAsWritten(r: Api.Response, convertToSnake: bool)
    requires Api.GetContent(r, MethodsAsWritten(SynthesizeSpeech), convertToSnake).Ok?
    ensures r.contentType != AUDIO_JSON
  {
  }

  /**
    The registry as written accepts a successful response typed with the
    other table's speech-mark type, `application/x-json-stream`, which the
    corrected registry rejects.
   */
  lemma StreamAcceptedAsWritten(r: Api.Response, convertToSnake: bool)
    requires r.contentType == ENUMS_AUDIO_JSON && Api.Success(r.status)
    ensures Api.GetContent(r, MethodsAsWritten(SynthesizeSpeech), convertToSnake) == Ok(Api.BytesContent(r.body))
    ensures Api.GetContent(r, Methods(SynthesizeSpeech), convertToSnake) == Err(Api.ResponseType(ENUMS_AUDIO_JSON))
  {
  }

  /** With the client's audio types, a successful speech-mark response yields its raw bytes. */
  lemma SpeechMarksAccepted(r: Api.Response, convertToSnake: bool)
    requires r.contentType == AUDIO_JSON && Api.Success(r.status)
    ensures Api.GetContent(r, Methods(SynthesizeSpeech), convertToSnake) == Ok(Api.BytesContent(r.body))
  {
  }

  /**
    Every response SynthesizeSpeech accepts has an audio content type and
    comes back as raw bytes, never as parsed JSON.
   */
  lemma SynthesizeSpeechContent(r: Api.Response, convertToSnake: bool)
    requires Api.GetContent(r, Methods(SynthesizeSpeech), convertToSnake).Ok?
    ensures r.contentType in AUDIO_CONTENT_TYPES
    ensures Api.GetContent(r, Methods(SynthesizeSpeech), convertToSnake) == Ok(Api.BytesContent(r.body))
  {
  }

  // ---------------------------------------------------------------------------
  // The instance defaults (Polly.__init__)
  // ---------------------------------------------------------------------------

  /** The named default parameters of `Polly.__init__`; `Null` is an omitted one. */
  datatype Settings = Settings(
    voiceId: Value,
    outputFormat: Value,
    sampleRate: Value,
    speechMarkType: Value,
    textType: Value,
    languageCode: Value,
    lexiconNames: Value,
    speechMarkTypes: Value,
    outputS3KeyPrefix: Value,
    outputS3BucketName: Value,
    snsTopicArn: Value,
    includeAdditionalLanguageCodes: Value)

  /** The constructor's defaults: nothing given, and `include_additional_language_codes=False`. */
  const DEFAULT_SETTINGS: Settings :=
    Settings(Null, Null, Null, Null, Null, Null, Null, Null, Null, Null, Null, Bool(false))

  /** `dict(voice_id=..., ..., include_additional_language_codes=...)`, in that order. */
  function NamedDefaults(s: Settings): (r: Dict<Value>)
    ensures |r| == 12
  {
    [("voice_id", s.voiceId),
     ("output_format", s.outputFormat),
     ("sample_rate", s.sampleRate),
     ("speech_mark_type", s.speechMarkType),
     ("text_type", s.textType),
     ("language_code", s.languageCode),
     ("lexicon_names", s.lexiconNames),
     ("speech_mark_types", s.speechMarkTypes),
     ("output_s3_key_prefix", s.outputS3KeyPrefix),
     ("output_s3_bucket_name", s.outputS3BucketName),
     ("sns_topic_arn", s.snsTopicArn),
     ("include_additional_language_codes", s.includeAdditionalLanguageCodes)]
  }

  /** `{key: value for key, value in d.items() if value is not None}` */
  function WithoutNone(d: Dict<Value>): (r: Dict<Value>)
    ensures forall i :: 0 <= i < |r| ==> r[i].1 != Null
    ensures |r| <= |d|
  {
    if d == [] then [] else (if d[0].1 == Null then [] else [d[0]]) + WithoutNone(d[1..])
  }

  /** The named defaults, overridden by the extra keyword defaults, without the None values. */
  function DefaultsMap(s: Settings, extra: Dict<Value>): Dict<Value>
  {
    WithoutNone(PutAll(NamedDefaults(s), extra))
  }

  /** A lookup that reads a stored None as a missing entry. */
  function Present(o: Option<Value>): Option<Value>
  {
    if o == Some(Null) then None else o
  }

  lemma {:induction false} GetPutAll<V>(acc: Dict<V>, pairs: Dict<V>, k: string)
    requires DistinctKeys(pairs)
    ensures Get(PutAll(acc, pairs), k) == if k in KeysOf(pairs) then Get(pairs, k) else Get(acc, k)
    decreases pairs
  {
    if pairs != [] {
      var acc' := Put(acc, pairs[0].0, pairs[0].1);
      assert KeysOf(pairs) == [pairs[0].0] + KeysOf(pairs[1..]);
      assert DistinctKeys(pairs[1..]);
      GetPutAll(acc', pairs[1..], k);
      GetPut(acc, pairs[0].0, pairs[0].1, k);
      if k in KeysOf(pairs[1..]) {
        var j :| 0 <= j < |pairs[1..]| && KeysOf(pairs[1..])[j] == k;
        assert pairs[j + 1].0 == k && pairs[0].0 != k;
      }
    }
  }

  lemma {:induction false} GetWithoutNone(d: Dict<Value>, k: string)
    requires DistinctKeys(d)
    ensures Get(WithoutNone(d), k) == Present(Get(d, k))
  {
    if d != [] {
      var rest := WithoutNone(d[1..]);
      assert DistinctKeys(d[1..]);
      GetWithoutNone(d[1..], k);
      if d[0].0 == k {
        assert Get(d[1..], k).None? by {
          forall j | 0 <= j < |d[1..]| ensures KeysOf(d[1..])[j] != k {
            assert d[1..][j] == d[j + 1];
          }
        }
      }
      if d[0].1 == Null {
        assert WithoutNone(d) == rest;
      } else {
        assert WithoutNone(d) == [d[0]] + rest;
        assert ([d[0]] + rest)[1..] == rest;
      }
    }
  }

  lemma NamedDefaultsDistinct(s: Settings)
    ensures DistinctKeys(NamedDefaults(s))
  {
  }

  /**
    The defaults map holds, for each name, the extra keyword default when
    one is given and otherwise the named default, and drops the name when
    that value is None; no None value is ever stored.
   */
  lemma DefaultsMapGet(s: Settings, extra: Dict<Value>, k: string)
    requires DistinctKeys(extra)
    ensures Get(DefaultsMap(s, extra), k) ==
              Present(if k in KeysOf(extra) then Get(extra, k) else Get(NamedDefaults(s), k))
    ensures forall i :: 0 <= i < |DefaultsMap(s, extra)| ==> DefaultsMap(s, extra)[i].1 != Null
  {
    NamedDefaultsDistinct(s);
    PutAllDistinct(NamedDefaults(s), extra);
    GetWithoutNone(PutAll(NamedDefaults(s), extra), k);
    GetPutAll(NamedDefaults(s), extra, k);
  }

  /** `include_additional_language_codes=False` is not None, so it stays unless overridden. */
  lemma IncludeCodesKept(extra: Dict<Value>)
    requires DistinctKeys(extra)
    requires "include_additional_language_codes" !in KeysOf(extra)
    ensures Get(DefaultsMap(DEFAULT_SETTINGS, extra), "include_additional_language_codes") == Some(Bool(false))
  {
    DefaultsMapGet(DEFAULT_SETTINGS, extra, "include_additional_language_codes");
    NamedDefaultsDistinct(DEFAULT_SETTINGS);
    GetAt(NamedDefaults(DEFAULT_SETTINGS), 11);
  }

  lemma {:induction false} WithoutNoneAppend(a: Dict<Value>, b: Dict<Value>)
    ensures WithoutNone(a + b) == WithoutNone(a) + WithoutNone(b)
  {
    if a == [] {
      assert a + b == b;
    } else {
      assert (a + b)[0] == a[0] && (a + b)[1..] == a[1..] + b;
      WithoutNoneAppend(a[1..], b);
    }
  }

  lemma {:induction false} WithoutNoneAllNull(d: Dict<Value>)
    requires forall i :: 0 <= i < |d| ==> d[i].1 == Null
    ensures WithoutNone(d) == []
  {
    if d != [] {
      WithoutNoneAllNull(d[1..]);
    }
  }

  /**
    With no keyword defaults and only `include_additional_language_codes`
    set (as the constructor's own defaults do), the map holds that one entry.
   */
  lemma DefaultsOfNothing(s: Settings)
    requires s.voiceId == s.outputFormat == s.sampleRate == s.speechMarkType == s.textType == Null
    requires s.languageCode == s.lexiconNames == s.speechMarkTypes == Null
    requires s.outputS3KeyPrefix == s.outputS3BucketName == s.snsTopicArn == Null
    requires s.includeAdditionalLanguageCodes != Null
    ensures DefaultsMap(s, []) == [("include_additional_language_codes", s.includeAdditionalLanguageCodes)]
  {
    var named := NamedDefaults(s);
    var head := named[..11];
    assert PutAll(named, []) == named;
    assert head + [named[11]] == named;
    WithoutNoneAppend(head, [named[11]]);
    WithoutNoneAllNull(head);
  }

  // ---------------------------------------------------------------------------
  // The request each operation sends
  // ---------------------------------------------------------------------------

  /** Each operation's arguments as the caller passes them; `Null` is an omitted one. */
  datatype Args =
    | DeleteLexiconArgs(lexiconName: string)
    | DescribeVoicesArgs(includeAdditionalLanguageCodes: Value, languageCode: Value, nextToken: Value)
    | GetLexiconArgs(lexiconName: string)
    | GetSpeechSynthesisTaskArgs(taskId: string)
    | ListLexiconsArgs(nextToken: Value)
    | ListSpeechSynthesisTasksArgs(maxResults: Value, nextToken: Value, status: Value)
    | PutLexiconArgs(lexiconName: string, content: string)
    | StartSpeechSynthesisTaskArgs(text: string, outputS3KeyPrefix: Value, outputS3BucketName: Value,
                                   voiceId: Value, outputFormat: Value, sampleRate: Value,
                                   speechMarkTypes: Value, textType: Value, languageCode: Value,
                                   lexiconNames: Value)
    | SynthesizeSpeechArgs(text: string, voiceId: Value, outputFormat: Value, sampleRate: Value,
                           speechMarkTypes: Value, textType: Value, languageCode: Value,
                           lexiconNames: Value, autoConvert: Value, converterParams: Dict<Value>)

  function OperationOf(a: Args): Operation
  {
    match a
    case DeleteLexiconArgs(_) => DeleteLexicon
    case DescribeVoicesArgs(_, _, _) => DescribeVoices
    case GetLexiconArgs(_) => GetLexicon
    case GetSpeechSynthesisTaskArgs(_) => GetSpeechSynthesisTask
    case ListLexiconsArgs(_) => ListLexicons
    case ListSpeechSynthesisTasksArgs(_, _, _) => ListSpeechSynthesisTasks
    case PutLexiconArgs(_, _) => PutLexicon
    case StartSpeechSynthesisTaskArgs(_, _, _, _, _, _, _, _, _, _) => StartSpeechSynthesisTask
    case SynthesizeSpeechArgs(_, _, _, _, _, _, _, _, _, _) => SynthesizeSpeech
  }

  /** `self`, which `**locals()` brings along and `generate_params` drops. */
  const SELF: (string, Value) := ("self", Other("Polly"))

  /** What `request` is given: the payload (None: no body) and the parameters. */
  datatype Call = Call(payload: Option<Value>, params: Dict<Value>)

  /** The names `synthesize_speech` keeps out of its payload, with the default ones added. */
  const SYNTHESIZE_EXCLUDE: set<string> := {"auto_convert", "converter_params"} + Payload.DEFAULT_EXCLUDE

  /** `locals()` of `describe_voices`. */
  function DescribeVoicesLocals(i: Value, l: Value, t: Value): Dict<Value>
  {
    [SELF, ("include_additional_language_codes", i), ("language_code", l), ("next_token", t)]
  }

  /** `locals()` of `list_speech_synthesis_tasks`. */
  function ListTasksLocals(m: Value, t: Value, st: Value): Dict<Value>
  {
    [SELF, ("max_results", m), ("next_token", t), ("status", st)]
  }

  /** `locals()` of `start_speech_synthesis_task`. */
  function StartLocals(a: Args): Dict<Value>
    requires a.StartSpeechSynthesisTaskArgs?
  {
    [SELF, ("text", Str(a.text)), ("output_s3_key_prefix", a.outputS3KeyPrefix),
     ("output_s3_bucket_name", a.outputS3BucketName), ("voice_id", a.voiceId),
     ("output_format", a.outputFormat), ("sample_rate", a.sampleRate),
     ("speech_mark_types", a.speechMarkTypes), ("text_type", a.textType),
     ("language_code", a.languageCode), ("lexicon_names", a.lexiconNames)]
  }

  /** `locals()` of `synthesize_speech`, the keyword arguments for the converter last. */
  function SynthesizeLocals(a: Args): Dict<Value>
    requires a.SynthesizeSpeechArgs?
  {
    [SELF, ("text", Str(a.text)), ("voice_id", a.voiceId), ("output_format", a.outputFormat),
     ("sample_rate", a.sampleRate), ("speech_mark_types", a.speechMarkTypes), ("text_type", a.textType),
     ("language_code", a.languageCode), ("lexicon_names", a.lexiconNames),
     ("auto_convert", a.autoConvert), ("converter_params", Dict(a.converterParams))]
  }

  /** The snake-keyed payload of `synthesize_speech`, before it is camel-cased for the wire. */
  function SynthesizePayload(defaults: Dict<Value>, a: Args): Dict<Value>
    requires a.SynthesizeSpeechArgs?
  {
    Payload.Generate(defaults, SYNTHESIZE_EXCLUDE, false, SynthesizeLocals(a))
  }

  /** `generate_params` with no defaults, the default exclusions and camel-cased keys. */
  function Plain(kwargs: Dict<Value>): Dict<Value>
  {
    Payload.Generate([], Payload.DEFAULT_EXCLUDE, true, kwargs)
  }

  // One function per operation: what each method of the client hands to `request`.

  function DeleteLexiconCall(name: string): Call
  {
    Call(None, Plain([("lexicon_name", Str(name))]))
  }

  function DescribeVoicesCall(defaults: Dict<Value>, includeCodes: Value, languageCode: Value, nextToken: Value): Call
  {
    Call(None, Payload.Generate(defaults, Payload.DEFAULT_EXCLUDE, true,
                                DescribeVoicesLocals(includeCodes, languageCode, nextToken)))
  }

  function GetLexiconCall(name: string): Call
  {
    Call(None, Plain([("lexicon_name", Str(name))]))
  }

  function GetTaskCall(taskId: string): Call
  {
    Call(None, Plain([("task_id", Str(taskId))]))
  }

  function ListLexiconsCall(nextToken: Value): Call
  {
    Call(None, Plain([("next_token", nextToken)]))
  }

  function ListTasksCall(maxResults: Value, nextToken: Value, status: Value): Call
  {
    Call(None, Plain(ListTasksLocals(maxResults, nextToken, status)))
  }

  function PutLexiconCall(name: string, content: string): Call
  {
    Call(Some(Dict(Plain([("content", Str(content))]))), Plain([("lexicon_name", Str(name))]))
  }

  function StartTaskCall(defaults: Dict<Value>, a: Args): Call
    requires a.StartSpeechSynthesisTaskArgs?
  {
    Call(Some(Dict(Payload.Generate(defaults, Payload.DEFAULT_EXCLUDE, true, StartLocals(a)))), [])
  }

  /** The body is `case.to_camel` of the snake-keyed payload. */
  function SynthesizeCall(defaults: Dict<Value>, a: Args): Call
    requires a.SynthesizeSpeechArgs?
  {
    Call(Some(Case.Nested(Dict(SynthesizePayload(defaults, a)), Case.CamelCase)), [])
  }

  /** The payload and parameters each operation hands to `request`. */
  function Route(defaults: Dict<Value>, a: Args): Call
  {
    match a
    case DeleteLexiconArgs(n) => DeleteLexiconCall(n)
    case DescribeVoicesArgs(i, l, t) => DescribeVoicesCall(defaults, i, l, t)
    case GetLexiconArgs(n) => GetLexiconCall(n)
    case GetSpeechSynthesisTaskArgs(id) => GetTaskCall(id)
    case ListLexiconsArgs(t) => ListLexiconsCall(t)
    case ListSpeechSynthesisTasksArgs(m, t, st) => ListTasksCall(m, t, st)
    case PutLexiconArgs(n, c) => PutLexiconCall(n, c)
    case StartSpeechSynthesisTaskArgs(_, _, _, _, _, _, _, _, _, _) => StartTaskCall(defaults, a)
    case SynthesizeSpeechArgs(_, _, _, _, _, _, _, _, _, _) => SynthesizeCall(defaults, a)
  }

  /**
    Whether the `generate_params` call of an operation raises its
    `TypeError`: only the operations that pass arbitrary values can; a string
    argument is never processed.
   */
  predicate RouteRaises(a: Args)
  {
    match a
    case DescribeVoicesArgs(i, l, t) => Payload.Raises(Payload.DEFAULT_EXCLUDE, DescribeVoicesLocals(i, l, t))
    case ListLexiconsArgs(t) => Payload.Raises(Payload.DEFAULT_EXCLUDE, [("next_token", t)])
    case ListSpeechSynthesisTasksArgs(m, t, st) => Payload.Raises(Payload.DEFAULT_EXCLUDE, ListTasksLocals(m, t, st))
    case StartSpeechSynthesisTaskArgs(_, _, _, _, _, _, _, _, _, _) => Payload.Raises(Payload.DEFAULT_EXCLUDE, StartLocals(a))
    case SynthesizeSpeechArgs(_, _, _, _, _, _, _, _, _, _) => Payload.Raises(SYNTHESIZE_EXCLUDE, SynthesizeLocals(a))
    case _ => false
  }

  /** The arguments a caller passes as arbitrary values (the converter arguments aside). */
  function ValuesOf(a: Args): seq<Value>
  {
    match a
    case DescribeVoicesArgs(i, l, t) => [i, l, t]
    case ListLexiconsArgs(t) => [t]
    case ListSpeechSynthesisTasksArgs(m, t, st) => [m, t, st]
    case StartSpeechSynthesisTaskArgs(_, k, b, v, f, r, mt, tt, lc, ln) => [k, b, v, f, r, mt, tt, lc, ln]
    case SynthesizeSpeechArgs(_, v, f, r, mt, tt, lc, ln, ac, _) => [v, f, r, mt, tt, lc, ln, ac]
    case _ => []
  }

  /** Without a dict among the arguments (or in a list among them), no operation raises the `TypeError`. */
  lemma DictlessArgsNeverRaise(a: Args)
    requires forall j :: 0 <= j < |ValuesOf(a)| ==> Payload.Flat(ValuesOf(a)[j])
    ensures !RouteRaises(a)
  {
    match a
    case DescribeVoicesArgs(i, l, t) =>
      var kw := DescribeVoicesLocals(i, l, t);
      assert forall m :: 0 <= m < |kw| ==> Payload.Flat(kw[m].1) by {
        assert ValuesOf(a)[0] == i && ValuesOf(a)[1] == l && ValuesOf(a)[2] == t;
      }
      Payload.FlatNeverRaises(Payload.DEFAULT_EXCLUDE, kw, 0);
    case ListLexiconsArgs(t) =>
      assert ValuesOf(a)[0] == t;
      Payload.FlatNeverRaises(Payload.DEFAULT_EXCLUDE, [("next_token", t)], 0);
    case ListSpeechSynthesisTasksArgs(m, t, st) =>
      var kw := ListTasksLocals(m, t, st);
      assert forall j :: 0 <= j < |kw| ==> Payload.Flat(kw[j].1) by {
        assert ValuesOf(a)[0] == m && ValuesOf(a)[1] == t && ValuesOf(a)[2] == st;
      }
      Payload.FlatNeverRaises(Payload.DEFAULT_EXCLUDE, kw, 0);
    case StartSpeechSynthesisTaskArgs(_, _, _, _, _, _, _, _, _, _) =>
      var kw := StartLocals(a);
      assert forall j :: 0 <= j < |kw| ==> Payload.Flat(kw[j].1) by {
        forall j | 1 < j < |kw| ensures Payload.Flat(kw[j].1) {
          assert kw[j].1 == ValuesOf(a)[j - 2];
        }
      }
      Payload.FlatNeverRaises(Payload.DEFAULT_EXCLUDE, kw, 0);
    case SynthesizeSpeechArgs(_, _, _, _, _, _, _, _, _, _) =>
      var kw := SynthesizeLocals(a);
      assert forall j :: 0 <= j < |kw| && !Payload.Skipped(SYNTHESIZE_EXCLUDE, kw[j].0) ==> Payload.Flat(kw[j].1) by {
        forall j | 1 < j < |kw| - 1 ensures Payload.Flat(kw[j].1) {
          assert kw[j].1 == ValuesOf(a)[j - 2];
        }
        assert kw[|kw| - 1].0 in SYNTHESIZE_EXCLUDE;
      }
      Payload.FlatNeverRaises(SYNTHESIZE_EXCLUDE, kw, 0);
    case _ =>
  }

  /** The operations that consult the instance defaults. */
  predicate MergesDefaults(a: Args)
  {
    a.DescribeVoicesArgs? || a.StartSpeechSynthesisTaskArgs? || a.SynthesizeSpeechArgs?
  }

  /** Only describe_voices, start_speech_synthesis_task and synthesize_speech depend on the instance defaults. */
  lemma RouteIgnoresDefaults(d1: Dict<Value>, d2: Dict<Value>, a: Args)
    requires !MergesDefaults(a)
    ensures Route(d1, a) == Route(d2, a)
  {
  }

  /** A snake-case name written as its parts is camel-cased to its capitalised parts glued together. */
  lemma CamelOf(s: string, parts: seq<string>, caps: seq<string>)
    requires parts != [] && |caps| == |parts| && s == Join(parts, "_")
    requires forall i :: 0 <= i < |parts| ==> '_' !in parts[i] && Case.Capitalize(parts[i]) == caps[i]
    ensures Case.StringToCamel(s) == Concat(caps)
  {
    SplitJoin(parts, '_');
    assert Case.CapitalizeAll(parts) == caps;
  }

  /** One set string argument comes out under its camel-cased name. */
  lemma PlainOne(k: string, v: string)
    requires !Payload.Skipped(Payload.DEFAULT_EXCLUDE, k)
    ensures Plain([(k, Str(v))]) == [(Case.StringToCamel(k), Str(v))]
  {
    var kw := [(k, Str(v))];
    assert Payload.Processed([], Payload.DEFAULT_EXCLUDE, Str(v)) == Str(v);
    assert Payload.Gen([], Payload.DEFAULT_EXCLUDE, true, kw, 0, []) ==
           Payload.Gen([], Payload.DEFAULT_EXCLUDE, true, kw, 1, [(Case.StringToCamel(k), Str(v))]);
  }

  lemma LexiconNameCamel(s: string)
    requires s == "lexicon_name"
    ensures Case.StringToCamel(s) == "LexiconName"
  {
    assert Case.Capitalize("lexicon") == "Lexicon";
    assert Case.Capitalize("name") == "Name";
    CamelOf(s, ["lexicon", "name"], ["Lexicon", "Name"]);
  }

  lemma ContentCamel(s: string)
    requires s == "content"
    ensures Case.StringToCamel(s) == "Content"
  {
    assert Case.Capitalize("content") == "Content";
    CamelOf(s, ["content"], ["Content"]);
  }

  lemma TaskIdCamel(s: string)
    requires s == "task_id"
    ensures Case.StringToCamel(s) == "TaskId"
  {
    assert Case.Capitalize("task") == "Task";
    assert Case.Capitalize("id") == "Id";
    CamelOf(s, ["task", "id"], ["Task", "Id"]);
  }

  lemma LexiconNameParam(name: string)
    ensures Plain([("lexicon_name", Str(name))]) == [("LexiconName", Str(name))]
  {
    PlainOne("lexicon_name", name);
    LexiconNameCamel("lexicon_name");
  }

  lemma ContentParam(content: string)
    ensures Plain([("content", Str(content))]) == [("Content", Str(content))]
  {
    assert "content"[..1] == "c";
    PlainOne("content", content);
    ContentCamel("content");
  }

  lemma TaskIdParam(taskId: string)
    ensures Plain([("task_id", Str(taskId))]) == [("TaskId", Str(taskId))]
  {
    PlainOne("task_id", taskId);
    TaskIdCamel("task_id");
  }

  /** DeleteLexicon sends the name as the path parameter `LexiconName`, the template's placeholder. */
  lemma DeleteLexiconRoute(name: string)
    ensures DeleteLexiconCall(name) == Call(None, [("LexiconName", Str(name))])
  {
    LexiconNameParam(name);
  }

  /** GetLexicon sends the name as the path parameter `LexiconName`. */
  lemma GetLexiconRoute(name: string)
    ensures GetLexiconCall(name) == Call(None, [("LexiconName", Str(name))])
  {
    LexiconNameParam(name);
  }

  /** PutLexicon sends the name as `LexiconName` and the content as `Content` in the body. */
  lemma PutLexiconRoute(name: string, content: string)
    ensures PutLexiconCall(name, content) == Call(Some(Dict([("Content", Str(content))])), [("LexiconName", Str(name))])
  {
    LexiconNameParam(name);
    ContentParam(content);
  }

  /** GetSpeechSynthesisTask sends the id as the path parameter `TaskId`. */
  lemma GetTaskRoute(taskId: string)
    ensures GetTaskCall(taskId) == Call(None, [("TaskId", Str(taskId))])
  {
    TaskIdParam(taskId);
  }

  /**
    An endpoint built from the lexicon template is `/v1/lexicons/<name>`
    under the base URL, the name rendered by `str()`, with no query
    string; MethodsTemplates shows the lexicon operations use that template.
   */
  lemma LexiconUrl(d: Method.Descriptor, baseUrl: string, name: string,
                   render: Value -> string, urlencode: Dict<Value> -> string)
    requires !Method.Present(d.endpoint) && d.endpointTemplate == Some(LEXICON_TEMPLATE)
    ensures Method.GetUrl(d, baseUrl, [("LexiconName", Str(name))], render, urlencode) ==
              Ok(baseUrl + "/v1/lexicons/" + render(Str(name)))
  {
    Method.GetUrlOnePlaceholder(d, baseUrl, "/v1/lexicons/", "LexiconName", Str(name), render, urlencode);
  }

  /** An endpoint built from the task template is `/v1/synthesisTasks/<id>` under the base URL. */
  lemma TaskUrl(d: Method.Descriptor, baseUrl: string, taskId: string,
                render: Value -> string, urlencode: Dict<Value> -> string)
    requires !Method.Present(d.endpoint) && d.endpointTemplate == Some(TASK_TEMPLATE)
    ensures Method.GetUrl(d, baseUrl, [("TaskId", Str(taskId))], render, urlencode) ==
              Ok(baseUrl + "/v1/synthesisTasks/" + render(Str(taskId)))
  {
    Method.GetUrlOnePlaceholder(d, baseUrl, "/v1/synthesisTasks/", "TaskId", Str(taskId), render, urlencode);
  }

  // ---------------------------------------------------------------------------
  // Defaults in the three merging operations
  // ---------------------------------------------------------------------------

  /** The payload keys `Speech` accepts from `synthesize_speech`'s payload. */
  const SPEECH_FIELDS: set<string> :=
    {"text", "voice_id", "output_format", "sample_rate", "speech_mark_types", "text_type",
     "language_code", "lexicon_names"}

  lemma SynthesizeLocalsDistinct(a: Args)
    requires a.SynthesizeSpeechArgs?
    ensures Payload.OutKeysDistinct(false, SynthesizeLocals(a))
  {
  }

  /**
    The SynthesizeSpeech payload is snake-keyed and holds speech fields only:
    `self`, `auto_convert` and `converter_params` never reach it, and the
    text always does, as it was passed.
   */
  lemma SynthesizePayloadKeys(defaults: Dict<Value>, a: Args)
    requires a.SynthesizeSpeechArgs?
    ensures forall k :: k in KeysOf(SynthesizePayload(defaults, a)) ==> k in SPEECH_FIELDS
    ensures Get(SynthesizePayload(defaults, a), "text") == Some(Str(a.text))
  {
    var kw := SynthesizeLocals(a);
    Payload.GenerateKeys(defaults, SYNTHESIZE_EXCLUDE, false, kw);
    forall m | 0 <= m < |kw| && Payload.Kept(defaults, SYNTHESIZE_EXCLUDE, kw[m])
      ensures kw[m].0 in SPEECH_FIELDS
    {
    }
    SynthesizeLocalsDistinct(a);
    assert kw[1].0 != [] && kw[1].0[0] != '_' && kw[1].0 !in SYNTHESIZE_EXCLUDE;
    Payload.GeneratePrecedence(defaults, SYNTHESIZE_EXCLUDE, false, kw, 1);
  }

  /**
    Precedence in the SynthesizeSpeech payload, argument by argument (entries
    1 to 8 of `locals()`): a passed argument wins (processed when it is a dict
    or a list), an omitted one takes the instance default or is left out.
   */
  lemma SynthesizePrecedence(defaults: Dict<Value>, a: Args, m: nat)
    requires a.SynthesizeSpeechArgs? && 1 <= m <= 8
    ensures var kw := SynthesizeLocals(a);
            Get(SynthesizePayload(defaults, a), kw[m].0) ==
              if kw[m].1 != Null then Some(Payload.Processed(defaults, SYNTHESIZE_EXCLUDE, kw[m].1))
              else Payload.DefaultFor(defaults, kw[m].0)
  {
    var kw := SynthesizeLocals(a);
    SynthesizeLocalsDistinct(a);
    assert m in {1, 2, 3, 4, 5, 6, 7, 8};
    assert kw[m].0 != [] && kw[m].0[0] != '_' && kw[m].0 !in SYNTHESIZE_EXCLUDE;
    Payload.GeneratePrecedence(defaults, SYNTHESIZE_EXCLUDE, false, kw, m);
  }


  // ---------------------------------------------------------------------------
  // The argument names are snake names, so their wire names are distinct
  // ---------------------------------------------------------------------------

  lemma NoUnderscore(p: string)
    requires Case.IsSnakePart(p)
    ensures '_' !in p
  {
    forall i | 0 <= i < |p| ensures p[i] != '_' {
      assert IsLower(p[i]) || IsDigit(p[i]);
    }
  }

  lemma SnakeNameOne(p: string)
    requires Case.IsSnakePart(p)
    ensures Case.IsSnakeName(p)
  {
    NoUnderscore(p);
    SplitNoSep(p, '_');
  }

  /** `p_rest` is a snake name when `p` is a part of two or more characters and `rest` is one. */
  lemma SnakeNameCons(s: string, p: string, rest: string)
    requires |p| < |s| && s[..|p|] == p && s[|p|] == '_' && s[|p| + 1..] == rest
    requires Case.IsSnakePart(p) && |p| >= 2 && Case.IsSnakeName(rest)
    ensures Case.IsSnakeName(s)
  {
    assert s == p + ("_" + rest);
    NoUnderscore(p);
    SplitPrefix(p, '_', rest);
    var parts := Split(s, '_');
    var tail := Split(rest, '_');
    assert parts == [p] + tail;
    forall i | 1 <= i < |parts| ensures parts[i] == tail[i - 1] { }
  }

  lemma SelfSnake(s: string)
    requires s == "self"
    ensures Case.IsSnakeName(s)
  {
    SnakeNameOne(s);
  }

  lemma CodesSnake(s: string)
    requires s == "codes"
    ensures Case.IsSnakeName(s)
  {
    SnakeNameOne(s);
  }

  lemma LanguageCodesSnake(s: string)
    requires s == "language_codes"
    ensures Case.IsSnakeName(s)
  {
    CodesSnake("codes");
    SnakeNameCons(s, "language", "codes");
  }

  lemma AdditionalLanguageCodesSnake(s: string)
    requires s == "additional_language_codes"
    ensures Case.IsSnakeName(s)
  {
    LanguageCodesSnake("language_codes");
    SnakeNameCons(s, "additional", "language_codes");
  }

  lemma IncludeAdditionalLanguageCodesSnake(s: string)
    requires s == "include_additional_language_codes"
    ensures Case.IsSnakeName(s)
  {
    AdditionalLanguageCodesSnake("additional_language_codes");
    SnakeNameCons(s, "include", "additional_language_codes");
  }

  lemma CodeSnake(s: string)
    requires s == "code"
    ensures Case.IsSnakeName(s)
  {
    SnakeNameOne(s);
  }

  lemma LanguageCodeSnake(s: string)
    requires s == "language_code"
    ensures Case.IsSnakeName(s)
  {
    CodeSnake("code");
    SnakeNameCons(s, "language", "code");
  }

  lemma TokenSnake(s: string)
    requires s == "token"
    ensures Case.IsSnakeName(s)
  {
    SnakeNameOne(s);
  }

  lemma NextTokenSnake(s: string)
    requires s == "next_token"
    ensures Case.IsSnakeName(s)
  {
    TokenSnake("token");
    SnakeNameCons(s, "next", "token");
  }

  lemma TextSnake(s: string)
    requires s == "text"
    ensures Case.IsSnakeName(s)
  {
    SnakeNameOne(s);
  }

  lemma PrefixSnake(s: string)
    requires s == "prefix"
    ensures Case.IsSnakeName(s)
  {
    SnakeNameOne(s);
  }

  lemma KeyPrefixSnake(s: string)
    requires s == "key_prefix"
    ensures Case.IsSnakeName(s)
  {
    PrefixSnake("prefix");
    SnakeNameCons(s, "key", "prefix");
  }

  lemma S3KeyPrefixSnake(s: string)
    requires s == "s3_key_prefix"
    ensures Case.IsSnakeName(s)
  {
    KeyPrefixSnake("key_prefix");
    SnakeNameCons(s, "s3", "key_prefix");
  }

  lemma OutputS3KeyPrefixSnake(s: string)
    requires s == "output_s3_key_prefix"
    ensures Case.IsSnakeName(s)
  {
    S3KeyPrefixSnake("s3_key_prefix");
    SnakeNameCons(s, "output", "s3_key_prefix");
  }

  lemma NameSnake(s: string)
    requires s == "name"
    ensures Case.IsSnakeName(s)
  {
    SnakeNameOne(s);
  }

  lemma BucketNameSnake(s: string)
    requires s == "bucket_name"
    ensures Case.IsSnakeName(s)
  {
    NameSnake("name");
    SnakeNameCons(s, "bucket", "name");
  }

  lemma S3BucketNameSnake(s: string)
    requires s == "s3_bucket_name"
    ensures Case.IsSnakeName(s)
  {
    BucketNameSnake("bucket_name");
    SnakeNameCons(s, "s3", "bucket_name");
  }

  lemma OutputS3BucketNameSnake(s: string)
    requires s == "output_s3_bucket_name"
    ensures Case.IsSnakeName(s)
  {
    S3BucketNameSnake("s3_bucket_name");
    SnakeNameCons(s, "output", "s3_bucket_name");
  }

  lemma IdSnake(s: string)
    requires s == "id"
    ensures Case.IsSnakeName(s)
  {
    SnakeNameOne(s);
  }

  lemma VoiceIdSnake(s: string)
    requires s == "voice_id"
    ensures Case.IsSnakeName(s)
  {
    IdSnake("id");
    SnakeNameCons(s, "voice", "id");
  }

  lemma FormatSnake(s: string)
    requires s == "format"
    ensures Case.IsSnakeName(s)
  {
    SnakeNameOne(s);
  }

  lemma OutputFormatSnake(s: string)
    requires s == "output_format"
    ensures Case.IsSnakeName(s)
  {
    FormatSnake("format");
    SnakeNameCons(s, "output", "format");
  }

  lemma RateSnake(s: string)
    requires s == "rate"
    ensures Case.IsSnakeName(s)
  {
    SnakeNameOne(s);
  }

  lemma SampleRateSnake(s: string)
    requires s == "sample_rate"
    ensures Case.IsSnakeName(s)
  {
    RateSnake("rate");
    SnakeNameCons(s, "sample", "rate");
  }

  lemma TypesSnake(s: string)
    requires s == "types"
    ensures Case.IsSnakeName(s)
  {
    SnakeNameOne(s);
  }

  lemma MarkTypesSnake(s: string)
    requires s == "mark_types"
    ensures Case.IsSnakeName(s)
  {
    TypesSnake("types");
    SnakeNameCons(s, "mark", "types");
  }

  lemma SpeechMarkTypesSnake(s: string)
    requires s == "speech_mark_types"
    ensures Case.IsSnakeName(s)
  {
    MarkTypesSnake("mark_types");
    SnakeNameCons(s, "speech", "mark_types");
  }

  lemma TypeSnake(s: string)
    requires s == "type"
    ensures Case.IsSnakeName(s)
  {
    SnakeNameOne(s);
  }

  lemma TextTypeSnake(s: string)
    requires s == "text_type"
    ensures Case.IsSnakeName(s)
  {
    TypeSnake("type");
    SnakeNameCons(s, "text", "type");
  }

  lemma NamesSnake(s: string)
    requires s == "names"
    ensures Case.IsSnakeName(s)
  {
    SnakeNameOne(s);
  }

  lemma LexiconNamesSnake(s: string)
    requires s == "lexicon_names"
    ensures Case.IsSnakeName(s)
  {
    NamesSnake("names");
    SnakeNameCons(s, "lexicon", "names");
  }

  /** Distinct snake names have distinct camel-cased names. */
  lemma SnakeNamesCamelDistinct(kw: Dict<Value>)
    requires forall m :: 0 <= m < |kw| ==> Case.IsSnakeName(kw[m].0)
    requires Payload.OutKeysDistinct(false, kw)
    ensures Payload.OutKeysDistinct(true, kw)
  {
    forall a, b | 0 <= a < b < |kw| ensures Case.StringToCamel(kw[a].0) != Case.StringToCamel(kw[b].0) {
      if Case.StringToCamel(kw[a].0) == Case.StringToCamel(kw[b].0) {
        Case.CamelInjective(kw[a].0, kw[b].0);
      }
    }
  }

  lemma DescribeVoicesSnakeNames(i: Value, l: Value, t: Value)
    ensures forall m :: 0 <= m < 4 ==> Case.IsSnakeName(DescribeVoicesLocals(i, l, t)[m].0)
  {
    SelfSnake("self");
    IncludeAdditionalLanguageCodesSnake("include_additional_language_codes");
    LanguageCodeSnake("language_code");
    NextTokenSnake("next_token");
  }

  lemma DescribeVoicesLocalsDistinct(i: Value, l: Value, t: Value)
    ensures Payload.OutKeysDistinct(false, DescribeVoicesLocals(i, l, t))
  {
  }

  /** The three arguments of `describe_voices` are neither excluded nor private. */
  lemma DescribeVoicesKept(i: Value, l: Value, t: Value, m: nat)
    requires 1 <= m < 4
    ensures !Payload.Skipped(Payload.DEFAULT_EXCLUDE, DescribeVoicesLocals(i, l, t)[m].0)
  {
    var kw := DescribeVoicesLocals(i, l, t);
    assert m in {1, 2, 3};
    assert kw[m].0 != [] && kw[m].0[0] != '_' && kw[m].0 !in Payload.DEFAULT_EXCLUDE;
  }

  /**
    DescribeVoices query parameters: each argument goes out under its
    camel-cased name; a passed one wins over the instance default, an omitted
    one takes the default (so `include_additional_language_codes` and
    `language_code` can come from the instance) or is left out.
   */
  lemma DescribeVoicesPrecedence(defaults: Dict<Value>, i: Value, l: Value, t: Value, m: nat)
    requires 1 <= m < 4
    ensures var kw := DescribeVoicesLocals(i, l, t);
            Get(DescribeVoicesCall(defaults, i, l, t).params, Case.StringToCamel(kw[m].0)) ==
              if kw[m].1 != Null then Some(Payload.Processed(defaults, Payload.DEFAULT_EXCLUDE, kw[m].1))
              else Payload.DefaultFor(defaults, kw[m].0)
  {
    var kw := DescribeVoicesLocals(i, l, t);
    DescribeVoicesSnakeNames(i, l, t);
    DescribeVoicesLocalsDistinct(i, l, t);
    SnakeNamesCamelDistinct(kw);
    DescribeVoicesKept(i, l, t, m);
    Payload.GeneratePrecedence(defaults, Payload.DEFAULT_EXCLUDE, true, kw, m);
  }

  lemma StartSnakeNames(a: Args)
    requires a.StartSpeechSynthesisTaskArgs?
    ensures forall m :: 0 <= m < 11 ==> Case.IsSnakeName(StartLocals(a)[m].0)
  {
    SelfSnake("self");
    TextSnake("text");
    OutputS3KeyPrefixSnake("output_s3_key_prefix");
    OutputS3BucketNameSnake("output_s3_bucket_name");
    VoiceIdSnake("voice_id");
    OutputFormatSnake("output_format");
    SampleRateSnake("sample_rate");
    SpeechMarkTypesSnake("speech_mark_types");
    TextTypeSnake("text_type");
    LanguageCodeSnake("language_code");
    LexiconNamesSnake("lexicon_names");
  }

  lemma StartLocalsDistinct(a: Args)
    requires a.StartSpeechSynthesisTaskArgs?
    ensures Payload.OutKeysDistinct(false, StartLocals(a))
  {
  }

  /** The ten arguments of `start_speech_synthesis_task` are neither excluded nor private. */
  lemma StartKept(a: Args, m: nat)
    requires a.StartSpeechSynthesisTaskArgs? && 1 <= m < 11
    ensures !Payload.Skipped(Payload.DEFAULT_EXCLUDE, StartLocals(a)[m].0)
  {
    var kw := StartLocals(a);
    assert m in {1, 2, 3, 4, 5, 6, 7, 8, 9, 10};
    assert kw[m].0 != [] && kw[m].0[0] != '_' && kw[m].0 !in Payload.DEFAULT_EXCLUDE;
  }

  /**
    StartSpeechSynthesisTask body: each argument goes out under its
    camel-cased name; a passed one wins over the instance default, an omitted
    one takes the default or is left out (so the text, entry 1, is always
    sent as passed).
   */
  lemma StartTaskPrecedence(defaults: Dict<Value>, a: Args, m: nat)
    requires a.StartSpeechSynthesisTaskArgs? && 1 <= m < 11
    ensures StartTaskCall(defaults, a).payload.Some? && StartTaskCall(defaults, a).payload.value.Dict?
    ensures var kw := StartLocals(a);
            Get(StartTaskCall(defaults, a).payload.value.entries, Case.StringToCamel(kw[m].0)) ==
              if kw[m].1 != Null then Some(Payload.Processed(defaults, Payload.DEFAULT_EXCLUDE, kw[m].1))
              else Payload.DefaultFor(defaults, kw[m].0)
  {
    var kw := StartLocals(a);
    StartSnakeNames(a);
    StartLocalsDistinct(a);
    SnakeNamesCamelDistinct(kw);
    StartKept(a, m);
    Payload.GeneratePrecedence(defaults, Payload.DEFAULT_EXCLUDE, true, kw, m);
  }

  // ---------------------------------------------------------------------------
  // SynthesizeSpeech: the speech-marks stream
  // ---------------------------------------------------------------------------

  /** `content.split(b'\n')[:-1]`: the lines of the stream, the text after the last newline dropped. */
  function MarkLines(content: seq<byte>): (r: seq<seq<byte>>)
    ensures forall i :: 0 <= i < |r| ==> NEWLINE !in r[i]
  {
    var parts := Split(content, NEWLINE);
    parts[..|parts| - 1]
  }

  lemma {:induction false} SplitCount<T>(s: seq<T>, c: T)
    ensures |Split(s, c)| == multiset(s)[c] + 1
  {
    if s != [] {
      SplitCount(s[1..], c);
      assert s == [s[0]] + s[1..];
    }
  }

  /** One line per newline in the stream: an unterminated last record is not returned. */
  lemma MarkLinesCount(content: seq<byte>)
    ensures |MarkLines(content)| == multiset(content)[NEWLINE]
  {
    SplitCount(content, NEWLINE);
  }

  /**
    Records written one per line come back as they were, in order, whatever
    unterminated text follows the last newline.
   */
  lemma MarkLinesRoundTrip(lines: seq<seq<byte>>, tail: seq<byte>)
    requires forall i :: 0 <= i < |lines| ==> NEWLINE !in lines[i]
    requires NEWLINE !in tail
    ensures MarkLines(Join(lines + [tail], [NEWLINE])) == lines
  {
    var parts := lines + [tail];
    forall i | 0 <= i < |parts| ensures NEWLINE !in parts[i] {
      if i < |lines| { assert parts[i] == lines[i]; }
    }
    SplitJoin(parts, NEWLINE);
    assert parts[..|parts| - 1] == lines;
  }

  /** `[json.loads(line) for line in ...]`, with the JSON parser as a parameter. */
  function SpeechMarksOf(content: seq<byte>, parse: seq<byte> -> Value): seq<Value>
  {
    var lines := MarkLines(content);
    seq(|lines|, i requires 0 <= i < |lines| => parse(lines[i]))
  }

  /** Each newline-terminated record becomes one parsed mark, in order. */
  lemma SpeechMarksInOrder(lines: seq<seq<byte>>, tail: seq<byte>, parse: seq<byte> -> Value)
    requires forall i :: 0 <= i < |lines| ==> NEWLINE !in lines[i]
    requires NEWLINE !in tail
    ensures |SpeechMarksOf(Join(lines + [tail], [NEWLINE]), parse)| == |lines|
    ensures forall i :: 0 <= i < |lines| ==> SpeechMarksOf(Join(lines + [tail], [NEWLINE]), parse)[i] == parse(lines[i])
  {
    MarkLinesRoundTrip(lines, tail);
  }

  // ---------------------------------------------------------------------------
  // SynthesizeSpeech: the Speech record and the converter decision
  // ---------------------------------------------------------------------------

  datatype SynthesisError =
    | CallFailed(error: CallError)                    // raised by `generate_params` or `request`
    | MissingHeader                                   // KeyError: no request-characters header
    | InvalidField(name: string)                      // the Speech model rejects a missing or ill-typed field
    | NoConverter                                     // RuntimeError: conversion asked for, no converter
    | ConversionFailed(cause: OpusConverter.ExecError) // raised by the converter's process check

  /** A string field's value as the Speech model coerces it: a string, a number, a boolean or an object's `str()`. */
  function TextOf(v: Value): (r: Option<string>)
    ensures r.None? <==> v.Null? || v.List? || v.Dict?
    ensures v.Str? ==> r == Some(v.s)
  {
    match v
    case Str(s) => Some(s)
    case Int(i) => Some(IntToString(i))
    case Bool(b) => Some(if b then "True" else "False")
    case Other(t) => Some(t)
    case _ => None
  }

  /** A list field: a list whose every element is a string field. */
  function TextsOf(v: Value): (r: Option<seq<string>>)
    ensures r.Some? <==> v.List? && forall j :: 0 <= j < |v.items| ==> TextOf(v.items[j]).Some?
    ensures r.Some? ==> |r.value| == |v.items| && forall j :: 0 <= j < |v.items| ==> Some(r.value[j]) == TextOf(v.items[j])
  {
    if v.List? && forall j :: 0 <= j < |v.items| ==> TextOf(v.items[j]).Some? then
      Some(seq(|v.items|, j requires 0 <= j < |v.items| => TextOf(v.items[j]).value))
    else None
  }

  function Required(p: Dict<Value>, k: string): Result<string, SynthesisError>
  {
    match Get(p, k)
    case None => Err(InvalidField(k))
    case Some(v) => if TextOf(v).Some? then Ok(TextOf(v).value) else Err(InvalidField(k))
  }

  function Optional(p: Dict<Value>, k: string): Result<Option<string>, SynthesisError>
  {
    match Get(p, k)
    case None => Ok(None)
    case Some(v) => if TextOf(v).Some? then Ok(TextOf(v)) else Err(InvalidField(k))
  }

  function OptionalList(p: Dict<Value>, k: string): Result<Option<seq<string>>, SynthesisError>
  {
    match Get(p, k)
    case None => Ok(None)
    case Some(v) => if TextsOf(v).Some? then Ok(TextsOf(v)) else Err(InvalidField(k))
  }

  /** The payload fields of a `Speech`. */
  datatype SpeechFields = SpeechFields(
    text: string, voiceId: string, outputFormat: string, sampleRate: Option<string>,
    speechMarkTypes: Option<string>, textType: Option<string>, languageCode: Option<string>,
    lexiconNames: Option<seq<string>>)

  /**
    `types.Speech(**payload)`'s reading of the payload: text, voice and output
    format are required, the other five may be missing; the first field that
    is missing or of the wrong kind is reported. `speech_mark_types` is a
    single `SpeechMarkTypes` member, so a list there is refused, although the
    annotation of `synthesize_speech` asks for one; only `lexicon_names` is a
    list.
   */
  function FieldsOf(p: Dict<Value>): (r: Result<SpeechFields, SynthesisError>)
    ensures r.Ok? <==>
              Required(p, "text").Ok? && Required(p, "voice_id").Ok? && Required(p, "output_format").Ok? &&
              Optional(p, "sample_rate").Ok? && Optional(p, "speech_mark_types").Ok? &&
              Optional(p, "text_type").Ok? && Optional(p, "language_code").Ok? &&
              OptionalList(p, "lexicon_names").Ok?
    ensures r.Ok? ==> Some(r.value.voiceId) == TextOf(Get(p, "voice_id").value)
    ensures r.Ok? ==> Some(r.value.outputFormat) == TextOf(Get(p, "output_format").value)
    ensures r.Ok? ==> (r.value.textType.None? <==> "text_type" !in KeysOf(p))
    ensures r.Ok? ==> (r.value.speechMarkTypes.None? <==> "speech_mark_types" !in KeysOf(p))
    ensures Get(p, "speech_mark_types").Some? && Get(p, "speech_mark_types").value.List? ==> r.Err?
    ensures Get(p, "speech_mark_types").Some? && Get(p, "speech_mark_types").value.Str? ==>
              Optional(p, "speech_mark_types").Ok? && (r.Ok? ==> r.value.speechMarkTypes == Some(Get(p, "speech_mark_types").value.s))
    ensures Get(p, "voice_id").None? ==> r == Err(InvalidField("voice_id")) || r == Err(InvalidField("text"))
  {
    var text := Required(p, "text");
    var voiceId := Required(p, "voice_id");
    var outputFormat := Required(p, "output_format");
    var sampleRate := Optional(p, "sample_rate");
    var markTypes := Optional(p, "speech_mark_types");
    var textType := Optional(p, "text_type");
    var languageCode := Optional(p, "language_code");
    var lexiconNames := OptionalList(p, "lexicon_names");
    if text.Err? then Err(text.error)
    else if voiceId.Err? then Err(voiceId.error)
    else if outputFormat.Err? then Err(outputFormat.error)
    else if sampleRate.Err? then Err(sampleRate.error)
    else if markTypes.Err? then Err(markTypes.error)
    else if textType.Err? then Err(textType.error)
    else if languageCode.Err? then Err(languageCode.error)
    else if lexiconNames.Err? then Err(lexiconNames.error)
    else Ok(SpeechFields(text.value, voiceId.value, outputFormat.value, sampleRate.value, markTypes.value,
                         textType.value, languageCode.value, lexiconNames.value))
  }

  /** What happens to a synthesized speech. */
  datatype Finish = ConvertIt | RaiseNoConverter | ReturnIt

  /**
    The converter decision as written; `converter` is None without a
    converter, else the converter's own `auto_convert`. The `elif` that raises
    "Cannot find converter" is also reached when there is a converter.
   */
  function DecideAsWritten(converter: Option<bool>, autoConvert: Value, converterParams: Dict<Value>): Finish
  {
    if converter.Some? && (Truthy(autoConvert) || (converter.value && autoConvert != Bool(false))) then ConvertIt
    else if Truthy(autoConvert) || converterParams != [] then RaiseNoConverter
    else ReturnIt
  }

  /**
    With a converter whose `auto_convert` is off, passing converter arguments
    without `auto_convert` raises the missing-converter error.
   */
  lemma RaisesWithConverterAsWritten()
    ensures DecideAsWritten(Some(false), Null, [("out_bitrate", Int(64))]) == RaiseNoConverter
  {
  }

  /**
    The converter decision, raising only when there is no converter. Without
    a converter, asking for conversion or passing converter arguments raises;
    a converter whose `auto_convert` is set converts unless the call passes
    exactly `False` (a falsy `0` still converts); a call passing `False`
    keeps the speech as it is.
   */
  function Decide(converter: Option<bool>, autoConvert: Value, converterParams: Dict<Value>): (r: Finish)
    ensures r == RaiseNoConverter <==> converter.None? && (Truthy(autoConvert) || converterParams != [])
    ensures r == ConvertIt <==> converter.Some? && (Truthy(autoConvert) || (converter.value && autoConvert != Bool(false)))
    ensures converter == Some(true) && autoConvert == Int(0) ==> r == ConvertIt
    ensures converter.Some? && autoConvert == Bool(false) ==> r == ReturnIt
  {
    if converter.Some? && (Truthy(autoConvert) || (converter.value && autoConvert != Bool(false))) then ConvertIt
    else if converter.None? && (Truthy(autoConvert) || converterParams != []) then RaiseNoConverter
    else ReturnIt
  }

  /** The correction changes only the case where the code as written raises although a converter exists. */
  lemma DecideAgrees(converter: Option<bool>, autoConvert: Value, converterParams: Dict<Value>)
    ensures converter.None? ==> Decide(converter, autoConvert, converterParams) == DecideAsWritten(converter, autoConvert, converterParams)
    ensures DecideAsWritten(converter, autoConvert, converterParams) != RaiseNoConverter ==>
              Decide(converter, autoConvert, converterParams) == DecideAsWritten(converter, autoConvert, converterParams)
    ensures converter.Some? && DecideAsWritten(converter, autoConvert, converterParams) == RaiseNoConverter ==>
              Decide(converter, autoConvert, converterParams) == ReturnIt
  {
  }

  /** The keyword arguments `convert` binds by name; the rest are ffmpeg filters. */
  const CONVERT_ARGS: set<string> := {"out_bitrate", "sample_rate"}

  /** `out_bitrate` or `sample_rate` among the converter arguments, when it is an integer. */
  function IntArg(params: Dict<Value>, k: string): (r: Option<int>)
    ensures r.Some? ==> Get(params, k) == Some(Int(r.value))
  {
    var v := Get(params, k);
    if v.Some? && v.value.Int? then Some(v.value.i) else None
  }

  /** `**filters`: the other converter arguments, in order, their values rendered by `str()`. */
  function FilterArgs(params: Dict<Value>, render: Value -> string): (r: Dict<string>)
    ensures forall k :: k in KeysOf(r) <==> k in KeysOf(params) && k !in CONVERT_ARGS
  {
    if params == [] then []
    else
      var rest := FilterArgs(params[1..], render);
      assert KeysOf(params) == [params[0].0] + KeysOf(params[1..]);
      if params[0].0 in CONVERT_ARGS then rest
      else
        assert KeysOf([(params[0].0, render(params[0].1))] + rest) == [params[0].0] + KeysOf(rest);
        [(params[0].0, render(params[0].1))] + rest
  }

  /** How a call fails before a response is read: `generate_params`'s `TypeError`, or an error `request` raises. */
  datatype CallError = ParamsFailed(params: Payload.ParamsError) | RequestFailed(request: Api.RequestError)

  /** What `synthesize_speech` returns. */
  datatype Synthesized = Marks(marks: seq<Value>) | Audio(speech: Speech.Speech)

  /** What `synthesize_speech` has gathered once the response is read, before anything is allocated. */
  datatype Plan =
    | MarksPlan(marks: seq<Value>)
    | SpeechPlan(contentType: string, characters: int, audio: seq<byte>, fields: SpeechFields)

  // ---------------------------------------------------------------------------
  // The client
  // ---------------------------------------------------------------------------

  /** `Polly`: the API client, the instance defaults and the optional converter. */
  class Polly {
    const client: Api.Client
    const defaults: Dict<Value>
    const converter: OpusConverter.OpusConverter?

    /** `__init__`: the client for the region, the defaults map, the converter as given. */
    constructor (region: string, settings: Settings, extra: Dict<Value>, converter: OpusConverter.OpusConverter?)
      ensures client.region == region && client.baseUrl == Api.BaseUrl(Api.SERVICE_NAME, region)
      ensures defaults == DefaultsMap(settings, extra)
      ensures this.converter == converter
    {
      client := new Api.Client(region);
      defaults := DefaultsMap(settings, extra);
      this.converter := converter;
    }

    /** The converter as the decision sees it. */
    function ConverterSetting(): Option<bool>
    {
      if converter == null then None else Some(converter.autoConvert)
    }

    /**
      One call up to the response: `generate_params` (which may raise), then
      `request` with the route under the operation's descriptor.
     */
    function Send(env: Api.Env, a: Args): (r: Result<(Api.Content, Api.Response), CallError>)
      ensures r == Err(ParamsFailed(Payload.MultipleValues)) <==> RouteRaises(a)
    {
      if RouteRaises(a) then Err(ParamsFailed(Payload.MultipleValues))
      else
        var c := Route(defaults, a);
        match client.Request(env, Methods(OperationOf(a)), c.payload, c.params)
        case Err(e) => Err(RequestFailed(e))
        case Ok(sent) => Ok(sent)
    }

    /** A SynthesizeSpeech response that was read comes as raw bytes. */
    lemma SynthesizeResponseBytes(env: Api.Env, a: Args)
      requires a.SynthesizeSpeechArgs? && Send(env, a).Ok?
      ensures Send(env, a).value.0 == Api.BytesContent(Send(env, a).value.1.body)
    {
      var c := Route(defaults, a);
      client.RequestSequence(env, Methods(Operation.SynthesizeSpeech), c.payload, c.params, env.send);
      SynthesizeSpeechContent(Send(env, a).value.1, client.convertToSnake);
    }

    /**
      The steps after `request` has read a response: a speech-marks response
      is split into marks; otherwise the request-characters header is read
      (a KeyError without it) and converted to an int (refused when it is not
      a number, the first field the model checks), and the payload becomes
      the speech's fields. The audio is the response body, which is the
      content `request` returns (SynthesizeResponseBytes).
     */
    function PlanOf(response: Api.Response, payload: Dict<Value>, parse: seq<byte> -> Value): Result<Plan, SynthesisError>
    {
      if response.contentType == AUDIO_JSON then Ok(MarksPlan(SpeechMarksOf(response.body, parse)))
      else
        match Api.HeaderGet(response.headers, CHARACTERS_HEADER)
        case None => Err(MissingHeader)
        case Some(chars) =>
          match ParseInt(chars)
          case None => Err(InvalidField(REQUEST_CHARACTERS))
          case Some(n) =>
            match FieldsOf(payload)
            case Err(e) => Err(e)
            case Ok(f) => Ok(SpeechPlan(response.contentType, n, response.body, f))
    }

    /**
      For a response that is not speech marks: no header of that name in any
      case is the KeyError; a header holding `str(n)` gives `n` characters;
      a header that holds no digit is refused.
     */
    lemma PlanOfHeader(response: Api.Response, payload: Dict<Value>, parse: seq<byte> -> Value, n: int)
      requires response.contentType != AUDIO_JSON
      ensures (forall i :: 0 <= i < |response.headers| ==> LowerStr(response.headers[i].0) != LowerStr(CHARACTERS_HEADER)) ==>
                PlanOf(response, payload, parse) == Err(MissingHeader)
      ensures Api.HeaderGet(response.headers, CHARACTERS_HEADER) == Some(IntToString(n)) && FieldsOf(payload).Ok? ==>
                PlanOf(response, payload, parse) == Ok(SpeechPlan(response.contentType, n, response.body, FieldsOf(payload).value))
      ensures var h := Api.HeaderGet(response.headers, CHARACTERS_HEADER);
              h.Some? && (forall j :: 0 <= j < |h.value| ==> !IsDigit(h.value[j])) ==>
                PlanOf(response, payload, parse) == Err(InvalidField(REQUEST_CHARACTERS))
    {
      PlanOfAbsent(response, payload, parse);
      PlanOfNumber(response, payload, parse, n);
      PlanOfNoDigit(response, payload, parse);
    }

    lemma PlanOfAbsent(response: Api.Response, payload: Dict<Value>, parse: seq<byte> -> Value)
      requires response.contentType != AUDIO_JSON
      ensures Api.HeaderGet(response.headers, CHARACTERS_HEADER).None? ==> PlanOf(response, payload, parse) == Err(MissingHeader)
    {
    }

    lemma PlanOfNumber(response: Api.Response, payload: Dict<Value>, parse: seq<byte> -> Value, n: int)
      requires response.contentType != AUDIO_JSON
      ensures Api.HeaderGet(response.headers, CHARACTERS_HEADER) == Some(IntToString(n)) && FieldsOf(payload).Ok? ==>
                PlanOf(response, payload, parse) == Ok(SpeechPlan(response.contentType, n, response.body, FieldsOf(payload).value))
    {
      ParseIntOfString(n);
    }

    lemma PlanOfNoDigit(response: Api.Response, payload: Dict<Value>, parse: seq<byte> -> Value)
      requires response.contentType != AUDIO_JSON
      ensures var h := Api.HeaderGet(response.headers, CHARACTERS_HEADER);
              h.Some? && (forall j :: 0 <= j < |h.value| ==> !IsDigit(h.value[j])) ==>
                PlanOf(response, payload, parse) == Err(InvalidField(REQUEST_CHARACTERS))
    {
      var h := Api.HeaderGet(response.headers, CHARACTERS_HEADER);
      if h.Some? && forall j :: 0 <= j < |h.value| ==> !IsDigit(h.value[j]) {
        ParseIntRefuses(h.value);
      }
    }

    /** `synthesize_speech` up to the allocation of the result: the request, then PlanOf on the snake-keyed payload. */
    function SynthesisPlan(env: Api.Env, a: Args, parse: seq<byte> -> Value): Result<Plan, SynthesisError>
      requires a.SynthesizeSpeechArgs?
    {
      match Send(env, a)
      case Err(e) => Err(CallFailed(e))
      case Ok(sent) => PlanOf(sent.1, SynthesizePayload(defaults, a), parse)
    }

    /** The converter decision for this call. */
    function FinishOf(a: Args): (r: Finish)
      requires a.SynthesizeSpeechArgs?
      ensures r == ConvertIt ==> converter != null
    {
      Decide(ConverterSetting(), a.autoConvert, a.converterParams)
    }

    /** The command parameters the converter is called with for these fields. */
    function ConvertParamsFor(env: Api.Env, a: Args, f: SpeechFields): OpusConverter.CmdParams
      requires a.SynthesizeSpeechArgs? && converter != null
    {
      converter.ParamsFor(f.outputFormat, IntArg(a.converterParams, "out_bitrate"),
                          IntArg(a.converterParams, "sample_rate"), FilterArgs(a.converterParams, env.render))
    }

    /** The speech carries the response's content type, the characters header, the audio and the payload fields. */
    ghost predicate Carries(sp: Speech.Speech, p: Plan)
      requires p.SpeechPlan?
      reads sp
    {
      sp.contentType == p.contentType && sp.requestCharacters == p.characters &&
      sp.text == p.fields.text && sp.voiceId == p.fields.voiceId && sp.outputFormat == p.fields.outputFormat &&
      sp.sampleRate == p.fields.sampleRate && sp.speechMarkTypes == p.fields.speechMarkTypes &&
      sp.textType == p.fields.textType && sp.languageCode == p.fields.languageCode &&
      sp.lexiconNames == p.fields.lexiconNames
    }

    /**
      `synthesize_speech`: carries out the plan. Marks are returned as parsed;
      a speech is built from the response and the payload, then returned,
      refused for want of a converter, or converted (on failure, the converter's
      error; on success, the converted speech).
     */
    method SynthesizeSpeech(env: Api.Env, a: Args, parse: seq<byte> -> Value,
                            run: (string, seq<byte>) -> (seq<byte>, seq<byte>), decode: seq<byte> -> string)
      returns (r: Result<Synthesized, SynthesisError>)
      requires a.SynthesizeSpeechArgs?
      ensures var plan := SynthesisPlan(env, a, parse);
              (plan.Err? ==> r == Err(plan.error)) &&
              (plan.Ok? && plan.value.MarksPlan? ==> r == Ok(Marks(plan.value.marks))) &&
              (plan.Ok? && plan.value.SpeechPlan? && FinishOf(a) == RaiseNoConverter ==> r == Err(NoConverter)) &&
              (plan.Ok? && plan.value.SpeechPlan? && FinishOf(a) == ReturnIt ==>
                 r.Ok? && r.value.Audio? && fresh(r.value.speech) && Carries(r.value.speech, plan.value) &&
                 r.value.speech.audioStream == plan.value.audio && !r.value.speech.converted &&
                 r.value.speech.convertedStream.None? && r.value.speech.convertedParams.None?)
      ensures var plan := SynthesisPlan(env, a, parse);
              plan.Ok? && plan.value.SpeechPlan? && FinishOf(a) == ConvertIt ==>
                converter != null &&
                var attempt := OpusConverter.Attempt(ConvertParamsFor(env, a, plan.value.fields), plan.value.audio, run, decode);
                (attempt.Err? ==> r == Err(ConversionFailed(attempt.error))) &&
                (attempt.Ok? ==>
                   r.Ok? && r.value.Audio? && fresh(r.value.speech) && Carries(r.value.speech, plan.value) &&
                   r.value.speech.converted && r.value.speech.convertedStream == Some(attempt.value.0) &&
                   r.value.speech.audioStream == (if converter.keepOriginal then plan.value.audio else attempt.value.0) &&
                   var cp := ConvertParamsFor(env, a, plan.value.fields);
                   r.value.speech.convertedParams == Some(Speech.ConvertParams(
                     "ogg_opus", OpusConverter.FindDuration(attempt.value.1), cp.outBitrate, cp.outSampleRate,
                     cp.inParams, cp.filters)))
    {
      var plan := SynthesisPlan(env, a, parse);
      if plan.Err? {
        return Err(plan.error);
      }
      var p := plan.value;
      if p.MarksPlan? {
        return Ok(Marks(p.marks));
      }
      var finish := FinishOf(a);
      if finish == RaiseNoConverter {
        return Err(NoConverter);
      }
      var f := p.fields;
      var speech := new Speech.Speech(p.contentType, p.characters, p.audio, f.text, f.voiceId, f.outputFormat,
                                      f.sampleRate, f.speechMarkTypes, f.textType, f.languageCode, f.lexiconNames);
      if finish == ReturnIt {
        return Ok(Audio(speech));
      }
      var converted := converter.Convert(speech, IntArg(a.converterParams, "out_bitrate"),
                                         IntArg(a.converterParams, "sample_rate"),
                                         FilterArgs(a.converterParams, env.render), run, decode);
      if converted.Err? {
        return Err(ConversionFailed(converted.error));
      }
      return Ok(Audio(speech));
    }
  }
}

=== FILE: speech.dfy ===
/**
  The results of speech synthesis (aiopolly/types/speech.py): the
  synthesized `Speech` with its format, clean text and file name, and the
  list of speech marks with its per-type views.
 */
module Speech {
  import opened Common
  import Ssml

  // ---------------------------------------------------------------------------
  // Formats
  // ---------------------------------------------------------------------------

  /** `s.split('_')[0].strip()`: the format name up to the first underscore. */
  function FormatName(s: string): string
  {
    Strip(Split(s, '_')[0])
  }

  lemma StripKeeps(s: string, c: char)
    requires c !in s
    ensures c !in Strip(s)
  {
    var a := StripStart(s);
    assert a == s[|s| - |a|..];
    var b := StripEnd(a);
    assert b == a[..|b|];
  }

  /**
    The format name is the stripped text before the first '_' (all of it
    when there is none), and never contains '_'.
   */
  lemma FormatNameCases(p: string, rest: string)
    requires '_' !in p
    ensures FormatName(p + "_" + rest) == Strip(p)
    ensures FormatName(p) == Strip(p)
    ensures '_' !in FormatName(p + "_" + rest)
  {
    SplitPrefix(p, '_', rest);
    assert p + "_" + rest == p + (['_'] + rest);
    SplitNoSep(p, '_');
    StripKeeps(p, '_');
  }

  /** What the converter records in `converted_params`. */
  datatype ConvertParams = ConvertParams(
    toFormat: string,
    durationInSeconds: Option<int>,
    outBitrate: Option<int>,
    outSampleRate: Option<int>,
    inParams: string,
    filters: string)

  // ---------------------------------------------------------------------------
  // Words and file names
  // ---------------------------------------------------------------------------

  /** The length of the run of non-whitespace characters at the start of `s`. */
  function WordLength(s: string): (n: nat)
    requires s != [] && !IsSpace(s[0])
    ensures 1 <= n <= |s|
    ensures n < |s| ==> IsSpace(s[n])
  {
    if |s| == 1 || IsSpace(s[1]) then 1 else 1 + WordLength(s[1..])
  }

  /** `s.split()`: the maximal runs of non-whitespace characters, in order. */
  function Words(s: string): (r: seq<string>)
    decreases |s|
  {
    if s == [] then []
    else if IsSpace(s[0]) then Words(s[1..])
    else
      var n := WordLength(s);
      [s[..n]] + Words(s[n..])
  }

  /** `ws[:-1]` */
  function DropLast(ws: seq<string>): seq<string>
  {
    if ws == [] then [] else ws[..|ws| - 1]
  }

  /** A name longer than 100 characters is cut to 100, loses its last word and gets '...'. */
  function Truncated(name: string): string
  {
    if |name| > 100 then Join(DropLast(Words(name[..100])), " ") + "..." else name
  }

  /** Re-joining the words with single spaces never makes the text longer. */
  lemma {:induction false} JoinWordsLength(s: string)
    ensures |Join(Words(s), " ")| <= |s|
    decreases |s|
  {
    if s != [] {
      if IsSpace(s[0]) {
        JoinWordsLength(s[1..]);
      } else {
        var n := WordLength(s);
        var rest := s[n..];
        var ws := Words(rest);
        assert Words(s) == [s[..n]] + ws;
        if ws != [] {
          assert rest != [] && IsSpace(rest[0]);
          assert Words(rest) == Words(rest[1..]);
          JoinWordsLength(rest[1..]);
          assert ([s[..n]] + ws)[1..] == ws;
          assert Join([s[..n]] + ws, " ") == s[..n] + " " + Join(ws, " ");
        }
      }
    }
  }

  /** Dropping the last part never makes the joined text longer. */
  lemma {:induction false} JoinDropLastLength(ws: seq<string>)
    ensures |Join(DropLast(ws), " ")| <= |Join(ws, " ")|
  {
    if |ws| >= 2 {
      var d := DropLast(ws);
      JoinDropLastLength(ws[1..]);
      assert DropLast(ws[1..]) == d[1..];
      assert Join(ws, " ") == ws[0] + " " + Join(ws[1..], " ");
      if |d| >= 2 {
        assert Join(d, " ") == d[0] + " " + Join(d[1..], " ");
      }
    }
  }

  /** A short name is kept; a long one becomes at most 103 characters ending in '...'. */
  lemma TruncatedShape(name: string)
    ensures |name| <= 100 ==> Truncated(name) == name
    ensures |name| > 100 ==> |Truncated(name)| <= 103 && EndsWith(Truncated(name), "...")
  {
    if |name| > 100 {
      var ws := Words(name[..100]);
      JoinWordsLength(name[..100]);
      JoinDropLastLength(ws);
      var j := Join(DropLast(ws), " ");
      assert (j + "...")[|j + "..."| - 3..] == "...";
    }
  }

  // ---------------------------------------------------------------------------
  // Speech
  // ---------------------------------------------------------------------------

  /** A synthesized speech; the converter updates the last four fields in place. */
  class Speech {
    const contentType: string
    const requestCharacters: int
    var audioStream: seq<byte>
    const text: string
    const voiceId: string
    const outputFormat: string
    const sampleRate: Option<string>
    const speechMarkTypes: Option<string>
    const textType: Option<string>
    const languageCode: Option<string>
    const lexiconNames: Option<seq<string>>
    var converted: bool
    var convertedStream: Option<seq<byte>>
    var convertedParams: Option<ConvertParams>

    /** A fresh speech is not converted. */
    constructor (contentType: string, requestCharacters: int, audioStream: seq<byte>, text: string,
                 voiceId: string, outputFormat: string, sampleRate: Option<string>,
                 speechMarkTypes: Option<string>, textType: Option<string>,
                 languageCode: Option<string>, lexiconNames: Option<seq<string>>)
      ensures this.contentType == contentType && this.requestCharacters == requestCharacters
      ensures this.audioStream == audioStream && this.text == text && this.voiceId == voiceId
      ensures this.outputFormat == outputFormat && this.sampleRate == sampleRate
      ensures this.speechMarkTypes == speechMarkTypes && this.textType == textType
      ensures this.languageCode == languageCode && this.lexiconNames == lexiconNames
      ensures !converted && convertedStream.None? && convertedParams.None?
    {
      this.contentType := contentType;
      this.requestCharacters := requestCharacters;
      this.audioStream := audioStream;
      this.text := text;
      this.voiceId := voiceId;
      this.outputFormat := outputFormat;
      this.sampleRate := sampleRate;
      this.speechMarkTypes := speechMarkTypes;
      this.textType := textType;
      this.languageCode := languageCode;
      this.lexiconNames := lexiconNames;
      this.converted := false;
      this.convertedStream := None;
      this.convertedParams := None;
    }

    /** `converted_format`; None stands for the AttributeError on a speech never converted. */
    function ConvertedFormat(): Option<string>
      reads this
    {
      if convertedParams.Some? then Some(FormatName(convertedParams.value.toFormat)) else None
    }

    /** `format`: the converted format while the audio is the converted stream, else the output format's. */
    function Format(): Option<string>
      reads this
    {
      if converted && convertedStream == Some(audioStream) then ConvertedFormat()
      else Some(FormatName(outputFormat))
    }

    /** `clean_text`: plain text as it is, anything else with its markup stripped. */
    function CleanText(): string
      reads this
    {
      if textType == Some("text") then text else Ssml.Clean(text)
    }

    /** `filename(converted)`: `'{voice_id} - {name}.{extension}'`. */
    function Filename(useConverted: bool): Option<string>
      reads this
    {
      var ext := if useConverted && converted then ConvertedFormat() else Format();
      match ext
      case None => None
      case Some(e) => Some(voiceId + " - " + Truncated(CleanText()) + "." + e)
    }

    /** The clean text is never longer than the text and is the text itself when it has no markup. */
    lemma CleanTextShape()
      ensures |CleanText()| <= |text|
      ensures textType == Some("text") ==> CleanText() == text
      ensures '<' !in text ==> CleanText() == text
    {
      if '<' !in text { Ssml.CleanNoTags(text); }
    }

    /**
      A speech that was never converted is named after the output format
      whichever extension is asked for; a converted one that kept its
      original audio keeps the output format as `format`.
     */
    lemma FilenameUnconverted(useConverted: bool)
      requires !converted || convertedStream != Some(audioStream)
      ensures Format() == Some(FormatName(outputFormat))
      ensures !converted ==>
                Filename(useConverted) == Some(voiceId + " - " + Truncated(CleanText()) + "." + FormatName(outputFormat))
    {
    }

    /** A short plain-text speech that was never converted is named `voice - text.format`. */
    lemma FilenameOfPlainText()
      requires !converted && textType == Some("text") && |text| <= 100
      ensures Filename(true) == Some(voiceId + " - " + text + "." + FormatName(outputFormat))
    {
      TruncatedShape(text);
    }
  }

  // ---------------------------------------------------------------------------
  // Speech marks
  // ---------------------------------------------------------------------------

  /** One speech-mark record. */
  datatype SpeechMark = SpeechMark(time: int, markType: string, value: string, start: Option<int>, end: Option<int>)

  const WORD := "word"
  const SENTENCE := "sentence"
  const SSML := "ssml"
  const VISEME := "viseme"

  /** `get_marks`: the marks of one type, in their original order. */
  function GetMarks(marks: seq<SpeechMark>, t: string): (r: seq<SpeechMark>)
    ensures |r| <= |marks|
  {
    if marks == [] then []
    else (if marks[0].markType == t then [marks[0]] else []) + GetMarks(marks[1..], t)
  }

  /** `get_marks_values`: the value of each mark of one type. */
  function GetMarksValues(marks: seq<SpeechMark>, t: string): seq<string>
  {
    var g := GetMarks(marks, t);
    seq(|g|, i requires 0 <= i < |g| => g[i].value)
  }

  /** `total_time`: the time of the last mark; None for the IndexError on an empty list. */
  function TotalTime(marks: seq<SpeechMark>): Option<int>
  {
    if marks == [] then None else Some(marks[|marks| - 1].time)
  }

  /** `words`, `sentences`, `ssml` and `vesemes` */
  function WordMarks(marks: seq<SpeechMark>): seq<SpeechMark> { GetMarks(marks, WORD) }
  function Sentences(marks: seq<SpeechMark>): seq<SpeechMark> { GetMarks(marks, SENTENCE) }
  function SsmlMarks(marks: seq<SpeechMark>): seq<SpeechMark> { GetMarks(marks, SSML) }
  function Visemes(marks: seq<SpeechMark>): seq<SpeechMark> { GetMarks(marks, VISEME) }

  /** Filtering distributes over concatenation, so the original order is kept. */
  lemma {:induction false} GetMarksAppend(a: seq<SpeechMark>, b: seq<SpeechMark>, t: string)
    ensures GetMarks(a + b, t) == GetMarks(a, t) + GetMarks(b, t)
  {
    if a == [] {
      assert a + b == b;
    } else {
      var h := if a[0].markType == t then [a[0]] else [];
      assert (a + b)[0] == a[0] && (a + b)[1..] == a[1..] + b;
      assert GetMarks(a + b, t) == h + GetMarks(a[1..] + b, t);
      GetMarksAppend(a[1..], b, t);
      assert GetMarks(a, t) == h + GetMarks(a[1..], t);
      assert h + (GetMarks(a[1..], t) + GetMarks(b, t)) == (h + GetMarks(a[1..], t)) + GetMarks(b, t);
    }
  }

  /** Exactly the marks of the requested type are selected, each as many times as it occurs. */
  lemma {:induction false} GetMarksExact(marks: seq<SpeechMark>, t: string)
    ensures forall m :: m in GetMarks(marks, t) ==> m.markType == t
    ensures forall m: SpeechMark :: m.markType == t ==> multiset(GetMarks(marks, t))[m] == multiset(marks)[m]
    ensures forall m: SpeechMark :: m.markType != t ==> multiset(GetMarks(marks, t))[m] == 0
  {
    if marks != [] {
      GetMarksExact(marks[1..], t);
      assert marks == [marks[0]] + marks[1..];
      assert multiset(marks) == multiset([marks[0]]) + multiset(marks[1..]);
    }
  }

  /** The values line up one to one with the selected marks. */
  lemma GetMarksValuesShape(marks: seq<SpeechMark>, t: string)
    ensures |GetMarksValues(marks, t)| == |GetMarks(marks, t)|
    ensures forall i :: 0 <= i < |GetMarksValues(marks, t)| ==> GetMarksValues(marks, t)[i] == GetMarks(marks, t)[i].value
    ensures GetMarksValues(marks + [SpeechMark(0, t, "", None, None)], t) == GetMarksValues(marks, t) + [""]
  {
    var m := SpeechMark(0, t, "", None, None);
    GetMarksAppend(marks, [m], t);
    assert GetMarks([m], t) == [m];
  }

  /** The four views never share a mark, and each holds only its own type. */
  lemma ViewsDisjoint(marks: seq<SpeechMark>)
    ensures forall m :: m in WordMarks(marks) ==> m.markType == WORD
    ensures forall m :: m in Sentences(marks) ==> m.markType == SENTENCE
    ensures forall m :: m in SsmlMarks(marks) ==> m.markType == SSML
    ensures forall m :: m in Visemes(marks) ==> m.markType == VISEME
    ensures forall m :: m in WordMarks(marks) ==> m !in Sentences(marks) && m !in SsmlMarks(marks) && m !in Visemes(marks)
  {
    GetMarksExact(marks, WORD);
    GetMarksExact(marks, SENTENCE);
    GetMarksExact(marks, SSML);
    GetMarksExact(marks, VISEME);
  }

  /** The total time is that of the mark appended last, and there is none without marks. */
  lemma TotalTimeLast(marks: seq<SpeechMark>, m: SpeechMark)
    ensures TotalTime(marks + [m]) == Some(m.time)
    ensures TotalTime([]) == None
  {
  }
}

=== FILE: ssml.dfy ===
/**
  The SSML builders (aiopolly/utils/ssml/actions.py): the attribute renderer
  `make_params`, the tag-stripping `clean_text_from_ssml_tags`, and the
  tag builders of the Speech Synthesis Markup Language 1.1 (emphasis in
  section 3.2.2, break in section 3.2.3, prosody in section 3.2.4) plus
  Amazon's `amazon:` extensions.
 */
module Ssml {
  import opened Common

  // ---------------------------------------------------------------------------
  // Attribute values and make_params
  // ---------------------------------------------------------------------------

  /** A keyword argument: None, an int, a string, or an Enum member (rendered by its `.value`). */
  datatype Arg = NoneArg | IntArg(i: int) | StrArg(s: string) | EnumArg(value: string)

  /** Python truthiness of an argument; a string Enum follows its string value. */
  predicate ArgTruthy(a: Arg)
  {
    match a
    case NoneArg => false
    case IntArg(i) => i != 0
    case StrArg(s) => s != []
    case EnumArg(v) => v != []
  }

  /** `f'{value}'`, with Enum members unwrapped to `.value`. */
  function Rendered(a: Arg): string
  {
    match a
    case NoneArg => "None"
    case IntArg(i) => IntToString(i)
    case StrArg(s) => s
    case EnumArg(v) => v
  }

  const DEFAULT_EXCLUDE: seq<string> := ["tag", "text", "sep"]

  /** The Python type of the `exclude` argument: only sets and lists are extended. */
  datatype Container = SetOf | ListOf | TupleOf

  /** The names of DEFAULT_EXCLUDE not already in `items`. */
  function Absent(names: seq<string>, items: seq<string>): (r: seq<string>)
  {
    if names == [] then []
    else (if names[0] in items then [] else [names[0]]) + Absent(names[1..], items)
  }

  lemma {:induction false} AbsentMembers(names: seq<string>, items: seq<string>, k: string)
    ensures k in Absent(names, items) <==> k in names && k !in items
  {
    if names != [] {
      AbsentMembers(names[1..], items, k);
      assert names == [names[0]] + names[1..];
    }
  }

  /** The contents of `exclude` after `make_params` has updated it. */
  function Extended(kind: Container, items: seq<string>): seq<string>
  {
    match kind
    case SetOf => items + Absent(DEFAULT_EXCLUDE, items)
    case ListOf => items + DEFAULT_EXCLUDE
    case TupleOf => items
  }

  /**
    A set or a list afterwards holds its old members and the three default
    names, and nothing else; a set gains no duplicates; a tuple is unchanged.
   */
  lemma ExtendedMembers(kind: Container, items: seq<string>, k: string)
    ensures kind != TupleOf ==> (k in Extended(kind, items) <==> k in items || k in DEFAULT_EXCLUDE)
    ensures kind == TupleOf ==> Extended(kind, items) == items
    ensures kind == ListOf ==> Extended(kind, items) == items + DEFAULT_EXCLUDE
    ensures kind == SetOf && k in items ==> multiset(Extended(kind, items))[k] == multiset(items)[k]
  {
    AbsentMembers(DEFAULT_EXCLUDE, items, k);
    if kind == SetOf {
      var a := Absent(DEFAULT_EXCLUDE, items);
      assert multiset(items + a) == multiset(items) + multiset(a);
    }
  }

  /** The `exclude` argument when the caller passes a mutable list or set of its own. */
  class Exclusions {
    const kind: Container
    var items: seq<string>

    constructor (kind: Container, items: seq<string>)
      ensures this.kind == kind && this.items == items
    {
      this.kind := kind;
      this.items := items;
    }
  }

  /** A parameter is rendered when it is not None, not excluded, and allowed (all are allowed when `allowed` is None). */
  predicate Kept(exclude: seq<string>, allowed: Option<seq<string>>, p: (string, Arg))
  {
    !p.1.NoneArg? && p.0 !in exclude && (allowed.None? || p.0 in allowed.value)
  }

  /** `mapping.get(key, key)` */
  function AttrName(mapping: Dict<string>, key: string): string
  {
    match Get(mapping, key)
    case Some(n) => n
    case None => key
  }

  /** The (attribute name, attribute text) of one parameter. */
  function Entry(mapping: Dict<string>, p: (string, Arg)): (string, string)
  {
    (AttrName(mapping, p.0), Rendered(p.1))
  }

  /** The attributes `make_params` renders, in argument order. */
  function Shown(mapping: Dict<string>, exclude: seq<string>, allowed: Option<seq<string>>,
                 params: seq<(string, Arg)>): (r: seq<(string, string)>)
    ensures |r| <= |params|
  {
    if params == [] then []
    else (if Kept(exclude, allowed, params[0]) then [Entry(mapping, params[0])] else [])
         + Shown(mapping, exclude, allowed, params[1..])
  }

  /** `name="value"` */
  function AttrText(e: (string, string)): string
  {
    e.0 + "=\"" + e.1 + "\""
  }

  /** The string `make_params` returns: the shown attributes separated by single spaces. */
  function Attributes(mapping: Dict<string>, exclude: seq<string>, allowed: Option<seq<string>>,
                      params: seq<(string, Arg)>): string
  {
    var sh := Shown(mapping, exclude, allowed, params);
    Join(seq(|sh|, i requires 0 <= i < |sh| => AttrText(sh[i])), " ")
  }

  /**
    `make_params`: a list or set `exclude` is extended in place with the
    default names before the parameters are filtered against it.
   */
  method MakeParams(mapping: Dict<string>, exclude: Exclusions, allowed: Option<seq<string>>,
                    params: seq<(string, Arg)>) returns (r: string)
    modifies exclude
    ensures exclude.items == Extended(exclude.kind, old(exclude.items))
    ensures r == Attributes(mapping, exclude.items, allowed, params)
  {
    if exclude.kind == SetOf {
      exclude.items := exclude.items + Absent(DEFAULT_EXCLUDE, exclude.items);
    } else if exclude.kind == ListOf {
      exclude.items := exclude.items + DEFAULT_EXCLUDE;
    }
    r := Attributes(mapping, exclude.items, allowed, params);
  }

  /** Order: an extra parameter at the end adds its attribute at the end, exactly when it is kept. */
  lemma ShownAppend(mapping: Dict<string>, exclude: seq<string>, allowed: Option<seq<string>>,
                     params: seq<(string, Arg)>, p: (string, Arg))
    ensures Shown(mapping, exclude, allowed, params + [p]) ==
            Shown(mapping, exclude, allowed, params) + (if Kept(exclude, allowed, p) then [Entry(mapping, p)] else [])
  {
    ShownConcat(mapping, exclude, allowed, params, [p]);
    assert [p][1..] == [];
  }

  /**
    Every shown attribute comes from a kept parameter, and every kept
    parameter is shown: None values, excluded names and names outside
    `allowed` never are.
   */
  lemma {:induction false} ShownMembers(mapping: Dict<string>, exclude: seq<string>, allowed: Option<seq<string>>,
                                        params: seq<(string, Arg)>)
    ensures forall i :: 0 <= i < |params| && Kept(exclude, allowed, params[i]) ==>
              Entry(mapping, params[i]) in Shown(mapping, exclude, allowed, params)
    ensures forall e :: e in Shown(mapping, exclude, allowed, params) ==>
              exists i :: 0 <= i < |params| && Kept(exclude, allowed, params[i]) && e == Entry(mapping, params[i])
  {
    if params != [] {
      ShownMembers(mapping, exclude, allowed, params[1..]);
      var rest := params[1..];
      forall i | 0 <= i < |params| && Kept(exclude, allowed, params[i])
        ensures Entry(mapping, params[i]) in Shown(mapping, exclude, allowed, params)
      {
        if i > 0 { assert params[i] == rest[i - 1]; }
      }
      forall e | e in Shown(mapping, exclude, allowed, params)
        ensures exists i :: 0 <= i < |params| && Kept(exclude, allowed, params[i]) && e == Entry(mapping, params[i])
      {
        if e !in Shown(mapping, exclude, allowed, rest) {
          assert Kept(exclude, allowed, params[0]) && e == Entry(mapping, params[0]);
        } else {
          var j :| 0 <= j < |rest| && Kept(exclude, allowed, rest[j]) && e == Entry(mapping, rest[j]);
          assert params[j + 1] == rest[j];
        }
      }
    }
  }

  /** The three default names are never rendered, whatever the mapping. */
  lemma DefaultNamesHidden(mapping: Dict<string>, exclude: seq<string>, allowed: Option<seq<string>>,
                           params: seq<(string, Arg)>, p: (string, Arg))
    requires forall k :: k in DEFAULT_EXCLUDE ==> k in exclude
    requires p.0 in DEFAULT_EXCLUDE
    ensures Shown(mapping, exclude, allowed, params + [p]) == Shown(mapping, exclude, allowed, params)
  {
    ShownAppend(mapping, exclude, allowed, params, p);
  }

  // ---------------------------------------------------------------------------
  // clean_text_from_ssml_tags: re.sub('<[^<]+>', '', text)
  // ---------------------------------------------------------------------------

  /** The index of the first '<' at or after `i`, or |s|. */
  function NextOpen(s: string, i: nat): (j: nat)
    requires i <= |s|
    ensures i <= j <= |s|
    ensures j < |s| ==> s[j] == '<'
    ensures forall k :: i <= k < j ==> s[k] != '<'
    decreases |s| - i
  {
    if i == |s| || s[i] == '<' then i else NextOpen(s, i + 1)
  }

  /** The index of the last '>' in s[lo..hi], or -1. */
  function LastClose(s: string, lo: nat, hi: nat): (k: int)
    requires hi <= |s|
    ensures k == -1 || (lo <= k < hi && s[k] == '>')
    ensures forall m :: lo <= m < hi && k < m ==> s[m] != '>'
    decreases hi
  {
    if hi <= lo then -1
    else if s[hi - 1] == '>' then hi - 1
    else LastClose(s, lo, hi - 1)
  }

  /**
    The regular-expression substitution, scanning left to right: at a '<'
    the pattern takes at least one non-'<' character and then, greedily, the
    last '>' before the next '<'; where it does not match, one character is
    kept and the scan moves on.
   */
  function Clean(s: string): (r: string)
    ensures |r| <= |s|
    decreases |s|
  {
    if s == [] then []
    else
      var k := TagEnd(s);
      if k == -1 then [s[0]] + Clean(s[1..]) else Clean(s[k + 1..])
  }

  /** The index of the '>' that ends a tag starting at s[0], or -1 when no tag starts there. */
  function TagEnd(s: string): (k: int)
    requires s != []
    ensures k == -1 || 2 <= k < |s|
    ensures s[0] != '<' ==> k == -1
  {
    if s[0] != '<' then -1 else LastClose(s, 2, NextOpen(s, 1))
  }

  /** Text without '<' is left as it is. */
  lemma CleanNoTags(s: string)
    requires '<' !in s
    ensures Clean(s) == s
  {
    CleanPlain(s, []);
    assert s + [] == s;
  }

  predicate Plain(s: string)
  {
    '<' !in s && '>' !in s
  }

  /** Text without '<' passes through. */
  lemma {:induction false} CleanPlain(t: string, rest: string)
    requires '<' !in t
    ensures Clean(t + rest) == t + Clean(rest)
  {
    if t != [] {
      var s := t + rest;
      assert s[0] == t[0] && s[1..] == t[1..] + rest;
      assert TagEnd(s) == -1;
      assert Clean(s) == [t[0]] + Clean(s[1..]);
      CleanPlain(t[1..], rest);
      assert [t[0]] + (t[1..] + Clean(rest)) == t + Clean(rest);
    } else {
      assert t + rest == rest;
    }
  }

  /** The tag `<a>` at the front of `<a>t rest` ends at its own '>'. */
  lemma {:induction false} TagEndOfTag(s: string, a: string, t: string, rest: string)
    requires a != [] && Plain(a) && Plain(t)
    requires rest == [] || rest[0] == '<'
    requires s == "<" + a + ">" + t + rest
    ensures TagEnd(s) == |a| + 1
  {
    var q := |a| + 1;
    var p := q + 1 + |t|;
    assert s[q] == '>';
    forall m | 1 <= m < p ensures s[m] != '<' {
      if m < q { assert s[m] == a[m - 1]; } else if m > q { assert s[m] == t[m - q - 1]; }
    }
    assert p == |s| || s[p] == '<';
    assert NextOpen(s, 1) == p;
    forall m | q < m < p ensures s[m] != '>' {
      assert s[m] == t[m - q - 1];
    }
  }

  /** Where a tag starts the text, the substitution drops it and goes on after it. */
  lemma {:induction false} CleanSkipsTag(s: string, k: int)
    requires s != [] && TagEnd(s) == k && k != -1
    ensures Clean(s) == Clean(s[k + 1..])
  {
  }

  /** A tag `<a>` followed by plain text and then another tag (or the end) is removed. */
  lemma {:induction false} CleanTag(s: string, a: string, t: string, rest: string)
    requires a != [] && Plain(a) && Plain(t)
    requires rest == [] || rest[0] == '<'
    requires s == "<" + a + ">" + t + rest
    ensures Clean(s) == t + Clean(rest)
  {
    TagEndOfTag(s, a, t, rest);
    var x := "<" + a + ">";
    assert s == x + (t + rest);
    CleanSkipsTag(s, |a| + 1);
    CleanPlain(t, rest);
  }

  /** `<a>body</n>`, the shape of every builder that wraps text. */
  function Element(a: string, body: string, n: string): string
  {
    "<" + a + ">" + body + "</" + n + ">"
  }

  /** `<a/>`, the shape of the self-closing builders. */
  function EmptyElement(a: string): string
  {
    "<" + a + "/>"
  }

  /** An element `<a>t</n>` followed by plain text cleans to its text and that tail. */
  lemma CleanElement(a: string, t: string, n: string, tail: string)
    requires a != [] && Plain(a) && Plain(t) && Plain(n) && Plain(tail)
    ensures Clean(Element(a, t, n) + tail) == t + tail
  {
    var close := "</" + n + ">" + tail;
    CleanTag(Element(a, t, n) + tail, a, t, close);
    CleanClose(n, tail);
  }

  lemma CleanClose(n: string, tail: string)
    requires Plain(n) && Plain(tail)
    ensures Clean("</" + n + ">" + tail) == tail
  {
    var b := "/" + n;
    CleanTag("</" + n + ">" + tail, b, tail, []);
    assert tail + Clean([]) == tail;
  }

  /** A self-closing tag `<a/>` cleans away entirely. */
  lemma CleanEmptyTag(a: string)
    requires Plain(a)
    ensures Clean(EmptyElement(a)) == []
  {
    assert "/>" == "/" + ">";
    CleanTag(EmptyElement(a), a + "/", [], []);
  }

  /** Joining plain parts with a plain separator gives plain text. */
  lemma {:induction false} JoinPlain(parts: seq<string>, sep: string)
    requires forall i :: 0 <= i < |parts| ==> Plain(parts[i])
    requires Plain(sep)
    ensures Plain(Join(parts, sep))
  {
    if |parts| > 1 {
      JoinPlain(parts[1..], sep);
    }
  }

  /** The rendered attributes are plain when every attribute name and value is. */
  lemma AttributesPlain(mapping: Dict<string>, exclude: seq<string>, allowed: Option<seq<string>>,
                        params: seq<(string, Arg)>)
    requires forall e :: e in Shown(mapping, exclude, allowed, params) ==> Plain(e.0) && Plain(e.1)
    ensures Plain(Attributes(mapping, exclude, allowed, params))
  {
    var sh := Shown(mapping, exclude, allowed, params);
    var texts := seq(|sh|, i requires 0 <= i < |sh| => AttrText(sh[i]));
    forall i | 0 <= i < |texts| ensures Plain(texts[i]) {
      assert sh[i] in sh;
    }
    JoinPlain(texts, " ");
  }

  // ---------------------------------------------------------------------------
  // The tag builders
  // ---------------------------------------------------------------------------

  /** `ssml_text`: the joined parts inside `<speak>`. */
  function SsmlText(parts: seq<string>, sep: string): string
  {
    Element("speak", Join(parts, sep), "speak")
  }

  /** `seconds and f'{seconds}s'`: None stays None, 0 stays the int 0, anything else gets the unit. */
  function Timed(x: Option<int>, unit: string): Arg
  {
    match x
    case None => NoneArg
    case Some(n) => if n == 0 then IntArg(0) else StrArg(IntToString(n) + unit)
  }

  const PAUSE_MAPPING: Dict<string> := [("seconds", "time"), ("milliseconds", "time")]

  /** The keyword arguments `pause` hands to `make_params` (its locals, in order). */
  function PauseParams(strength: Arg, seconds: Option<int>, milliseconds: Option<int>): seq<(string, Arg)>
  {
    [("strength", strength), ("seconds", Timed(seconds, "s")),
     ("milliseconds", Timed(milliseconds, "ms")), ("tag", StrArg("<break {params}/>"))]
  }

  /** `pause` */
  function Pause(strength: Arg, seconds: Option<int>, milliseconds: Option<int>): string
  {
    EmptyElement("break " + Attributes(PAUSE_MAPPING, DEFAULT_EXCLUDE, None, PauseParams(strength, seconds, milliseconds)))
  }

  /** `emphasis` */
  function Emphasis(text: string, level: Arg): string
  {
    var params := [("text", StrArg(text)), ("level", level), ("tag", StrArg("<emphasis {params}>{text}</emphasis>"))];
    Element("emphasis " + Attributes([], DEFAULT_EXCLUDE, None, params), text, "emphasis")
  }

  /** `lang`: note the '.' after the closing tag. */
  function Lang(text: string, languageCode: Arg): string
  {
    Element("lang xml:lang=\"" + Rendered(languageCode) + "\"", text, "lang") + "."
  }

  /** `mark` */
  function Mark(tagName: string): string
  {
    EmptyElement("mark name=\"" + tagName + "\"")
  }

  /** `paragraph` */
  function Paragraph(text: string): string
  {
    Element("p", text, "p")
  }

  /** `sentence` */
  function Sentence(text: string): string
  {
    Element("s", text, "s")
  }

  /** `phoneme` */
  function Phoneme(text: string, alphabet: Arg, ph: string): string
  {
    Element("phoneme alphabet=\"" + Rendered(alphabet) + "\" ph=\"" + ph + "\"", text, "phoneme")
  }

  /** `volume and isinstance(volume, int)`: a non-zero int gets the unit, any other value is kept. */
  function Scaled(a: Arg, unit: string): Arg
  {
    if a.IntArg? && a.i != 0 then StrArg(IntToString(a.i) + unit) else a
  }

  const PROSODY_MAPPING: Dict<string> :=
    [("max_duration_seconds", "amazon:max-duration"), ("max_duration_milliseconds", "amazon:max-duration")]

  /** The keyword arguments `prosody` hands to `make_params`. */
  function ProsodyParams(text: seq<string>, volume: Arg, rate: Arg, pitch: Arg,
                         maxSeconds: Option<int>, maxMilliseconds: Option<int>, sep: string): seq<(string, Arg)>
  {
    [("text", StrArg(Join(text, sep))), ("volume", Scaled(volume, "dB")), ("rate", Scaled(rate, "%")),
     ("pitch", Scaled(pitch, "%")), ("max_duration_seconds", Timed(maxSeconds, "s")),
     ("max_duration_milliseconds", Timed(maxMilliseconds, "ms")), ("sep", StrArg(sep)),
     ("tag", StrArg("<prosody {params}>{text}</prosody>"))]
  }

  /** `prosody` */
  function Prosody(text: seq<string>, volume: Arg, rate: Arg, pitch: Arg,
                   maxSeconds: Option<int>, maxMilliseconds: Option<int>, sep: string): string
  {
    var attrs := Attributes(PROSODY_MAPPING, DEFAULT_EXCLUDE, None,
                            ProsodyParams(text, volume, rate, pitch, maxSeconds, maxMilliseconds, sep));
    Element("prosody " + attrs, Join(text, sep), "prosody")
  }

  const SAY_AS_MAPPING: Dict<string> := [("date_format", "format"), ("interpret_as", "interpret-as")]

  /** The keyword arguments `say_as` hands to `make_params`; the interpretation is unwrapped from its Enum first. */
  function SayAsParams(text: string, interpretAs: Arg, dateFormat: Arg): seq<(string, Arg)>
  {
    var interp := if interpretAs.EnumArg? then StrArg(interpretAs.value) else interpretAs;
    [("text", StrArg(text)), ("interpret_as", interp), ("date_format", dateFormat),
     ("tag", StrArg("<say-as {params}>{text}</say-as>"))]
  }

  /** `say_as` */
  function SayAs(text: string, interpretAs: Arg, dateFormat: Arg): string
  {
    Element("say-as " + Attributes(SAY_AS_MAPPING, DEFAULT_EXCLUDE, None, SayAsParams(text, interpretAs, dateFormat)),
            text, "say-as")
  }

  /** `sub` */
  function Sub(abbreviation: string, alias: string): string
  {
    Element("sub alias=\"" + alias + "\"", abbreviation, "sub")
  }

  datatype SsmlError = BreathWithParams | NoTimbre

  /** The keyword arguments of a manual `breath` (the text tuple is empty). */
  function BreathParams(duration: Arg, frequency: Arg, volume: Arg, sep: string): seq<(string, Arg)>
  {
    [("text", StrArg([])), ("duration", duration), ("frequency", frequency), ("volume", volume),
     ("sep", StrArg(sep)), ("tag", StrArg("<amazon:breath {params}/>"))]
  }

  /** `breath`: automatic breaths around text parts (no parameters allowed), or one manual breath. */
  function Breath(text: seq<string>, duration: Arg, frequency: Arg, volume: Arg, sep: string): Result<string, SsmlError>
  {
    if text != [] then
      if ArgTruthy(duration) || ArgTruthy(frequency) || ArgTruthy(volume) then Err(BreathWithParams)
      else Ok(Element("amazon:auto-breaths", Join(text, sep), "amazon:auto-breaths"))
    else
      Ok(EmptyElement("amazon:breath " + Attributes([], DEFAULT_EXCLUDE, None, BreathParams(duration, frequency, volume, sep))))
  }

  /** `drc`: note the '.' after the closing tag. */
  function Drc(text: seq<string>, sep: string): string
  {
    Element("amazon:effect name=\"drc\"", Join(text, sep), "amazon:effect") + "."
  }

  /** `soft` */
  function Soft(text: seq<string>, sep: string): string
  {
    Element("amazon:effect phonation=\"soft\"", Join(text, sep), "amazon:effect")
  }

  /** The `vocal-tract-length` value: a signed percentage for `adjust`, else the absolute one. */
  function TimbreValue(adjust: Option<int>, absolute: Option<int>): Result<string, SsmlError>
  {
    if adjust.Some? then
      Ok(if adjust.value >= 0 then "+" + IntToString(adjust.value) + "%" else IntToString(adjust.value) + "%")
    else if absolute.Some? then Ok(IntToString(absolute.value) + "%")
    else Err(NoTimbre)
  }

  /** `timbre` */
  function Timbre(text: seq<string>, adjust: Option<int>, absolute: Option<int>, sep: string): Result<string, SsmlError>
  {
    match TimbreValue(adjust, absolute)
    case Err(e) => Err(e)
    case Ok(v) => Ok(Element("amazon:effect vocal-tract-length=\"" + v + "\"", Join(text, sep), "amazon:effect"))
  }

  /** `whisper` as written: the attribute value sits between two U+201D marks, not quotation marks. */
  function WhisperAsWritten(text: seq<string>, sep: string): string
  {
    Element("amazon:effect name=\U{201D}whispered\U{201D}", Join(text, sep), "amazon:effect")
  }

  /** `whisper` with the attribute quoted like those of the other `amazon:effect` builders. */
  function Whisper(text: seq<string>, sep: string): string
  {
    Element("amazon:effect name=\"whispered\"", Join(text, sep), "amazon:effect")
  }

  // ---------------------------------------------------------------------------
  // Properties of the builders
  // ---------------------------------------------------------------------------

  /**
    `pause` renders `seconds` as `time="Ns"` and `milliseconds` as
    `time="Nms"`, after the strength and in that order; a zero stays a bare 0.
   */
  lemma PauseAttributes(strength: Arg, seconds: Option<int>, milliseconds: Option<int>)
    ensures Shown(PAUSE_MAPPING, DEFAULT_EXCLUDE, None, PauseParams(strength, seconds, milliseconds)) ==
            (if strength.NoneArg? then [] else [("strength", Rendered(strength))]) +
            (if seconds.None? then [] else [("time", if seconds.value == 0 then "0" else IntToString(seconds.value) + "s")]) +
            (if milliseconds.None? then [] else [("time", if milliseconds.value == 0 then "0" else IntToString(milliseconds.value) + "ms")])
  {
    var ps := PauseParams(strength, seconds, milliseconds);
    var m, d := PAUSE_MAPPING, DEFAULT_EXCLUDE;
    assert PAUSE_MAPPING[1..] == [("milliseconds", "time")];
    assert Get(m, "strength") == None && Get(m, "seconds") == Some("time") && Get(m, "milliseconds") == Some("time");
    var p0, p1, p2 := ("strength", strength), ("seconds", Timed(seconds, "s")), ("milliseconds", Timed(milliseconds, "ms"));
    var tag := ("tag", StrArg("<break {params}/>"));
    assert ps == [p0, p1, p2] + [tag];
    ShownSingle(m, d, None, tag);
    ShownTriple(m, d, p0, p1, p2, [tag]);
    assert AttrName(m, "strength") == "strength" && AttrName(m, "seconds") == "time" && AttrName(m, "milliseconds") == "time";
    NotExcluded("strength");
    ShownAs(m, "strength", strength);
    NotExcluded("seconds");
    TimedShown(m, "seconds", seconds, "s");
    NotExcluded("milliseconds");
    TimedShown(m, "milliseconds", milliseconds, "ms");
  }

  /** A pause of a non-zero number of seconds alone is `<break time="Ns"/>`. */
  lemma PauseSeconds(n: int)
    requires n != 0
    ensures Pause(NoneArg, Some(n), None) == "<break time=\"" + IntToString(n) + "s\"/>"
  {
    PauseAttributes(NoneArg, Some(n), None);
    var sh := [("time", IntToString(n) + "s")];
    assert seq(|sh|, i requires 0 <= i < |sh| => AttrText(sh[i])) == [AttrText(sh[0])];
  }

  /**
    `prosody` renders a non-zero int volume as `NdB` and a non-zero int
    rate or pitch as `N%`; strings and Enum values are kept as they are.
   */
  lemma ProsodyUnits(volume: Arg, rate: Arg, pitch: Arg)
    ensures volume.IntArg? && volume.i != 0 ==> Rendered(Scaled(volume, "dB")) == IntToString(volume.i) + "dB"
    ensures rate.IntArg? && rate.i != 0 ==> Rendered(Scaled(rate, "%")) == IntToString(rate.i) + "%"
    ensures pitch.IntArg? && pitch.i != 0 ==> Rendered(Scaled(pitch, "%")) == IntToString(pitch.i) + "%"
    ensures !volume.IntArg? ==> Scaled(volume, "dB") == volume
    ensures !ArgTruthy(volume) ==> Scaled(volume, "dB") == volume
  {
  }

  /** The prosody text and separator are never attributes; the four measures are, when given, in order. */
  lemma ProsodyAttributes(text: seq<string>, volume: Arg, rate: Arg, pitch: Arg, sep: string)
    ensures Shown(PROSODY_MAPPING, DEFAULT_EXCLUDE, None, ProsodyParams(text, volume, rate, pitch, None, None, sep)) ==
            (if volume.NoneArg? then [] else [("volume", Rendered(Scaled(volume, "dB")))]) +
            (if rate.NoneArg? then [] else [("rate", Rendered(Scaled(rate, "%")))]) +
            (if pitch.NoneArg? then [] else [("pitch", Rendered(Scaled(pitch, "%")))])
  {
    var ps := ProsodyParams(text, volume, rate, pitch, None, None, sep);
    var m, d := PROSODY_MAPPING, DEFAULT_EXCLUDE;
    assert Get(m, "volume") == None && Get(m, "rate") == None && Get(m, "pitch") == None;
    assert ps == [ps[0], ps[1], ps[2], ps[3]] + ps[4..];
    ShownNone(m, d, ps[4..]);
    ShownThree(m, d, ps[0], ps[1], ps[2], ps[3], ps[4..]);
    assert AttrName(m, "volume") == "volume" && AttrName(m, "rate") == "rate" && AttrName(m, "pitch") == "pitch";
    NotExcluded("volume");
    ScaledShown(m, "volume", volume, "dB");
    ScaledShown(m, "rate", rate, "%");
    NotExcluded("pitch");
    ScaledShown(m, "pitch", pitch, "%");
  }

  /** `say_as` renders the interpretation as `interpret-as`, then the date format as `format`. */
  lemma SayAsAttributes(text: string, interpretAs: Arg, dateFormat: Arg)
    ensures Shown(SAY_AS_MAPPING, DEFAULT_EXCLUDE, None, SayAsParams(text, interpretAs, dateFormat)) ==
            (if interpretAs.NoneArg? then [] else [("interpret-as", Rendered(interpretAs))]) +
            (if dateFormat.NoneArg? then [] else [("format", Rendered(dateFormat))])
  {
    var ps := SayAsParams(text, interpretAs, dateFormat);
    var m, d := SAY_AS_MAPPING, DEFAULT_EXCLUDE;
    assert m[1..] == [("interpret_as", "interpret-as")];
    assert Get(m, "interpret_as") == Some("interpret-as") && Get(m, "date_format") == Some("format");
    assert ps == [ps[0], ps[1], ps[2], ps[3]] + [];
    ShownThree(m, d, ps[0], ps[1], ps[2], ps[3], []);
    NotExcluded("interpret_as");
    ShownAs(m, "interpret_as", ps[1].1);
    NotExcluded("date_format");
    ShownAs(m, "date_format", dateFormat);
    ShownSingle(m, d, None, ps[3]);
  }

  /** A manual `breath` renders duration, frequency and volume, when given, in that order. */
  lemma BreathAttributes(duration: Arg, frequency: Arg, volume: Arg, sep: string)
    ensures Shown([], DEFAULT_EXCLUDE, None, BreathParams(duration, frequency, volume, sep)) ==
            (if duration.NoneArg? then [] else [("duration", Rendered(duration))]) +
            (if frequency.NoneArg? then [] else [("frequency", Rendered(frequency))]) +
            (if volume.NoneArg? then [] else [("volume", Rendered(volume))])
  {
    var ps := BreathParams(duration, frequency, volume, sep);
    var d := DEFAULT_EXCLUDE;
    assert ps == [ps[0], ps[1], ps[2], ps[3]] + ps[4..];
    ShownNone([], d, ps[4..]);
    ShownThree([], d, ps[0], ps[1], ps[2], ps[3], ps[4..]);
    NotExcluded("duration");
    ShownAs([], "duration", duration);
    NotExcluded("frequency");
    ShownAs([], "frequency", frequency);
    NotExcluded("volume");
    ShownAs([], "volume", volume);
  }

  /** The excluded names are all shorter than five characters. */
  lemma NotExcluded(name: string)
    requires |name| >= 5
    ensures name !in DEFAULT_EXCLUDE
  {
  }

  /** A parameter that is not excluded shows, under its mapped name, exactly when it is given. */
  lemma ShownAs(m: Dict<string>, name: string, v: Arg)
    requires name !in DEFAULT_EXCLUDE
    ensures Shown(m, DEFAULT_EXCLUDE, None, [(name, v)]) ==
            if v.NoneArg? then [] else [(AttrName(m, name), Rendered(v))]
  {
    ShownSingle(m, DEFAULT_EXCLUDE, None, (name, v));
  }

  /** A timed parameter shows exactly when given: a zero as a bare 0, anything else with its unit. */
  lemma TimedShown(m: Dict<string>, name: string, x: Option<int>, unit: string)
    requires name !in DEFAULT_EXCLUDE
    ensures Shown(m, DEFAULT_EXCLUDE, None, [(name, Timed(x, unit))]) ==
            if x.None? then [] else [(AttrName(m, name), if x.value == 0 then "0" else IntToString(x.value) + unit)]
  {
    ShownAs(m, name, Timed(x, unit));
  }

  /** A scaled parameter shows exactly when given. */
  lemma ScaledShown(m: Dict<string>, name: string, a: Arg, unit: string)
    requires name !in DEFAULT_EXCLUDE
    ensures Shown(m, DEFAULT_EXCLUDE, None, [(name, Scaled(a, unit))]) ==
            if a.NoneArg? then [] else [(AttrName(m, name), Rendered(Scaled(a, unit)))]
  {
    ShownAs(m, name, Scaled(a, unit));
  }

  /** Three parameters and a hidden rest: the three show in order. */
  lemma ShownTriple(m: Dict<string>, d: seq<string>, p1: (string, Arg), p2: (string, Arg),
                    p3: (string, Arg), rest: seq<(string, Arg)>)
    requires Shown(m, d, None, rest) == []
    ensures Shown(m, d, None, [p1, p2, p3] + rest) ==
            Shown(m, d, None, [p1]) + Shown(m, d, None, [p2]) + Shown(m, d, None, [p3])
  {
    var r3 := [p3] + rest;
    var r2 := [p2] + r3;
    assert [p1, p2, p3] + rest == [p1] + r2;
    ShownConcat(m, d, None, [p1], r2);
    ShownConcat(m, d, None, [p2], r3);
    ShownConcat(m, d, None, [p3], rest);
  }

  /** A hidden first parameter, three more, and a hidden rest: only the three can show. */
  lemma ShownThree(m: Dict<string>, d: seq<string>, p0: (string, Arg), p1: (string, Arg), p2: (string, Arg),
                   p3: (string, Arg), rest: seq<(string, Arg)>)
    requires p0.0 in d
    requires Shown(m, d, None, rest) == []
    ensures Shown(m, d, None, [p0, p1, p2, p3] + rest) ==
            Shown(m, d, None, [p1]) + Shown(m, d, None, [p2]) + Shown(m, d, None, [p3])
  {
    var r1 := [p1, p2, p3] + rest;
    assert [p0, p1, p2, p3] + rest == [p0] + r1;
    ShownConcat(m, d, None, [p0], r1);
    ShownSingle(m, d, None, p0);
    ShownTriple(m, d, p1, p2, p3, rest);
  }

  lemma ShownSingle(m: Dict<string>, d: seq<string>, allowed: Option<seq<string>>, p: (string, Arg))
    ensures Shown(m, d, allowed, [p]) == if Kept(d, allowed, p) then [Entry(m, p)] else []
  {
    assert [p][1..] == [];
  }

  lemma {:induction false} ShownConcat(m: Dict<string>, d: seq<string>, allowed: Option<seq<string>>,
                                       a: seq<(string, Arg)>, b: seq<(string, Arg)>)
    ensures Shown(m, d, allowed, a + b) == Shown(m, d, allowed, a) + Shown(m, d, allowed, b)
  {
    if a == [] {
      assert a + b == b;
    } else {
      assert (a + b)[0] == a[0] && (a + b)[1..] == a[1..] + b;
      ShownConcat(m, d, allowed, a[1..], b);
      var h := if Kept(d, allowed, a[0]) then [Entry(m, a[0])] else [];
      assert Shown(m, d, allowed, a + b) == h + Shown(m, d, allowed, a[1..] + b);
      assert Shown(m, d, allowed, a) == h + Shown(m, d, allowed, a[1..]);
      assert h + (Shown(m, d, allowed, a[1..]) + Shown(m, d, allowed, b)) ==
             (h + Shown(m, d, allowed, a[1..])) + Shown(m, d, allowed, b);
    }
  }

  /** Parameters that are all None or excluded render nothing. */
  lemma {:induction false} ShownNone(m: Dict<string>, d: seq<string>, ps: seq<(string, Arg)>)
    requires forall i :: 0 <= i < |ps| ==> ps[i].1.NoneArg? || ps[i].0 in d
    ensures Shown(m, d, None, ps) == []
  {
    if ps != [] {
      ShownNone(m, d, ps[1..]);
    }
  }

  /**
    `breath` with text parts refuses any truthy parameter and otherwise wraps
    the parts in automatic breaths; without text it is one manual breath.
   */
  lemma BreathCases(text: seq<string>, duration: Arg, frequency: Arg, volume: Arg, sep: string)
    ensures text != [] ==>
              (Breath(text, duration, frequency, volume, sep).Err? <==>
               ArgTruthy(duration) || ArgTruthy(frequency) || ArgTruthy(volume))
    ensures text != [] && Breath(text, duration, frequency, volume, sep).Ok? ==>
              Breath(text, duration, frequency, volume, sep).value ==
              Element("amazon:auto-breaths", Join(text, sep), "amazon:auto-breaths")
    ensures text == [] ==> Breath(text, duration, frequency, volume, sep).Ok?
  {
  }

  /** `timbre`: `adjust` wins over `absolute`, and has a sign either way; neither is an error. */
  lemma TimbreCases(adjust: Option<int>, absolute: Option<int>)
    ensures TimbreValue(adjust, absolute).Err? <==> adjust.None? && absolute.None?
    ensures adjust.Some? && adjust.value >= 0 ==> TimbreValue(adjust, absolute) == Ok("+" + IntToString(adjust.value) + "%")
    ensures adjust.Some? && adjust.value < 0 ==>
              TimbreValue(adjust, absolute).value[0] == '-' &&
              TimbreValue(adjust, absolute) == Ok(IntToString(adjust.value) + "%")
    ensures adjust.None? && absolute.Some? ==> TimbreValue(adjust, absolute) == Ok(IntToString(absolute.value) + "%")
  {
  }

  // Stripping the markup of a fixed-template builder gives back its text
  // (with the trailing '.' of `lang`); self-closing tags vanish.

  lemma CleanParagraph(text: string)
    requires Plain(text)
    ensures Clean(Paragraph(text)) == text
  {
    CleanWrapped("p", text, "p");
  }

  lemma CleanSentence(text: string)
    requires Plain(text)
    ensures Clean(Sentence(text)) == text
  {
    CleanWrapped("s", text, "s");
  }

  lemma CleanSub(abbreviation: string, alias: string)
    requires Plain(abbreviation) && Plain(alias)
    ensures Clean(Sub(abbreviation, alias)) == abbreviation
  {
    CleanWrapped("sub alias=\"" + alias + "\"", abbreviation, "sub");
  }

  lemma CleanPhoneme(text: string, alphabet: Arg, ph: string)
    requires Plain(text) && Plain(Rendered(alphabet)) && Plain(ph)
    ensures Clean(Phoneme(text, alphabet, ph)) == text
  {
    CleanWrapped("phoneme alphabet=\"" + Rendered(alphabet) + "\" ph=\"" + ph + "\"", text, "phoneme");
  }

  lemma CleanLang(text: string, languageCode: Arg)
    requires Plain(text) && Plain(Rendered(languageCode))
    ensures Clean(Lang(text, languageCode)) == text + "."
  {
    CleanElement("lang xml:lang=\"" + Rendered(languageCode) + "\"", text, "lang", ".");
  }

  lemma CleanMark(tagName: string)
    requires Plain(tagName)
    ensures Clean(Mark(tagName)) == []
  {
    CleanEmptyTag("mark name=\"" + tagName + "\"");
  }

  /** The same for the builders that join several text parts. */
  lemma CleanPartsBuilders(parts: seq<string>, sep: string)
    requires Plain(sep)
    requires forall i :: 0 <= i < |parts| ==> Plain(parts[i])
    ensures Clean(SsmlText(parts, sep)) == Join(parts, sep)
    ensures Clean(Drc(parts, sep)) == Join(parts, sep) + "."
    ensures Clean(Soft(parts, sep)) == Join(parts, sep)
    ensures Clean(Whisper(parts, sep)) == Join(parts, sep)
  {
    JoinPlain(parts, sep);
    var j := Join(parts, sep);
    CleanWrapped("speak", j, "speak");
    CleanElement("amazon:effect name=\"drc\"", j, "amazon:effect", ".");
    CleanWrapped("amazon:effect phonation=\"soft\"", j, "amazon:effect");
    CleanWrapped("amazon:effect name=\"whispered\"", j, "amazon:effect");
  }

  /** An element with no tail cleans to its text. */
  lemma CleanWrapped(a: string, t: string, n: string)
    requires a != [] && Plain(a) && Plain(t) && Plain(n)
    ensures Clean(Element(a, t, n)) == t
  {
    CleanElement(a, t, n, []);
    assert Element(a, t, n) + [] == Element(a, t, n);
  }

  /** The same for the builders whose attributes `make_params` renders. */
  lemma CleanEmphasis(text: string, level: Arg)
    requires Plain(text) && Plain(Rendered(level))
    ensures Clean(Emphasis(text, level)) == text
  {
    var params := [("text", StrArg(text)), ("level", level), ("tag", StrArg("<emphasis {params}>{text}</emphasis>"))];
    ShownMembers([], DEFAULT_EXCLUDE, None, params);
    forall e | e in Shown([], DEFAULT_EXCLUDE, None, params) ensures Plain(e.0) && Plain(e.1) {
      var i :| 0 <= i < |params| && Kept(DEFAULT_EXCLUDE, None, params[i]) && e == Entry([], params[i]);
      assert i == 1;
    }
    AttributesPlain([], DEFAULT_EXCLUDE, None, params);
    CleanWrapped("emphasis " + Attributes([], DEFAULT_EXCLUDE, None, params), text, "emphasis");
  }

  lemma CleanPause(strength: Arg, seconds: Option<int>, milliseconds: Option<int>)
    requires Plain(Rendered(strength))
    ensures Clean(Pause(strength, seconds, milliseconds)) == []
  {
    var attrs := Attributes(PAUSE_MAPPING, DEFAULT_EXCLUDE, None, PauseParams(strength, seconds, milliseconds));
    PauseAttributesPlain(strength, seconds, milliseconds);
    assert Plain("break " + attrs);
    CleanEmptyTag("break " + attrs);
  }

  lemma PauseAttributesPlain(strength: Arg, seconds: Option<int>, milliseconds: Option<int>)
    requires Plain(Rendered(strength))
    ensures Plain(Attributes(PAUSE_MAPPING, DEFAULT_EXCLUDE, None, PauseParams(strength, seconds, milliseconds)))
  {
    var params := PauseParams(strength, seconds, milliseconds);
    var sh := Shown(PAUSE_MAPPING, DEFAULT_EXCLUDE, None, params);
    PauseAttributes(strength, seconds, milliseconds);
    var a := if strength.NoneArg? then [] else [("strength", Rendered(strength))];
    var b := if seconds.None? then [] else [("time", if seconds.value == 0 then "0" else IntToString(seconds.value) + "s")];
    var c := if milliseconds.None? then [] else [("time", if milliseconds.value == 0 then "0" else IntToString(milliseconds.value) + "ms")];
    assert sh == a + b + c;
    if seconds.Some? { IntTextPlain(seconds.value, "s"); }
    if milliseconds.Some? { IntTextPlain(milliseconds.value, "ms"); }
    forall e | e in sh ensures Plain(e.0) && Plain(e.1) {
      assert e in a || e in b || e in c;
    }
    AttributesPlain(PAUSE_MAPPING, DEFAULT_EXCLUDE, None, params);
  }

  lemma IntTextPlain(i: int, unit: string)
    requires Plain(unit)
    ensures Plain(IntToString(i)) && Plain(IntToString(i) + unit)
  {
    var d := NatToString(if i < 0 then -i else i);
    assert forall k :: 0 <= k < |d| ==> d[k] != '<' && d[k] != '>';
  }

  /**
    The attribute of `whisper` as written is not quoted: with plain text the
    whole tag contains no quotation mark, while every other `amazon:effect`
    builder quotes its value. The corrected builder uses the same shape as `drc`.
   */
  lemma WhisperUnquoted(parts: seq<string>, sep: string)
    requires forall i :: 0 <= i < |parts| ==> '"' !in parts[i]
    requires '"' !in sep
    ensures '"' !in WhisperAsWritten(parts, sep)
    ensures '"' in Whisper(parts, sep)
    ensures WhisperAsWritten(parts, sep) != Whisper(parts, sep)
  {
    QuoteFreeJoin(parts, sep);
    var w := Whisper(parts, sep);
    assert w[20] == '"';
  }

  lemma {:induction false} QuoteFreeJoin(parts: seq<string>, sep: string)
    requires forall i :: 0 <= i < |parts| ==> '"' !in parts[i]
    requires '"' !in sep
    ensures '"' !in Join(parts, sep)
  {
    if |parts| > 1 {
      QuoteFreeJoin(parts[1..], sep);
    }
  }
}

=== FILE: strenum.dfy ===
/**
  The string-enum helpers (aiopolly/utils/strenum.py): member values
  generated from member names, the `filter` query over an enum's members,
  and the lookup that hands back an unknown plain string instead of failing.
  An enum is modelled by the set of its members' string values.
 */
module StrEnum {
  import opened Common

  // ---------------------------------------------------------------------------
  // generate_value
  // ---------------------------------------------------------------------------

  /** `StrItem(sep, converter)`; an absent or empty separator means "keep underscores". */
  datatype StrItem = StrItem(sep: Option<string>, converter: Option<string -> string>)

  predicate HasSep(item: StrItem)
  {
    item.sep.Some? && item.sep.value != []
  }

  /** Every '_' replaced by `rep` is the same as splitting at '_' and joining with `rep`. */
  lemma {:induction false} ReplaceIsJoinSplit(s: string, rep: string)
    ensures ReplaceChar(s, '_', rep) == Join(Split(s, '_'), rep)
  {
    if s != [] {
      var rest := Split(s[1..], '_');
      ReplaceIsJoinSplit(s[1..], rep);
      if |rest| > 1 {
        assert Join(rest, rep) == rest[0] + rep + Join(rest[1..], rep);
      }
      if s[0] == '_' {
        assert Split(s, '_') == [[]] + rest;
        assert ([[]] + rest)[1..] == rest;
      } else {
        var r := Split(s, '_');
        assert r == [[s[0]] + rest[0]] + rest[1..];
        if |rest| > 1 {
          assert r[1..] == rest[1..];
        }
      }
    }
  }

  /**
    The value a member gets: the name after the converter (when there is
    one), with its '_'-separated words rejoined by the separator (when there
    is one).
   */
  function Generated(item: StrItem, name: string): string
  {
    var n := if item.converter.Some? then item.converter.value(name) else name;
    if HasSep(item) then Join(Split(n, '_'), item.sep.value) else n
  }

  /** `StrItem.generate_value`: convert first, then replace every '_' by the separator. */
  method GenerateValue(item: StrItem, name: string) returns (r: string)
    ensures r == Generated(item, name)
  {
    r := name;
    if item.converter.Some? {
      r := item.converter.value(r);
    }
    if HasSep(item) {
      ReplaceIsJoinSplit(r, item.sep.value);
      r := ReplaceChar(r, '_', item.sep.value);
    }
  }

  /**
    Without converter and separator the name is the value; a separator
    without '_' leaves no '_' behind; and a one-character separator that
    does not occur in the converted name can be replaced back to recover it.
   */
  lemma GeneratedShape(item: StrItem, name: string)
    ensures item.converter.None? && !HasSep(item) ==> Generated(item, name) == name
    ensures HasSep(item) && '_' !in item.sep.value ==> '_' !in Generated(item, name)
    ensures item.converter.None? && item.sep == Some("-") && '-' !in name ==>
              ReplaceChar(Generated(item, name), '-', "_") == name
  {
    var n := if item.converter.Some? then item.converter.value(name) else name;
    if HasSep(item) {
      ReplaceIsJoinSplit(n, item.sep.value);
      if item.sep == Some("-") && '-' !in n {
        ReplaceCharBack(n, '_', '-');
      }
    }
  }

  // ---------------------------------------------------------------------------
  // filter
  // ---------------------------------------------------------------------------

  /** The four criteria, in the order `filter` applies them. */
  datatype Criterion = Contains | StartsWith_ | EndsWith_ | ContainedIn

  /** The criteria's arguments; an absent or empty one is not applied. */
  datatype Criteria = Criteria(contains: Option<string>, startswith: Option<string>,
                               endswith: Option<string>, containedIn: Option<string>)

  function Arg(c: Criteria, k: Criterion): Option<string>
  {
    match k
    case Contains => c.contains
    case StartsWith_ => c.startswith
    case EndsWith_ => c.endswith
    case ContainedIn => c.containedIn
  }

  predicate Given(c: Criteria, k: Criterion)
  {
    Arg(c, k).Some? && Arg(c, k).value != []
  }

  /** `prepare`: lower-case unless the comparison is case-sensitive. */
  function Prepare(caseSensitive: bool, v: string): string
  {
    if caseSensitive then v else LowerStr(v)
  }

  /** The test of one criterion between its (prepared) argument and a (prepared) member. */
  predicate Test(k: Criterion, arg: string, e: string)
  {
    match k
    case Contains => IsSubstring(arg, e)
    case StartsWith_ => StartsWith(e, arg)
    case EndsWith_ => EndsWith(e, arg)
    case ContainedIn => IsSubstring(e, arg)
  }

  predicate Passes(c: Criteria, k: Criterion, caseSensitive: bool, e: string)
    requires Given(c, k)
  {
    Test(k, Prepare(caseSensitive, Arg(c, k).value), Prepare(caseSensitive, e))
  }

  predicate AnyGiven(c: Criteria)
  {
    exists k :: Given(c, k)
  }

  /** The reference: which members a query finds, member by member. */
  predicate Found(c: Criteria, caseSensitive: bool, intersection: bool, e: string)
  {
    if intersection then forall k :: Given(c, k) ==> Passes(c, k, caseSensitive, e)
    else exists k :: Given(c, k) && Passes(c, k, caseSensitive, e)
  }

  /** What `filter` returns: nothing without criteria, else the found members or their complement. */
  function Filtered(members: set<string>, c: Criteria, caseSensitive: bool, intersection: bool, inverse: bool)
    : set<string>
  {
    if !AnyGiven(c) then {}
    else if inverse then set e | e in members && !Found(c, caseSensitive, intersection, e)
    else set e | e in members && Found(c, caseSensitive, intersection, e)
  }

  /** The members one criterion selects. */
  function FoundBy(members: set<string>, c: Criteria, k: Criterion, caseSensitive: bool): set<string>
    requires Given(c, k)
  {
    set e | e in members && Passes(c, k, caseSensitive, e)
  }

  /** `sets[0].intersection(*sets[1:])` */
  function IntersectAll(sets: seq<set<string>>): set<string>
    requires |sets| >= 1
  {
    if |sets| == 1 then sets[0] else sets[0] * IntersectAll(sets[1..])
  }

  /** `sets[0].union(*sets[1:])` */
  function UnionAll(sets: seq<set<string>>): set<string>
    requires |sets| >= 1
  {
    if |sets| == 1 then sets[0] else sets[0] + UnionAll(sets[1..])
  }

  /** The per-criterion sets of the given criteria `ks`, in order. */
  ghost predicate SetsOf(sets: seq<set<string>>, ks: seq<Criterion>, members: set<string>, c: Criteria, cs: bool)
  {
    |sets| == |ks| &&
    forall i :: 0 <= i < |ks| ==> Given(c, ks[i]) && sets[i] == FoundBy(members, c, ks[i], cs)
  }

  lemma {:induction false} IntersectAllMembers(sets: seq<set<string>>, ks: seq<Criterion>, members: set<string>,
                                               c: Criteria, cs: bool, e: string)
    requires |sets| >= 1 && SetsOf(sets, ks, members, c, cs)
    ensures e in IntersectAll(sets) <==> e in members && forall k :: k in ks ==> Passes(c, k, cs, e)
  {
    if |sets| > 1 {
      IntersectAllMembers(sets[1..], ks[1..], members, c, cs, e);
      assert forall k :: k in ks <==> k == ks[0] || k in ks[1..] by {
        assert ks == [ks[0]] + ks[1..];
      }
    }
  }

  lemma {:induction false} UnionAllMembers(sets: seq<set<string>>, ks: seq<Criterion>, members: set<string>,
                                           c: Criteria, cs: bool, e: string)
    requires |sets| >= 1 && SetsOf(sets, ks, members, c, cs)
    ensures e in UnionAll(sets) <==> e in members && exists k :: k in ks && Passes(c, k, cs, e)
  {
    if |sets| > 1 {
      UnionAllMembers(sets[1..], ks[1..], members, c, cs, e);
      assert forall k :: k in ks <==> k == ks[0] || k in ks[1..] by {
        assert ks == [ks[0]] + ks[1..];
      }
    } else {
      assert forall k :: k in ks <==> k == ks[0];
    }
  }

  lemma SetsOfAppend(sets: seq<set<string>>, ks: seq<Criterion>, members: set<string>, c: Criteria, cs: bool,
                     k: Criterion, found: set<string>)
    requires SetsOf(sets, ks, members, c, cs) && Given(c, k) && found == FoundBy(members, c, k, cs)
    ensures SetsOf(sets + [found], ks + [k], members, c, cs)
  {
  }

  /** Combining the per-criterion sets of all given criteria yields the reference's found members. */
  lemma CombineFound(sets: seq<set<string>>, ks: seq<Criterion>, members: set<string>, c: Criteria, cs: bool,
                     intersection: bool)
    requires |sets| >= 1 && SetsOf(sets, ks, members, c, cs)
    requires forall k :: k in ks <==> Given(c, k)
    ensures (if intersection then IntersectAll(sets) else UnionAll(sets)) ==
              set e | e in members && Found(c, cs, intersection, e)
  {
    forall e
      ensures e in (if intersection then IntersectAll(sets) else UnionAll(sets)) <==>
                e in members && Found(c, cs, intersection, e)
    {
      if intersection {
        IntersectAllMembers(sets, ks, members, c, cs, e);
      } else {
        UnionAllMembers(sets, ks, members, c, cs, e);
      }
    }
  }

  /** One step of `filter`: a given criterion adds the set of members passing its test. */
  method Collect(members: set<string>, c: Criteria, caseSensitive: bool, k: Criterion,
                 foundSets: seq<set<string>>, ghost ks: seq<Criterion>)
    returns (foundSets': seq<set<string>>, ghost ks': seq<Criterion>)
    requires SetsOf(foundSets, ks, members, c, caseSensitive)
    ensures SetsOf(foundSets', ks', members, c, caseSensitive)
    ensures ks' == ks + (if Given(c, k) then [k] else [])
  {
    foundSets', ks' := foundSets, ks;
    if Given(c, k) {
      var arg := Prepare(caseSensitive, Arg(c, k).value);
      var s := set e | e in members && Test(k, arg, Prepare(caseSensitive, e));
      SetsOfAppend(foundSets, ks, members, c, caseSensitive, k, s);
      foundSets', ks' := foundSets + [s], ks + [k];
    }
  }

  /** `BaseStrEnum.filter`: one set per given criterion, then combined, then possibly inverted. */
  method Filter(members: set<string>, c: Criteria, caseSensitive: bool, intersection: bool, inverse: bool)
    returns (r: set<string>)
    ensures r == Filtered(members, c, caseSensitive, intersection, inverse)
  {
    var foundSets: seq<set<string>> := [];
    ghost var ks: seq<Criterion> := [];
    foundSets, ks := Collect(members, c, caseSensitive, Contains, foundSets, ks);
    foundSets, ks := Collect(members, c, caseSensitive, StartsWith_, foundSets, ks);
    foundSets, ks := Collect(members, c, caseSensitive, EndsWith_, foundSets, ks);
    foundSets, ks := Collect(members, c, caseSensitive, ContainedIn, foundSets, ks);
    assert forall k :: k in ks <==> Given(c, k);
    if foundSets == [] {
      assert !AnyGiven(c);
      return {};
    }
    assert Given(c, ks[0]);
    var found := if intersection then IntersectAll(foundSets) else UnionAll(foundSets);
    CombineFound(foundSets, ks, members, c, caseSensitive, intersection);
    if inverse {
      return members - found;
    }
    return found;
  }

  /**
    The result is always among the members; with criteria, inverting
    returns exactly the members not found otherwise; without criteria the
    result is empty whatever the flags.
   */
  lemma FilteredShape(members: set<string>, c: Criteria, cs: bool, intersection: bool)
    ensures Filtered(members, c, cs, intersection, false) <= members
    ensures Filtered(members, c, cs, intersection, true) <= members
    ensures AnyGiven(c) ==>
              Filtered(members, c, cs, intersection, true) == members - Filtered(members, c, cs, intersection, false)
    ensures !AnyGiven(c) ==> Filtered(members, c, cs, intersection, true) == {}
  {
  }

  /** With a single criterion, intersection and union agree; with more, the intersection is the smaller. */
  lemma IntersectionWithinUnion(members: set<string>, c: Criteria, cs: bool)
    ensures Filtered(members, c, cs, true, false) <= Filtered(members, c, cs, false, false)
    ensures Given(c, Contains) && !Given(c, StartsWith_) && !Given(c, EndsWith_) && !Given(c, ContainedIn) ==>
              Filtered(members, c, cs, true, false) == Filtered(members, c, cs, false, false)
  {
    if AnyGiven(c) {
      var k0 :| Given(c, k0);
      forall e | e in members && Found(c, cs, true, e)
        ensures Found(c, cs, false, e)
      {
        assert Passes(c, k0, cs, e);
      }
    }
    if Given(c, Contains) && !Given(c, StartsWith_) && !Given(c, EndsWith_) && !Given(c, ContainedIn) {
      assert forall k :: Given(c, k) ==> k == Contains;
      forall e | e in members && Found(c, cs, false, e)
        ensures Found(c, cs, true, e)
      {
      }
    }
  }

  /** Case-insensitive `contains` finds a member whatever the case of either side. */
  lemma ContainsIgnoresCase(members: set<string>, arg: string, e: string)
    requires arg != [] && e in members
    ensures e in Filtered(members, Criteria(Some(arg), None, None, None), false, true, false) <==>
              IsSubstring(LowerStr(arg), LowerStr(e))
  {
    var c := Criteria(Some(arg), None, None, None);
    assert Given(c, Contains);
    assert forall k :: Given(c, k) ==> k == Contains;
  }

  // ---------------------------------------------------------------------------
  // Lookup by value
  // ---------------------------------------------------------------------------

  /** `__return_missing__` of `BaseStrEnum` and of `StrEnum`. */
  const BASE_RETURN_MISSING := false
  const STR_ENUM_RETURN_MISSING := true

  /** What is looked up: a plain `str`, an instance of a `str` subclass, or anything else. */
  datatype Lookup = PlainStr(s: string) | StrSubclass(s: string) | NotStr

  /** A member, or the plain string handed back. */
  datatype Looked = Member(value: string) | Missing(value: string)

  /**
    `StrEnumMeta.__call__` without keyword arguments: a value equal to a
    member's gives that member; otherwise a plain `str` comes back as it is
    when the enum returns missing values, and every other case is the
    `ValueError`.
   */
  function LookupValue(members: set<string>, returnMissing: bool, v: Lookup): (r: Option<Looked>)
    ensures r.Some? ==> !v.NotStr? && r.value.value == v.s
    ensures r.Some? && r.value.Member? <==> !v.NotStr? && v.s in members
    ensures r.Some? && r.value.Missing? <==> returnMissing && v.PlainStr? && v.s !in members
  {
    if !v.NotStr? && v.s in members then Some(Member(v.s))
    else if returnMissing && v.PlainStr? then Some(Missing(v.s))
    else None
  }

  /** A `StrEnum` accepts every plain string; a `BaseStrEnum` only its members' values. */
  lemma LookupDefaults(members: set<string>, s: string)
    ensures LookupValue(members, STR_ENUM_RETURN_MISSING, PlainStr(s)).Some?
    ensures LookupValue(members, BASE_RETURN_MISSING, PlainStr(s)).Some? <==> s in members
    ensures LookupValue(members, STR_ENUM_RETURN_MISSING, StrSubclass(s)).Some? <==> s in members
  {
  }
}
